=== FILE: README.md ===
# SpillTea chat server core, modelled in Dafny

SpillTea is an anonymous chat server. Clients hold a SignalR connection to a
chat hub. The hub keeps a presence registry from connection id to user id and
pairs users at random into new chats. It fans messages out to each chat's
group and records delivery (Sent, Received, Read) through three event
handlers that also keep each chat's summary up to date. A profile service
validates age and gender and hands out `displayName#tag` user names. Two
paginated queries serve message history and the chat list.

This project models that core as pure functions over immutable state. Each
hub method is one atomic step over the hub's shared state (registry, waiting
slot, groups, database tables, identity store) and returns the outbound calls
it makes. Each call pairs an audience (`Caller`, `Others`, `All`, `Group`,
`GroupExcept`, `ToUser`) with an event. Several inputs come from outside:
- the random draw for matchmaking;
- the fresh chat name of the older hub;
- the random tag draws;
- the clock;
- whether the identity store accepts an update.

These are parameters.

Every save runs an auditing interceptor (registered at
`src/Infrastructure/DependencyInjection.cs:27`). It stamps `Created` on each
added row, and `LastModified` on each added or modified row, with the save
time. A row counts as modified only when one of its values changed. The
handlers take the save time as `now` and stamp exactly those rows, so both
list orders ("last change") follow the saves. The database is SQL Server
(`src/Infrastructure/DependencyInjection.cs:36`).

Modules, one per file:

- `Wrappers`, `Seqs`, `Text`: the option and result types. LINQ's
  `Where`, `Count`, `Select`, `Distinct`, `OrderBy`, `Skip` and `Take`. The .NET
  string tests, `int.ToString()` and `ToString("D4")`.
- `Entities`, `Dtos`: the message state enum, messages, chats, users, and the
  store of chat and message tables; the transfer objects.
- `Delivery`: the sent, received and read event handlers.
- `Signals`: audiences, group membership and who an outbound call reaches.
- `Presence`: the connection registry, modelled as an ordered sequence of
  entries with unique keys, so that "the first entry for a user" has a
  meaning. Also connect, disconnect, and replay of connect/disconnect
  histories.
- `SearchFilters`: the filter object and the three-stage candidate filter.
- `Matchmaking`: snapshot-and-select matchmaking. The pool is every other
  connection's user, the profiles go through the filter, and one is drawn.
  Then the partner's connection is resolved, a chat is created and both
  connections join its group.
- `ChatHub`: the hub that is mapped at `/hubs/chat`, composing the above.
- `WaitingSlot`: the older, unmapped hub, which pairs users through a single
  waiting slot.
- `Account`, `CurrentUser`: profile validation, setup, demographics, tag
  generation, and the `SetupComplete` flag.
- `Pagination`: the message-history and chat-list queries.

Behaviours of the code worth noting:

- The read handler sets Read from every state, Error included. It recounts
  unread messages for the id carried in the event, which the hub fills with
  the reader's id.
- The hub sends a message with no check on its body.
- Sending a message does not store it. The sent handler only recounts the
  summary of the chat that is already stored.

## Model

| member | source | states |
|---|---|---|
| Entities.FromOrdinal | src/Domain/Entities/ChatMessage.cs:18-24 | An integer names a delivery state exactly when it is 0..3, and the named state's ordinal is that integer. So the state space is exactly Sent, Received, Read, Error, in that order. |
| Entities.OrdinalRoundTrip | src/Domain/Entities/ChatMessage.cs:18-24 | Every state is recovered from its ordinal. |
| Entities.DefaultState | src/Domain/Entities/ChatMessage.cs:12-20 | The default state of a message is the enum's zero value, Sent. |
| Entities.NewMessage | src/Domain/Entities/ChatMessage.cs:5-12 | A freshly constructed message has an empty guid, sender and body, and is in the zero state. |
| Entities.NewChat | src/Domain/Entities/Chat.cs:5-14 | A new chat has unread count 0, an empty last message and no member users. |
| Entities.MessagesOf | src/Domain/Entities/Chat.cs:11 | A chat's messages are exactly the stored messages whose chat id is the chat's id. |
| Entities.CreateChat | src/Application/Chat/Hubs/ChatHub.cs:192-195 | Saving a new chat appends a row with a never-used id. It keeps the store well formed, and no message belongs to the new chat. |
| Delivery.HandleSent | src/Application/Chat/Events/ChatMessageSent.cs:12-29 | An unknown chat id changes nothing. Otherwise only that chat changes: its unread count becomes the number of its messages that are not Read and were not sent by the event's sender, and its last message becomes the event's body. The save stamps the chat's last change with the save time exactly when the count or the last message changed. No message changes. |
| Delivery.SentSummaryBounds | src/Application/Chat/Events/ChatMessageSent.cs:21 | After the sent event, 0 ≤ unread count ≤ the chat's number of messages. |
| Delivery.SentIdempotent | src/Application/Chat/Events/ChatMessageSent.cs:14-27 | Handling the same sent event twice, the second time at any later save time, gives the same store as handling it once: the repeat changes no value, so nothing is stamped again. |
| Delivery.HandleReceived | src/Application/Chat/Events/ChatMessageReceived.cs:11-21 | An unknown id changes nothing. The target message moves to Received, stamped with the save time, when it was Sent; otherwise it stays put with its old stamp. No other message or chat changes. |
| Delivery.ReceivedNeverRegresses | src/Application/Chat/Events/ChatMessageReceived.cs:16-18 | The received event never moves a message backwards in Sent < Received < Read. It never changes a message that is Read or Error. |
| Delivery.ReceivedIdempotent | src/Application/Chat/Events/ChatMessageReceived.cs:13-19 | Applying the received event twice, at any two save times, equals applying it once. |
| Delivery.HandleRead | src/Application/Chat/Events/ChatMessageRead.cs:11-27 | An unknown id changes nothing. Otherwise the target message becomes Read whatever its state. Its chat's unread count is recounted over the updated messages for the event's user. The message is stamped with the save time unless it was already Read, and the chat unless its count is unchanged. No other chat, and no other field, changes. |
| Delivery.ReadTakesEffect | src/Application/Chat/Events/ChatMessageRead.cs:20 | In a well-formed store the target message is Read afterwards, from any prior state, Error included. |
| Delivery.ReadCountExcludesReadMessage | src/Application/Chat/Events/ChatMessageRead.cs:20-22 | The message just read is never counted, so the recount is strictly below the chat's number of messages. |
| Delivery.ReadRecountFromPrevious | src/Application/Chat/Events/ChatMessageRead.cs:20-22 | The new unread count equals the count before the event, less one exactly when the message just read was unread for the reader. |
| Delivery.ReadIdempotent | src/Application/Chat/Events/ChatMessageRead.cs:18-22 | Applying the read event twice, at any two save times, equals applying it once. |
| Delivery.HandlersKeepWellformed | src/Domain/Entities/ChatMessage.cs:11-15 | All three handlers keep keys unique and every message attached to an existing chat. |
| Delivery.ReadStampsNewest | src/Application/Chat/Events/ChatMessageRead.cs:20-25 | Reading a message that was not Read, saved after every stored stamp, gives it the newest stamp of all messages. |
| Delivery.ReadIsFinalForReceived | src/Application/Chat/Events/ChatMessageReceived.cs:16 | Received then Read, and Read then Received, both leave the message Read: a late received event cannot undo a read. |
| Presence.Upsert | src/Application/Chat/Hubs/ChatHub.cs:31 | Registering a connection makes it look up to the new user (overwriting any entry) and leaves every other connection's lookup unchanged. |
| Presence.Remove | src/Application/Chat/Hubs/ChatHub.cs:43 | Removal reports the connection's user if it had one. Afterwards the connection looks up to nothing and every other lookup is unchanged. |
| Presence.ActiveUsers | src/Application/Chat/Hubs/ChatHub.cs:35 | The snapshot has no duplicates and holds exactly the users of registry entries. |
| Presence.ActiveUsersAreConnected | src/Application/Chat/Hubs/ChatHub.cs:35 | A user is in the snapshot exactly when some connection looks up to it. |
| Presence.FirstConnOf | src/Application/Chat/Hubs/ChatHub.cs:184-185 | The resolved connection is registered to the user; no connection is resolved only when the user has no entry. |
| Presence.Connect | src/Application/Chat/Hubs/ChatHub.cs:24-39 | With no user id, or an empty or missing user name, nothing happens. Otherwise the connection is registered to the user, the other clients are told, and the caller receives the snapshot. |
| Presence.ConnectSnapshot | src/Application/Chat/Hubs/ChatHub.cs:35 | The caller's snapshot names every connected user once, its own user among them, and nobody else. |
| Presence.Disconnect | src/Application/Chat/Hubs/ChatHub.cs:41-46 | Only the caller's entry is removed. UserDisconnected goes to the others exactly when there was an entry. |
| Presence.ReleaseWaiting | src/Application/Chat/Hubs/ChatHub.cs:49-55 | The waiting slot is emptied exactly when the disconnecting connection holds it, and is otherwise unchanged. |
| Presence.ReplayLookup | src/Application/Chat/Hubs/ChatHub.cs:24-58 | After any history of connects and disconnects, a connection's user is the one given by its last effective step, and keys stay unique. |
| Presence.PresenceIsOpenConnections | src/Application/Chat/Hubs/ChatHub.cs:24-58 | After any history, the active users are exactly the users holding at least one open connection. |
| SearchFilters.Defaults | src/Application/Chat/Dtos/SearchFiltersDto.cs:3-10 | A default filter has both switches off, ages 18..100 and no gender preferences. |
| SearchFilters.ApplySearchFilters | src/Application/Chat/Hubs/ChatHub.cs:205-235 | The result is an order-preserving subsequence of the candidates. It keeps exactly the candidates that meet every enabled predicate: age within [MinAge, MaxAge], a non-empty gender in the preference list, and age within 5 years of the requester's. Both age predicates are skipped when the requester has no age. |
| SearchFilters.ApplySearchFiltersIsOneFilter | src/Application/Chat/Hubs/ChatHub.cs:205-235 | The three filtering stages equal one filter by the conjunction of the enabled predicates. |
| SearchFilters.DefaultsKeepEveryone | src/Application/Chat/Dtos/SearchFiltersDto.cs:5-9 | A default filter keeps every candidate, in order. |
| SearchFilters.SameAgeGroupExample | src/Application/Chat/Hubs/ChatHub.cs:227-232 | A requester aged 22 keeps a candidate aged 20 and drops one aged 40. |
| Matchmaking.Pool | src/Application/Chat/Hubs/ChatHub.cs:145-150 | A user id is in the pool exactly when some entry with another connection id maps to it. |
| Matchmaking.Profiles | src/Application/Chat/Hubs/ChatHub.cs:156-166 | The profiles are those of pool ids that have one; ids without a profile are dropped. |
| Matchmaking.FindRandomChatWithFilters | src/Application/Chat/Hubs/ChatHub.cs:131-203 | The failures come in this order, each before any chat is created: unauthenticated, missing profile, empty pool, no candidate after filtering. On success the partner is a filtered candidate and its connection is the first registry entry for that user. Both connections are in the new chat's group, the chat is new and empty, and nothing else changes. |
| Matchmaking.OpenChat | src/Application/Chat/Hubs/ChatHub.cs:191-201 | Opening a chat saves one new chat row and leaves the messages alone. In a well-formed store the new id is unused and the chat has no messages. Its group gains exactly the caller's and the partner's connections, and every other group is unchanged. |
| Matchmaking.PartnerAlwaysAvailable | src/Application/Chat/Hubs/ChatHub.cs:183-190 | When profiles are keyed by their ids and connection ids are non-empty, the "no longer available" failure cannot occur in this sequential model. |
| Matchmaking.NullFiltersAreDefaults | src/Application/Chat/Hubs/ChatHub.cs:126-129 | Null filters and a default filter give the same outcome, so FindRandomChat applies no filter. |
| Matchmaking.PoolKeepsDuplicates | src/Application/Chat/Hubs/ChatHub.cs:145-150 | A user with two connections appears twice in another caller's pool. |
| Matchmaking.SelfMatch | src/Application/Chat/Hubs/ChatHub.cs:179-185 | A user connected twice can be paired with itself, and the partner connection can be the caller's own. |
| Matchmaking.FindRandomChatOtherUsers | src/Application/Chat/Hubs/ChatHub.cs:145-150 | With the pool restricted to other users, the partner is never the caller's user and is registered to its connection. When the caller's connection is unregistered or registered to the caller, the partner connection is never the caller's. |
| Matchmaking.ScenarioAgeAndGender | src/Application/Chat/Hubs/ChatHub.cs:205-235 | A male aged 25 filtering for females aged 20..30 is paired with the only such user, a female aged 27. |
| ChatHub.OnConnected | src/Application/Chat/Hubs/ChatHub.cs:24-39 | Connecting updates only the registry and relays the presence calls. |
| ChatHub.OnDisconnected | src/Application/Chat/Hubs/ChatHub.cs:41-58 | Disconnecting removes only the caller's entry and announces it exactly when there was one. It frees the waiting slot only for its holder and leaves groups and store alone. |
| ChatHub.SendMessage | src/Application/Chat/Hubs/ChatHub.cs:60-70 | Without a user id nothing happens. Otherwise the message goes to the chat's group except the caller, and the sent handler runs. |
| ChatHub.MarkMessageReceived | src/Application/Chat/Hubs/ChatHub.cs:72-89 | Without a user id, or for an unknown message id, nothing happens. Otherwise the received handler runs and the message's group, except the caller, is told. |
| ChatHub.MarkMessageRead | src/Application/Chat/Hubs/ChatHub.cs:91-108 | The same guards as marking received, then the read handler with the caller's user id, then the fanout except the caller. |
| ChatHub.FanoutExcludesCaller | src/Application/Chat/Hubs/ChatHub.cs:60-108 | Every fanout of send and of both marks excludes the caller's connection, so the caller is never a recipient. |
| ChatHub.JoinChat | src/Application/Chat/Hubs/ChatHub.cs:110-116 | The caller joins exactly the chat's group. The group, the caller included, is told who joined, as "Anonymous" when unauthenticated. |
| ChatHub.LeaveChat | src/Application/Chat/Hubs/ChatHub.cs:118-124 | The caller leaves exactly the chat's group and the group is told. |
| ChatHub.JoinThenLeave | src/Application/Chat/Hubs/ChatHub.cs:110-124 | Joining and then leaving restores the group's membership. |
| ChatHub.ChatGroupsDistinct | src/Application/Chat/Hubs/ChatHub.cs:196-200 | Distinct chats have distinct group names. |
| ChatHub.FindRandomChatWithFilters | src/Application/Chat/Hubs/ChatHub.cs:131-203 | The hub fails exactly when matchmaking does. On success it adopts the new store and groups, returns the new chat's id, and both connections are in that chat's group. |
| ChatHub.FindRandomChat | src/Application/Chat/Hubs/ChatHub.cs:126-129 | Matchmaking without filters behaves as with a default filter. |
| ChatHub.WaitingSlotStaysEmpty | src/Application/Chat/Hubs/ChatHub.cs:20-22 | No method of this hub ever fills its waiting slot. |
| ChatHub.DeliveryScenario | src/Application/Chat/Hubs/ChatHub.cs:72-108 | A sent message marked received at time 1 and read by the other user at time 2 ends Read with unread count 0 and last change 2. The chat keeps its stamp because its count did not change. The sender's side hears both marks, in order. |
| WaitingSlot.OnConnected | src/Application/Hubs/ChatHub.cs:19-34 | With no user id, or an empty or missing user name, nothing happens. Otherwise the connection is registered to the user, every other connection's lookup is unchanged and keys stay unique; the other clients are told and the caller receives the snapshot. The slot and groups are left alone. |
| WaitingSlot.OnDisconnected | src/Application/Hubs/ChatHub.cs:36-53 | Removes only the caller's entry and announces it exactly when it existed. The slot empties exactly when the caller held it. |
| WaitingSlot.SendMessage | src/Application/Hubs/ChatHub.cs:55-70 | With a null user id or an empty message nothing is sent. Otherwise every client receives the sender's id, its name (or "Anonymous") and the text. |
| WaitingSlot.SendPrivateMessage | src/Application/Hubs/ChatHub.cs:72-88 | Same guards. The recipient user and the caller each get the same note. |
| WaitingSlot.JoinChat | src/Application/Hubs/ChatHub.cs:90-103 | An empty chat name is a no-op. Otherwise the caller joins that group and the group is told. |
| WaitingSlot.LeaveChat | src/Application/Hubs/ChatHub.cs:105-117 | An empty chat name is a no-op. Otherwise the caller leaves that group and the group is told. |
| WaitingSlot.FindRandomChat | src/Application/Hubs/ChatHub.cs:119-165 | With the slot empty, the caller takes it and waits. Otherwise the slot empties and the caller pairs with the previous occupant, both in the fresh chat's group. |
| WaitingSlot.ResumeWaiter | src/Application/Hubs/ChatHub.cs:143-150 | The resumed waiter returns the chat name it was completed with. That group becomes exactly its old members plus the waiter, and every other group is unchanged. |
| WaitingSlot.PairingIsSymmetric | src/Application/Hubs/ChatHub.cs:143-163 | Both ends of a pair return the same chat name and share its group. The waiter's own join changes nothing. |
| WaitingSlot.WaiterPairsWithItself | src/Application/Hubs/ChatHub.cs:126-141 | A waiting connection that calls again is paired with itself; the occupant is never compared with the caller. |
| WaitingSlot.DisconnectedWaiterIsNotPaired | src/Application/Hubs/ChatHub.cs:44-50 | After the waiter disconnects, the next caller waits instead of pairing with it. |
| WaitingSlot.RunPairsInArrivalOrder | src/Application/Hubs/ChatHub.cs:126-141 | From an empty slot, callers pair off in arrival order: even-numbered calls wait, and each odd-numbered call pairs with the call just before it. At most one connection waits, and it waits exactly when the number of calls is odd, and then it is the last caller. |
| Text.IntToString | src/Application/Chat/Hubs/ChatHub.cs:196 | A chat id's group name is its decimal text, whose digits read back as the id's magnitude. |
| Text.IntToStringInjective | src/Application/Chat/Hubs/ChatHub.cs:196 | Distinct ids have distinct decimal texts. |
| Text.FormatD4 | src/Application/User/Services/AccountService.cs:153 | A drawn tag is four decimal digits, zero-padded, reading back as the draw. |
| Text.FormatD4Onto | src/Application/User/Services/AccountService.cs:153 | Every four-digit string is the tag of exactly one draw in 0..9999. |
| Account.IsUserSetupComplete | src/Application/User/Services/AccountService.cs:60-71 | An unknown user raises NotFound. Otherwise setup is complete exactly when display name and tag are non-empty, age is at least 18 and gender is present. |
| Account.Validate | src/Application/User/Services/AccountService.cs:82-98 | Age is checked before gender. A present age outside [18, 100] is rejected and an absent one accepted. A non-empty gender whose lower-case form is not male, female, other or prefer_not_to_say is rejected; null or empty is accepted. |
| Account.GenderAcceptsAnyCase | src/Application/User/Services/AccountService.cs:89-98 | "Female", "FEMALE", the empty string and null are accepted. |
| Account.GenderRejectsOthers | src/Application/User/Services/AccountService.cs:89-98 | "femme", "female " and "f" are rejected. |
| Account.GenderCaseInsensitive | src/Application/User/Services/AccountService.cs:94 | Changing a gender's case never changes whether it is accepted. |
| Account.FreeTag | src/Application/User/Services/AccountService.cs:147-158 | The tag is the first drawn tag not already held by a user with the same display name: it is some draw's tag, free and four digits, and every earlier draw's tag is taken. No tag exactly when every draw's tag is taken. |
| Account.GenerateUniqueTag | src/Application/User/Services/AccountService.cs:147-158 | The draw loop computes exactly that tag. |
| Account.FullDisplayNameHasNoTag | src/Application/User/Services/AccountService.cs:151-155 | When all 10000 tags are taken for a display name, no run of draws ends. |
| Account.UserNameSplits | src/Application/User/Services/AccountService.cs:107 | A `displayName#tag` user name with a four-character tag splits back into display name and tag, even when the display name contains '#'. |
| Account.UserNameInjective | src/Application/User/Services/AccountService.cs:107 | Two setups get the same user name only with the same display name and tag. |
| Account.FreeTagGivesFreshUserName | src/Application/User/Services/AccountService.cs:100-107 | A free tag gives a user name no set-up user already has. |
| Account.CompleteUserSetup | src/Application/User/Services/AccountService.cs:73-111 | Failures come in source order: NotFound, then an invalid age, then an invalid gender, each before anything is written. On a saved success the display name, tag, age and gender are stored as given, the tag is free and four digits, the user name is `displayName#tag`, and no other user changes. |
| Account.UpdateUserDemographics | src/Application/User/Services/AccountService.cs:113-145 | Same guards. Success happens exactly when the user exists and both values pass, and then only age and gender change. |
| Account.SameValidation | src/Application/User/Services/AccountService.cs:73-145 | Setup and demographics update reject exactly the same inputs, with the same error. |
| Account.SetupMakesComplete | src/Application/User/Services/AccountService.cs:60-111 | After a saved setup, the user is complete exactly when the display name is non-empty and age and gender were given. |
| Account.StoredGenderKeepsCase | src/Application/User/Services/AccountService.cs:105 | A gender given as "Female" is stored as "Female", not lower-cased. |
| CurrentUser.SetupComplete | src/Application/User/Dtos/CurrentUserDto.cs:12 | The flag is false when the tag is null, empty or white space, when age is absent, or when gender is null. It is true otherwise, with an empty gender counting as present. |
| CurrentUser.SetupCompleteIgnoresIdentity | src/Application/User/Dtos/CurrentUserDto.cs:12 | The flag ignores display name, name, e-mail and the age's value. |
| CurrentUser.CompleteProfileHasFlag | src/Application/User/Dtos/CurrentUserDto.cs:12 | A profile the service calls complete carries the flag whenever its tag is not all white space. |
| CurrentUser.FlagAcceptsMinorWithoutName | src/Application/User/Dtos/CurrentUserDto.cs:12 | The flag accepts a 15-year-old without a display name, which the service rejects. |
| CurrentUser.ServiceAcceptsBlankTag | src/Application/User/Dtos/CurrentUserDto.cs:12 | The service accepts a tag of one space, which the flag rejects. |
| CurrentUser.GetCurrentUser | src/Application/User/Queries/GetCurrentUserQuery.cs:11-18 | The query fills in id, name and e-mail only. |
| CurrentUser.QueryNeverSetupComplete | src/Application/User/Queries/GetCurrentUserQuery.cs:13-17 | So the object the query returns never carries the flag. |
| Pagination.DefaultMessagesQuery | src/Application/Chat/Queries/GetChatMessagesWithPaginationQuery.cs:7-11 | The defaults are chat 1, page 1 and page size 10. |
| Pagination.DefaultChatsQuery | src/Application/Chat/Queries/GetChatsWithPaginationQuery.cs:7-11 | The defaults are page 1 and page size 10. |
| Pagination.Page | src/Application/Chat/Queries/GetChatMessagesWithPaginationQuery.cs:27-28 | Over a list, a page is the contiguous run of at most PageSize elements from (PageNumber − 1) · PageSize, clamped to the list, and empty for a non-positive size. The queries only cut pages the database accepts. |
| Pagination.PagingAcceptedExactly | src/Application/Chat/Queries/GetChatMessagesWithPaginationQuery.cs:27-28 | SQL Server's OFFSET/FETCH, which rejects a negative offset and a fetch count below 1, runs exactly the requests with page number and page size both at least 1. |
| Pagination.PageOfIndex | src/Application/Chat/Queries/GetChatMessagesWithPaginationQuery.cs:27-28 | Element i is on page i / size + 1, at position i mod size. |
| Pagination.PagesAreAPrefix | src/Application/Chat/Queries/GetChatMessagesWithPaginationQuery.cs:27-28 | Pages 1..k laid end to end are the first k · size elements: pages neither overlap nor leave gaps. |
| Pagination.History | src/Application/Chat/Queries/GetChatMessagesWithPaginationQuery.cs:19-26 | Ordering the whole table and then restricting to the chat yields exactly the chat's messages, sorted by last change (the audit stamp of their last save). |
| Pagination.NewestListedLast | src/Application/Chat/Queries/GetChatMessagesWithPaginationQuery.cs:19-26 | A message stamped later than every other message is the last entry of its chat's history. |
| Pagination.ReadMessageListedLast | src/Application/Chat/Events/ChatMessageRead.cs:18-25 | Reading a message that was not Read, with the save after every stored stamp, moves it to the end of its chat's history. |
| Pagination.GetChatMessages | src/Application/Chat/Queries/GetChatMessagesWithPaginationQuery.cs:16-43 | The query fails exactly when the page number or size is below 1. Otherwise the total counts every message of every chat. Each item belongs to the requested chat and has no guid, and the items are the requested page of the history mapped to transfer objects. |
| Pagination.HistoryPagesCoverChat | src/Application/Chat/Queries/GetChatMessagesWithPaginationQuery.cs:19-39 | Paging through a chat from page 1 returns each of its messages exactly once, ordered by the stamp of their last save, provided every request breaks ties the same way. |
| Pagination.MessagePagesArePages | src/Application/Chat/Queries/GetChatMessagesWithPaginationQuery.cs:25-28 | Requesting pages 1 to k one by one gives the first k pages of the chat's history, mapped to transfer objects, provided every request breaks ties the same way. |
| Pagination.EveryMessageListed | src/Application/Chat/Queries/GetChatMessagesWithPaginationQuery.cs:25-39 | Every stored message appears on some page of its chat's history that the database accepts, provided every request breaks ties the same way. |
| Pagination.TotalCountSpansChats | src/Application/Chat/Queries/GetChatMessagesWithPaginationQuery.cs:19-22 | With one message in each of two chats, the first chat's query reports a total of 2 and returns 1 item. |
| Pagination.TableCountExceedsPages | src/Application/Chat/Queries/GetChatMessagesWithPaginationQuery.cs:19-22 | In that store no number of pages ever returns as many items as the reported total. |
| Pagination.GetChatMessagesCountingChat | src/Application/Chat/Queries/GetChatMessagesWithPaginationQuery.cs:19-22 | The corrected total is the chat's own message count; it fails and returns items exactly as the query as written does. |
| Pagination.ChatCountMatchesPages | src/Application/Chat/Queries/GetChatMessagesWithPaginationQuery.cs:19-42 | With the corrected total, pages covering the total return exactly that many items, provided every request breaks ties the same way. |
| Pagination.ChatList | src/Application/Chat/Queries/GetChatsWithPaginationQuery.cs:18 | The chat list is a permutation of all chats, most recently saved first, with no restriction to the caller's chats. |
| Pagination.SentChatListedFirst | src/Application/Chat/Events/ChatMessageSent.cs:20-27 | A sent event that changes its chat's summary, saved after every stored stamp, puts that chat at the head of the chat list. |
| Pagination.GetChats | src/Application/Chat/Queries/GetChatsWithPaginationQuery.cs:15-40 | The query fails exactly when the page number or size is below 1. Otherwise the total is the number of all chats. The items are in descending order of last change, and each copies a stored chat's id, unread count, last change and last message. |
| Pagination.EveryChatListed | src/Application/Chat/Queries/GetChatsWithPaginationQuery.cs:18-36 | Every chat appears on some page of the list that the database accepts, provided every request breaks ties the same way. |

## Left out

- Concurrency. Hub methods, event handlers and the static dictionaries run
  concurrently in the source. Here every hub method is one atomic step, so
  races are not modelled, such as a partner disconnecting between selection
  and group join.
- Matchmaking.PartnerAlwaysAvailable: holds only in this sequential model. In
  the source the "no longer available" failure is reachable through a
  concurrent disconnect.
- Randomness. `Random.Next(n)` is a caller-supplied draw taken modulo the
  number of candidates. The older hub's new GUID is a caller-supplied fresh
  name. Tag generation reads a finite list of draws.
- Account.GenerateUniqueTag: the source draws for ever. With a finite list of
  draws, running out is reported as `TagDrawsExhausted`, which stands for a
  loop that has not yet ended.
- Text.ToLower: lower-cases ASCII letters only. The culture-sensitive .NET
  mapping can also map a few non-ASCII letters to ASCII, such as the Kelvin
  sign to 'k' and dotted capital I to 'i'. None of those results is a letter
  of the four accepted gender values, so acceptance is the same.
- The identity store. `FindByIdAsync` is a map lookup. Whether `UpdateAsync`
  succeeds, and the user-name rules it enforces, are the `saved` parameter.
  `GetUserNameAsync` is a supplied optional name.
- `LoginWithExternalAsync` in the account service: external-login plumbing,
  which is not part of this model.
- Integer width. C# `int` arithmetic is 32-bit. The page offset
  `(PageNumber - 1) * PageSize` is unbounded here, so an overflowing offset
  is not modelled. The same goes for `Math.Abs` of an extreme age difference.
- Database ordering ties. SQL does not promise an order among rows with equal
  last-change times, nor the same order on two requests. The model sorts by
  one fixed rule and applies it to every request. Each page is a separate
  query, so when rows share a stamp the database may order them differently
  on different pages. Example: three messages stamped 5, two per page, where
  one message shows on both pages and another on neither. The lemmas below
  assume one tie order across requests, which SQL Server does not promise.
- Pagination.HistoryPagesCoverChat: "each message exactly once" assumes one
  tie order across page requests.
- Pagination.MessagePagesArePages: assumes one tie order across page requests.
- Pagination.EveryMessageListed: assumes one tie order across page requests.
- Pagination.ChatCountMatchesPages: assumes one tie order across page
  requests.
- Pagination.EveryChatListed: assumes one tie order across page requests.
- Timestamps are integers supplied as the save time. The auditing
  interceptor's own file is not part of this model; its stamping rule is
  modelled as described above. `PaginatedList`'s derived totals (page count,
  has-next) are not part of this model.
- Account.TagTaken: display names are compared exactly. Under SQL Server's
  usual case-insensitive default collation, the database's comparison ignores
  case and trailing spaces. For example, "ann" may then find "Ann"'s tag taken
  where the model finds it free, so Account.FreeTag and
  Account.GenerateUniqueTag can pick a different draw than the database would.
- Transport. Outbound calls are returned as values, and `Signals.Recipients`
  says whom each reaches. Delivery and serialisation are not modelled, and
  neither is the client application.
- The unused `MatchLock` and waiting field of the mapped hub are modelled only
  as the slot that its disconnect handler clears.

## Findings

| source | as written | input that shows it | evidently intended | confidence | as-written member | corrected member |
|---|---|---|---|---|---|---|
| src/Application/Chat/Hubs/ChatHub.cs:145-150 | The pool excludes the caller's connection, not the caller's user. Partner resolution then takes the first entry for the chosen user. | User "ann" on connections c1 and c2 asks from c1. The pool is ["ann"], the partner is ann, and the partner connection is c1, the caller's own. | The comment on line 146 says "except current user": a user should never be paired with itself. | medium; not executed | Matchmaking.SelfMatch | Matchmaking.FindRandomChatOtherUsers |
| src/Application/Chat/Queries/GetChatMessagesWithPaginationQuery.cs:19-22 | The total count is taken over the whole message table, before the chat filter. | Two chats with one message each: chat 1's query reports a total of 2, and no number of pages returns more than 1 item. | The comment on line 21 says the count is "for pagination", so it should count the requested chat's messages. | medium; not executed | Pagination.TableCountExceedsPages | Pagination.GetChatMessagesCountingChat |

The mapped hub (`ChatHub`) and the as-written `Pagination.GetChatMessages`
keep the deployed behaviour, so every contract above describes the code as
it stands. The corrected definitions sit beside them: `Matchmaking.FindRandomChatOtherUsers`
and `Pagination.GetChatMessagesCountingChat`. Their properties are proved by
`Matchmaking.OtherUsersPartner` and `Pagination.ChatCountMatchesPages`.

=== FILE: account.dfy ===
/** The profile part of the account service: the setup-completeness test,
    profile setup with its validators and the `displayName#tag` user name,
    demographics updates, and the 4-digit tag generator. Each operation reads
    and writes the identity store's user table; an unknown user id raises
    NotFound, a rejected value raises an argument error, and both happen
    before anything is written. Whether the identity store accepts the final
    update (`result.Succeeded`) is supplied by the caller as `saved`. */
module Account {
  import opened Wrappers
  import opened Entities
  import opened Text

  datatype AccountError =
    | NotFound(userId: UserId)
    | InvalidAge
    | InvalidGender
      /** The supplied random draws ran out while every drawn tag was taken:
          the source's loop would still be drawing. */
    | TagDrawsExhausted

  const MinAge := 18
  const MaxAge := 100

  /** The accepted gender values, compared after lower-casing. */
  const ValidGenders: seq<string> := ["male", "female", "other", "prefer_not_to_say"]

  /** The user table's row for `userId`, or NotFound. */
  function FindUser(users: UserTable, userId: UserId): (r: Result<User, AccountError>)
    ensures r.Success? <==> userId in users
    ensures r.Success? ==> r.value == users[userId]
    ensures r.Failure? ==> r.error == NotFound(userId)
  {
    if userId in users then Success(users[userId]) else Failure(NotFound(userId))
  }

  // ---------------------------------------------------------------------------
  // Setup completeness
  // ---------------------------------------------------------------------------

  /** The profile fields a completed setup needs: a non-empty display name and
      tag, an age of at least 18 and a gender (which may be empty). */
  predicate ProfileComplete(u: User) {
    && !IsNullOrEmpty(u.displayName)
    && !IsNullOrEmpty(u.tag)
    && u.age.Some? && u.age.value >= MinAge
    && u.gender.Some?
  }

  /** IsUserSetupComplete. */
  function IsUserSetupComplete(users: UserTable, userId: UserId): (r: Result<bool, AccountError>)
    ensures userId !in users <==> r == Failure(NotFound(userId))
    ensures userId in users ==> r == Success(ProfileComplete(users[userId]))
  {
    var u :- FindUser(users, userId);
    Success(ProfileComplete(u))
  }

  // ---------------------------------------------------------------------------
  // Validators
  // ---------------------------------------------------------------------------

  /** An absent age is accepted; a present one must lie in [18, 100]. */
  predicate AgeAccepted(age: Option<int>) {
    age.None? || MinAge <= age.value <= MaxAge
  }

  /** A null or empty gender is accepted; any other must lower-case to one of
      the four valid values. The value is stored as given, not lower-cased. */
  predicate GenderAccepted(gender: Option<string>) {
    IsNullOrEmpty(gender) || ToLower(gender.value) in ValidGenders
  }

  /** The validation both profile writes share: age first, then gender. */
  function Validate(age: Option<int>, gender: Option<string>): (r: Result<(), AccountError>)
    ensures r.Success? <==> AgeAccepted(age) && GenderAccepted(gender)
    ensures r.Failure? ==> (r.error == InvalidAge <==> !AgeAccepted(age))
    ensures r.Failure? ==> r.error == InvalidAge || r.error == InvalidGender
  {
    if !AgeAccepted(age) then Failure(InvalidAge)
    else if !GenderAccepted(gender) then Failure(InvalidGender)
    else Success(())
  }

  /** The gender test ignores ASCII case: "Female" and "FEMALE" pass, as do
      null and the empty string. */
  lemma GenderAcceptsAnyCase()
    ensures GenderAccepted(Some("Female")) && GenderAccepted(Some("FEMALE"))
    ensures GenderAccepted(Some("")) && GenderAccepted(None)
  {
    assert ToLower("Female") == ValidGenders[1] by {
      assert forall i :: 0 <= i < 6 ==> ToLower("Female")[i] == ValidGenders[1][i];
    }
    assert ToLower("FEMALE") == ValidGenders[1] by {
      assert forall i :: 0 <= i < 6 ==> ToLower("FEMALE")[i] == ValidGenders[1][i];
    }
  }

  /** The gender test ignores nothing but case: "femme", "female " and "f" fail. */
  lemma GenderRejectsOthers()
    ensures !GenderAccepted(Some("femme")) && !GenderAccepted(Some("female ")) && !GenderAccepted(Some("f"))
  {
    assert ToLower("femme")[0] == 'f' && ToLower("femme")[1] == 'e';
    assert ToLower("female ")[6] == ' ';
  }

  /** Changing the case of a gender never changes whether it is accepted. */
  lemma GenderCaseInsensitive(g: string)
    ensures GenderAccepted(Some(g)) <==> GenderAccepted(Some(ToLower(g)))
  {
    ToLowerIdempotent(g);
  }

  // ---------------------------------------------------------------------------
  // Tag generation
  // ---------------------------------------------------------------------------

  /** Some user with this display name already holds this tag. */
  predicate TagTaken(users: UserTable, displayName: string, tag: string) {
    exists id :: id in users && users[id].displayName == Some(displayName) && users[id].tag == Some(tag)
  }

  /** What `Random.Next(0, 10000)` can return. */
  predicate ValidDraws(draws: seq<int>) {
    forall i :: 0 <= i < |draws| ==> 0 <= draws[i] < 10000
  }

  /** The reference definition of GenerateUniqueTagAsync over a finite stream
      of random draws: the "D4" text of the first draw whose tag is free for
      this display name, or None when every draw's tag is taken. */
  function FreeTag(users: UserTable, displayName: string, draws: seq<int>): (r: Option<string>)
    requires ValidDraws(draws)
    ensures r.Some? ==> |r.value| == 4 && AllDigits(r.value) && !TagTaken(users, displayName, r.value)
    ensures r.Some? ==> exists k :: 0 <= k < |draws| && r.value == FormatD4(draws[k])
                                 && forall j :: 0 <= j < k ==> TagTaken(users, displayName, FormatD4(draws[j]))
    ensures r.None? <==> forall k :: 0 <= k < |draws| ==> TagTaken(users, displayName, FormatD4(draws[k]))
  {
    if |draws| == 0 then None
    else if !TagTaken(users, displayName, FormatD4(draws[0])) then Some(FormatD4(draws[0]))
    else
      var r := FreeTag(users, displayName, draws[1..]);
      assert forall k :: 1 <= k < |draws| ==> draws[k] == draws[1..][k - 1];
      r
  }

  /** GenerateUniqueTagAsync: draws until the tag is free. The loop keeps to
      the reference definition. */
  method GenerateUniqueTag(users: UserTable, displayName: string, draws: seq<int>) returns (r: Option<string>)
    requires ValidDraws(draws)
    ensures r == FreeTag(users, displayName, draws)
    ensures r.Some? ==> |r.value| == 4 && AllDigits(r.value) && !TagTaken(users, displayName, r.value)
  {
    var i := 0;
    while i < |draws|
      invariant 0 <= i <= |draws|
      invariant FreeTag(users, displayName, draws) == FreeTag(users, displayName, draws[i..])
    {
      var tag := FormatD4(draws[i]);
      if !TagTaken(users, displayName, tag) {
        return Some(tag);
      }
      assert draws[i..][1..] == draws[i + 1..];
      i := i + 1;
    }
    return None;
  }

  /** When all ten thousand tags are taken for a display name, no sequence of
      draws ever yields a tag: the source's loop does not terminate. */
  lemma FullDisplayNameHasNoTag(users: UserTable, displayName: string, draws: seq<int>)
    requires ValidDraws(draws)
    requires forall n :: 0 <= n < 10000 ==> TagTaken(users, displayName, FormatD4(n))
    ensures FreeTag(users, displayName, draws) == None
  {
  }

  // ---------------------------------------------------------------------------
  // User names
  // ---------------------------------------------------------------------------

  /** The user name a completed setup assigns. */
  function UserNameOf(displayName: string, tag: string): (n: string)
    ensures |n| == |displayName| + 1 + |tag|
    ensures n[..|displayName|] == displayName && n[|displayName|] == '#' && n[|displayName| + 1..] == tag
  {
    displayName + "#" + tag
  }

  /** With four-character tags the user name determines display name and tag,
      even when the display name itself contains '#': split five from the end. */
  lemma UserNameSplits(displayName: string, tag: string)
    requires |tag| == 4
    ensures var n := UserNameOf(displayName, tag);
      n[..|n| - 5] == displayName && n[|n| - 4..] == tag
  {
  }

  /** Hence two setups with four-character tags get the same user name only
      when display name and tag both agree. */
  lemma UserNameInjective(d1: string, t1: string, d2: string, t2: string)
    requires |t1| == 4 && |t2| == 4
    requires UserNameOf(d1, t1) == UserNameOf(d2, t2)
    ensures d1 == d2 && t1 == t2
  {
    UserNameSplits(d1, t1);
    UserNameSplits(d2, t2);
  }

  /** A user whose user name was assigned by a completed setup. */
  predicate NamedBySetup(u: User) {
    u.displayName.Some? && u.tag.Some? && |u.tag.value| == 4
    && u.userName == UserNameOf(u.displayName.value, u.tag.value)
  }

  /** A tag that is free for the display name gives a user name no user named
      by a completed setup already has. */
  lemma FreeTagGivesFreshUserName(users: UserTable, displayName: string, tag: string)
    requires |tag| == 4 && !TagTaken(users, displayName, tag)
    ensures forall id :: id in users && NamedBySetup(users[id]) ==> users[id].userName != UserNameOf(displayName, tag)
  {
    forall id | id in users && NamedBySetup(users[id])
      ensures users[id].userName != UserNameOf(displayName, tag)
    {
      var u := users[id];
      if u.userName == UserNameOf(displayName, tag) {
        UserNameInjective(u.displayName.value, u.tag.value, displayName, tag);
        assert false;
      }
    }
  }

  // ---------------------------------------------------------------------------
  // Profile writes
  // ---------------------------------------------------------------------------

  /** The profile a completed setup stores: display name, tag, age and gender
      as given, and the user name built from display name and tag. */
  function SetUp(u: User, displayName: string, tag: string, age: Option<int>, gender: Option<string>): (v: User)
    ensures v.id == u.id && v.email == u.email
    ensures v.userName == UserNameOf(displayName, tag)
    ensures v.displayName == Some(displayName) && v.tag == Some(tag) && v.age == age && v.gender == gender
  {
    u.(displayName := Some(displayName), tag := Some(tag), age := age, gender := gender,
       userName := UserNameOf(displayName, tag))
  }

  /** CompleteUserSetupAsync: the user must exist, age and gender must pass,
      then a free tag is drawn and the profile written. The result is the
      table after the call and whether the identity store accepted the update. */
  function CompleteUserSetup(users: UserTable, userId: UserId, displayName: string, age: Option<int>,
                             gender: Option<string>, draws: seq<int>, saved: bool)
    : (r: Result<(UserTable, bool), AccountError>)
    requires ValidDraws(draws)
    ensures userId !in users ==> r == Failure(NotFound(userId))
    ensures userId in users && !AgeAccepted(age) ==> r == Failure(InvalidAge)
    ensures userId in users && AgeAccepted(age) && !GenderAccepted(gender) ==> r == Failure(InvalidGender)
    ensures r.Success? ==> userId in users && AgeAccepted(age) && GenderAccepted(gender)
    ensures r.Success? ==> r.value.1 == saved && r.value.0.Keys == users.Keys
    ensures r.Success? && !saved ==> r.value.0 == users
    ensures r.Success? ==> FreeTag(users, displayName, draws).Some?
    ensures r.Success? && saved ==>
      var tag := FreeTag(users, displayName, draws).value;
      && |tag| == 4 && AllDigits(tag) && !TagTaken(users, displayName, tag)
      && r.value.0 == users[userId := SetUp(users[userId], displayName, tag, age, gender)]
    ensures r == Failure(TagDrawsExhausted) <==>
      userId in users && AgeAccepted(age) && GenderAccepted(gender) && FreeTag(users, displayName, draws).None?
  {
    if userId !in users then Failure(NotFound(userId))
    else if Validate(age, gender).Failure? then Failure(Validate(age, gender).error)
    else match FreeTag(users, displayName, draws)
      case None => Failure(TagDrawsExhausted)
      case Some(tag) =>
        if saved then Success((users[userId := SetUp(users[userId], displayName, tag, age, gender)], true))
        else Success((users, false))
  }

  /** UpdateUserDemographicsAsync: the same existence check and validation,
      then only age and gender change. */
  function UpdateUserDemographics(users: UserTable, userId: UserId, age: Option<int>, gender: Option<string>,
                                  saved: bool)
    : (r: Result<(UserTable, bool), AccountError>)
    ensures userId !in users ==> r == Failure(NotFound(userId))
    ensures userId in users && !AgeAccepted(age) ==> r == Failure(InvalidAge)
    ensures userId in users && AgeAccepted(age) && !GenderAccepted(gender) ==> r == Failure(InvalidGender)
    ensures r.Success? <==> userId in users && AgeAccepted(age) && GenderAccepted(gender)
    ensures r.Success? ==> r.value.1 == saved && r.value.0.Keys == users.Keys
    ensures r.Success? ==> forall id :: id in users && id != userId ==> r.value.0[id] == users[id]
    ensures r.Success? && saved ==>
      var (u, v) := (users[userId], r.value.0[userId]);
      && v.age == age && v.gender == gender
      && v.id == u.id && v.userName == u.userName && v.email == u.email
      && v.displayName == u.displayName && v.tag == u.tag
    ensures r.Success? && !saved ==> r.value.0 == users
  {
    var u :- FindUser(users, userId);
    var _ :- Validate(age, gender);
    if saved then Success((users[userId := u.(age := age, gender := gender)], true))
    else Success((users, false))
  }

  /** Both profile writes reject exactly the same inputs, for the same reason. */
  lemma SameValidation(users: UserTable, userId: UserId, displayName: string, age: Option<int>,
                       gender: Option<string>, draws: seq<int>, saved: bool)
    requires ValidDraws(draws)
    ensures var c := CompleteUserSetup(users, userId, displayName, age, gender, draws, saved);
      var d := UpdateUserDemographics(users, userId, age, gender, saved);
      (d.Failure? <==> c.Failure? && c.error != TagDrawsExhausted)
      && (d.Failure? ==> c == Failure(d.error))
  {
  }

  /** A saved setup with a non-empty display name, a present age and a
      present gender is complete; one without an age never is. */
  lemma SetupMakesComplete(users: UserTable, userId: UserId, displayName: string, age: Option<int>,
                           gender: Option<string>, draws: seq<int>)
    requires ValidDraws(draws)
    ensures var r := CompleteUserSetup(users, userId, displayName, age, gender, draws, true);
      r.Success? ==>
        IsUserSetupComplete(r.value.0, userId) == Success(displayName != "" && age.Some? && gender.Some?)
  {
    var r := CompleteUserSetup(users, userId, displayName, age, gender, draws, true);
    if r.Success? {
      var v := r.value.0[userId];
      assert v.tag.value != "";
    }
  }

  /** The stored gender keeps the client's case: a user who set up with
      "Female" does not satisfy an exact comparison with "female". */
  lemma StoredGenderKeepsCase(users: UserTable, userId: UserId, draws: seq<int>)
    requires ValidDraws(draws) && userId in users
    requires FreeTag(users, "ann", draws).Some?
    ensures var r := CompleteUserSetup(users, userId, "ann", Some(30), Some("Female"), draws, true);
      r.Success? && r.value.0[userId].gender == Some("Female") && r.value.0[userId].gender != Some("female")
  {
    GenderAcceptsAnyCase();
  }
}

=== FILE: chat_hub.dfy ===
/** The chat hub mapped at /hubs/chat: presence, group membership, message
    fanout with the delivery handlers, and matchmaking, each hub method one
    atomic step over the hub state. `userId` is the caller's authenticated user
    id (`None` when unauthenticated) and `username` what the identity service
    returned for it. */
module ChatHub {
  import opened Wrappers
  import opened Entities
  import opened Dtos
  import opened Signals
  import opened Text
  import opened Presence
  import opened SearchFilters
  import opened Delivery
  import opened Matchmaking

  /** The hub's shared state: the presence registry, the waiting slot (declared
      but never filled by this hub), the group table, the database and the
      identity store. */
  datatype Hub = Hub(registry: Registry, waiting: Option<ConnId>, groups: Groups, store: Store, users: UserTable)

  /** What this hub sends to clients. */
  datatype Event =
    | PresenceChanged(presence: PresenceEvent)
    | ReceiveMessage(message: ChatMessageDto)
    | MessageReceived(messageId: int, user: UserId)
    | MessageRead(messageId: int, user: UserId)

  /** A presence event as this hub's event. */
  function AsPresence(): PresenceEvent -> Event {
    (e: PresenceEvent) => PresenceChanged(e)
  }

  /** The group name of a chat. */
  function GroupOf(chatId: int): string {
    IntToString(chatId)
  }

  /** Distinct chats have distinct groups, so a chat's fanout never reaches
      the members of another chat. */
  lemma ChatGroupsDistinct(a: int, b: int)
    ensures a != b <==> GroupOf(a) != GroupOf(b)
  {
    if GroupOf(a) == GroupOf(b) {
      IntToStringInjective(a, b);
    }
  }

  /** OnConnectedAsync. */
  function OnConnected(h: Hub, conn: ConnId, userId: Option<UserId>, username: Option<string>)
    : (r: (Hub, seq<Dispatch<Event>>))
    ensures r.0 == h.(registry := Connect(h.registry, conn, userId, username).0)
    ensures r.1 == Lift(Connect(h.registry, conn, userId, username).1, AsPresence())
  {
    var (reg, out) := Connect(h.registry, conn, userId, username);
    (h.(registry := reg), Lift(out, AsPresence()))
  }

  /** OnDisconnectedAsync: the caller's registry entry goes (announced when
      there was one) and the waiting slot is emptied if the caller held it. */
  function OnDisconnected(h: Hub, conn: ConnId): (r: (Hub, seq<Dispatch<Event>>))
    ensures Lookup(r.0.registry, conn) == None
    ensures forall c :: c != conn ==> Lookup(r.0.registry, c) == Lookup(h.registry, c)
    ensures r.0.waiting == ReleaseWaiting(h.waiting, conn)
    ensures r.0.groups == h.groups && r.0.store == h.store && r.0.users == h.users
    ensures |r.1| == 1 <==> Lookup(h.registry, conn).Some?
    ensures |r.1| == 1 ==> r.1[0] == Dispatch(Others, PresenceChanged(UserDisconnected(Lookup(h.registry, conn))))
    ensures |r.1| == 0 || |r.1| == 1
  {
    var (reg, out) := Disconnect(h.registry, conn);
    (h.(registry := reg, waiting := ReleaseWaiting(h.waiting, conn)), Lift(out, AsPresence()))
  }

  /** SendMessage: an unauthenticated caller is ignored; otherwise the message
      goes to the chat's group except the caller and the sent-event handler
      updates the chat summary. The body is not checked here. */
  function SendMessage(h: Hub, conn: ConnId, userId: Option<UserId>, msg: ChatMessageDto, now: int)
    : (r: (Hub, seq<Dispatch<Event>>))
    ensures userId.None? ==> r == (h, [])
    ensures userId.Some? ==>
      && r.0 == h.(store := HandleSent(h.store, msg, now))
      && r.1 == [Dispatch(GroupExcept(GroupOf(msg.chatId), conn), ReceiveMessage(msg))]
  {
    if userId.None? then (h, [])
    else
      (h.(store := HandleSent(h.store, msg, now)),
       [Dispatch(GroupExcept(GroupOf(msg.chatId), conn), ReceiveMessage(msg))])
  }

  /** MarkMessageReceived: ignored when unauthenticated or when no message has
      the id; otherwise the received-event handler runs and the chat's group,
      except the caller, is told. */
  function MarkMessageReceived(h: Hub, conn: ConnId, userId: Option<UserId>, messageId: int, now: int)
    : (r: (Hub, seq<Dispatch<Event>>))
    ensures userId.None? || FindMessage(h.store.messages, messageId).None? ==> r == (h, [])
    ensures userId.Some? && FindMessage(h.store.messages, messageId).Some? ==>
      var m := h.store.messages[FindMessage(h.store.messages, messageId).value];
      && r.0 == h.(store := HandleReceived(h.store, messageId, now))
      && r.1 == [Dispatch(GroupExcept(GroupOf(m.chatId), conn), MessageReceived(messageId, userId.value))]
  {
    if userId.None? then (h, [])
    else match FindMessage(h.store.messages, messageId)
      case None => (h, [])
      case Some(i) =>
        (h.(store := HandleReceived(h.store, messageId, now)),
         [Dispatch(GroupExcept(GroupOf(h.store.messages[i].chatId), conn),
                   MessageReceived(messageId, userId.value))])
  }

  /** MarkMessageRead: as MarkMessageReceived, with the read-event handler,
      which recounts unread messages for the caller's user id. */
  function MarkMessageRead(h: Hub, conn: ConnId, userId: Option<UserId>, messageId: int, now: int)
    : (r: (Hub, seq<Dispatch<Event>>))
    ensures userId.None? || FindMessage(h.store.messages, messageId).None? ==> r == (h, [])
    ensures userId.Some? && FindMessage(h.store.messages, messageId).Some? ==>
      var m := h.store.messages[FindMessage(h.store.messages, messageId).value];
      && r.0 == h.(store := HandleRead(h.store, messageId, userId.value, now))
      && r.1 == [Dispatch(GroupExcept(GroupOf(m.chatId), conn), MessageRead(messageId, userId.value))]
  {
    if userId.None? then (h, [])
    else match FindMessage(h.store.messages, messageId)
      case None => (h, [])
      case Some(i) =>
        (h.(store := HandleRead(h.store, messageId, userId.value, now)),
         [Dispatch(GroupExcept(GroupOf(h.store.messages[i].chatId), conn),
                   MessageRead(messageId, userId.value))])
  }

  /** Send and both marks never echo to the caller: every call they make
      addresses a group except the caller's connection, and so no live
      connection set makes the caller a recipient. */
  lemma FanoutExcludesCaller(h: Hub, conn: ConnId, userId: Option<UserId>, msg: ChatMessageDto,
                             messageId: int, now: int, live: set<ConnId>, userConns: UserId -> set<ConnId>)
    ensures forall d :: d in SendMessage(h, conn, userId, msg, now).1 + MarkMessageReceived(h, conn, userId, messageId, now).1
                                + MarkMessageRead(h, conn, userId, messageId, now).1 ==>
      d.to.GroupExcept? && d.to.excluded == conn
      && conn !in Recipients(d.to, conn, live, h.groups, userConns)
  {
  }

  /** JoinChat: the caller joins the chat's group and the whole group (the
      caller included) is told who joined; an unauthenticated caller is
      announced as "Anonymous". */
  function JoinChat(h: Hub, conn: ConnId, userId: Option<UserId>, username: Option<string>, chatId: int)
    : (r: (Hub, seq<Dispatch<Event>>))
    ensures Members(r.0.groups, GroupOf(chatId)) == Members(h.groups, GroupOf(chatId)) + {conn}
    ensures forall g :: g != GroupOf(chatId) ==> Members(r.0.groups, g) == Members(h.groups, g)
    ensures r.0.registry == h.registry && r.0.store == h.store
    ensures r.1 == [Dispatch(Group(GroupOf(chatId)),
                             PresenceChanged(UserConnected(userId, if userId.Some? then username else Some("Anonymous"))))]
  {
    var name := if userId.Some? then username else Some("Anonymous");
    (h.(groups := AddToGroup(h.groups, conn, GroupOf(chatId))),
     [Dispatch(Group(GroupOf(chatId)), PresenceChanged(UserConnected(userId, name)))])
  }

  /** LeaveChat: the caller leaves the chat's group and the rest of the group is told. */
  function LeaveChat(h: Hub, conn: ConnId, userId: Option<UserId>, chatId: int)
    : (r: (Hub, seq<Dispatch<Event>>))
    ensures Members(r.0.groups, GroupOf(chatId)) == Members(h.groups, GroupOf(chatId)) - {conn}
    ensures forall g :: g != GroupOf(chatId) ==> Members(r.0.groups, g) == Members(h.groups, g)
    ensures r.0.registry == h.registry && r.0.store == h.store
    ensures r.1 == [Dispatch(Group(GroupOf(chatId)), PresenceChanged(UserDisconnected(userId)))]
  {
    (h.(groups := RemoveFromGroup(h.groups, conn, GroupOf(chatId))),
     [Dispatch(Group(GroupOf(chatId)), PresenceChanged(UserDisconnected(userId)))])
  }

  /** Joining a chat and leaving it again restores the caller's previous
      absence from the group. */
  lemma JoinThenLeave(h: Hub, conn: ConnId, userId: Option<UserId>, username: Option<string>, chatId: int)
    requires conn !in Members(h.groups, GroupOf(chatId))
    ensures Members(LeaveChat(JoinChat(h, conn, userId, username, chatId).0, conn, userId, chatId).0.groups,
                    GroupOf(chatId))
         == Members(h.groups, GroupOf(chatId))
  {
  }

  /** FindRandomChatWithFilters on the hub: on success the hub takes the new
      store and groups and the caller receives the new chat's id. */
  function FindRandomChatWithFilters(h: Hub, conn: ConnId, userId: Option<UserId>,
                                     filters: Option<SearchFiltersDto>, draw: nat, now: int)
    : (r: Result<(Hub, int), MatchError>)
    ensures r.Failure? <==>
      Matchmaking.FindRandomChatWithFilters(h.registry, h.groups, h.store, h.users, conn, userId, filters, draw, now).Failure?
    ensures r.Success? ==>
      var m := Matchmaking.FindRandomChatWithFilters(h.registry, h.groups, h.store, h.users, conn, userId, filters, draw, now).value;
      && r.value.1 == m.chatId
      && r.value.0 == h.(store := m.store, groups := m.groups)
      && {conn, m.partnerConn} <= Members(r.value.0.groups, GroupOf(r.value.1))
  {
    match Matchmaking.FindRandomChatWithFilters(h.registry, h.groups, h.store, h.users, conn, userId, filters, draw, now)
    case Failure(e) => Failure(e)
    case Success(m) => Success((h.(store := m.store, groups := m.groups), m.chatId))
  }

  /** FindRandomChat: matchmaking with no filters at all. */
  function FindRandomChat(h: Hub, conn: ConnId, userId: Option<UserId>, draw: nat, now: int)
    : (r: Result<(Hub, int), MatchError>)
    ensures r == FindRandomChatWithFilters(h, conn, userId, Some(Defaults()), draw, now)
  {
    NullFiltersAreDefaults(h.registry, h.groups, h.store, h.users, conn, userId, draw, now);
    FindRandomChatWithFilters(h, conn, userId, None, draw, now)
  }

  /** No method of this hub ever fills the waiting slot: starting empty, it
      stays empty. */
  lemma WaitingSlotStaysEmpty(h: Hub, conn: ConnId, userId: Option<UserId>, username: Option<string>,
                              msg: ChatMessageDto, id: int, filters: Option<SearchFiltersDto>, draw: nat, now: int)
    requires h.waiting.None?
    ensures OnConnected(h, conn, userId, username).0.waiting.None?
    ensures OnDisconnected(h, conn).0.waiting.None?
    ensures SendMessage(h, conn, userId, msg, now).0.waiting.None?
    ensures MarkMessageReceived(h, conn, userId, id, now).0.waiting.None?
    ensures MarkMessageRead(h, conn, userId, id, now).0.waiting.None?
    ensures JoinChat(h, conn, userId, username, id).0.waiting.None?
    ensures LeaveChat(h, conn, userId, id).0.waiting.None?
    ensures FindRandomChatWithFilters(h, conn, userId, filters, draw, now).Success? ==>
      FindRandomChatWithFilters(h, conn, userId, filters, draw, now).value.0.waiting.None?
  {
  }

  /** A message sent by A in chat 7 is marked received at time 1 and read at
      time 2 by B: A's side of the group hears both, in that order, the stored
      state ends Read, and each save stamps the message. The chat's count stays
      0, so its row is never stamped. */
  lemma DeliveryScenario(h: Hub)
    requires h.store == Store([NewChat(7, 0)], [ChatMessage(1, "g1", "a", "hi", 7, Sent, 0, 0)], 8)
    ensures var (h1, out1) := MarkMessageReceived(h, "cb", Some("b"), 1, 1);
      var (h2, out2) := MarkMessageRead(h1, "cb", Some("b"), 1, 2);
      && h1.store.messages[0].state == Received && h1.store.messages[0].lastModified == 1
      && h2.store.messages[0].state == Read && h2.store.messages[0].lastModified == 2
      && out1 == [Dispatch(GroupExcept(GroupOf(7), "cb"), MessageReceived(1, "b"))]
      && out2 == [Dispatch(GroupExcept(GroupOf(7), "cb"), MessageRead(1, "b"))]
      && h2.store.chats[0].unreadCount == 0 && h2.store.chats[0].lastModified == 0
  {
    var st := h.store;
    assert FindMessage(st.messages, 1) == Some(0);
    var h1 := MarkMessageReceived(h, "cb", Some("b"), 1, 1).0;
    assert FindMessage(h1.store.messages, 1) == Some(0);
    assert FindChat(h1.store.chats, 7) == Some(0);
  }
}

=== FILE: current_user.dfy ===
/** The current-user transfer object and its derived `SetupComplete` flag,
    which the client uses to decide whether to show profile setup, and the
    query that builds the object for the signed-in user. */
module CurrentUser {
  import opened Wrappers
  import opened Entities
  import opened Text
  import Account

  datatype CurrentUserDto = CurrentUserDto(
    id: UserId,
    name: string,
    email: string,
    displayName: Option<string>,
    tag: Option<string>,
    age: Option<int>,
    gender: Option<string>)

  /** The flag's rule: a tag that is not null or white space, an age of any
      value, and a gender that is not null (the empty string counts). The
      display name, name and e-mail play no part. */
  function SetupComplete(d: CurrentUserDto): (b: bool)
    ensures IsNullOrWhiteSpace(d.tag) ==> !b
    ensures d.age.None? ==> !b
    ensures d.gender.None? ==> !b
    ensures !IsNullOrWhiteSpace(d.tag) && d.age.Some? && d.gender.Some? ==> b
  {
    !IsNullOrWhiteSpace(d.tag) && d.age.Some? && d.gender.Some?
  }

  /** The flag depends on tag, age presence and gender presence only: two
      objects agreeing there agree on the flag, whatever their other fields. */
  lemma SetupCompleteIgnoresIdentity(d: CurrentUserDto, e: CurrentUserDto)
    requires d.tag == e.tag && d.age.Some? == e.age.Some? && d.gender == e.gender
    ensures SetupComplete(d) == SetupComplete(e)
  {
  }

  /** The object a full profile would produce. */
  function FromProfile(u: User): (d: CurrentUserDto)
    ensures d.id == u.id && d.name == u.userName && d.email == u.email
    ensures d.displayName == u.displayName && d.tag == u.tag && d.age == u.age && d.gender == u.gender
  {
    CurrentUserDto(u.id, u.userName, u.email, u.displayName, u.tag, u.age, u.gender)
  }

  /** Where the flag and the service's completeness test agree: a profile the
      service calls complete, whose tag has a character that is not white
      space (every generated tag does), carries the flag. */
  lemma CompleteProfileHasFlag(u: User)
    requires Account.ProfileComplete(u)
    requires exists i :: 0 <= i < |u.tag.value| && !IsWhiteSpace(u.tag.value[i])
    ensures SetupComplete(FromProfile(u))
  {
  }

  /** A generated four-digit tag is never white space. */
  lemma DigitTagIsNotBlank(tag: string)
    requires |tag| == 4 && AllDigits(tag)
    ensures !IsNullOrWhiteSpace(Some(tag))
  {
    assert IsDigit(tag[0]);
  }

  /** Where they differ: the flag accepts a minor without a display name,
      which the service rejects. */
  lemma FlagAcceptsMinorWithoutName()
    ensures var u := User("u1", "u", "u@x", None, Some("0042"), Some(15), Some("other"));
      SetupComplete(FromProfile(u)) && !Account.ProfileComplete(u)
  {
    var u := User("u1", "u", "u@x", None, Some("0042"), Some(15), Some("other"));
    DigitTagIsNotBlank("0042");
  }

  /** And the other way: the service accepts a white-space tag, which the
      flag rejects. */
  lemma ServiceAcceptsBlankTag()
    ensures var u := User("u1", "u", "u@x", Some("Ann"), Some(" "), Some(30), Some("female"));
      !SetupComplete(FromProfile(u)) && Account.ProfileComplete(u)
  {
    var u := User("u1", "u", "u@x", Some("Ann"), Some(" "), Some(30), Some("female"));
    assert IsWhiteSpace(u.tag.value[0]);
  }

  /** GetCurrentUserQuery: only id, name and e-mail are filled in. */
  function GetCurrentUser(id: UserId, name: string, email: string): (d: CurrentUserDto)
    ensures d.id == id && d.name == name && d.email == email
    ensures d.displayName.None? && d.tag.None? && d.age.None? && d.gender.None?
  {
    CurrentUserDto(id, name, email, None, None, None, None)
  }

  /** The object the query returns never carries the flag, whatever the
      stored profile holds. */
  lemma QueryNeverSetupComplete(id: UserId, name: string, email: string)
    ensures !SetupComplete(GetCurrentUser(id, name, email))
  {
  }
}

=== FILE: delivery.dfy ===
/** The three domain-event handlers that drive a message's delivery state and
    its conversation's summary: a message was sent, was received, was read.
    Each handler is one atomic step from store to store, ending in one save
    at time `now` that stamps the rows it changed. */
module Delivery {
  import opened Wrappers
  import opened Seqs
  import opened Entities
  import opened Dtos

  // ---------------------------------------------------------------------------
  // The unread count
  // ---------------------------------------------------------------------------

  /** A message counts as unread for `viewer` when it is not yet Read and
      `viewer` did not send it. */
  predicate Unread(m: ChatMessage, viewer: UserId) {
    m.state != Read && m.senderId != viewer
  }

  function UnreadBy(viewer: UserId): ChatMessage -> bool {
    (m: ChatMessage) => Unread(m, viewer)
  }

  /** The number of messages of `ms` that are unread for `viewer`. */
  function UnreadCount(ms: seq<ChatMessage>, viewer: UserId): (n: nat)
    ensures n <= |ms|
  {
    Count(ms, UnreadBy(viewer))
  }

  // ---------------------------------------------------------------------------
  // Message sent
  // ---------------------------------------------------------------------------

  /** ChatMessageSentEventHandler.Handle: when the event's chat exists, its
      unread count is recounted over its messages for the event's sender and
      its last message becomes the event's body; the save stamps the chat when
      either value changed. Nothing else changes, and an unknown chat id
      changes nothing at all. */
  function HandleSent(st: Store, msg: ChatMessageDto, now: int): (r: Store)
    ensures r.messages == st.messages && r.nextChatId == st.nextChatId
    ensures |r.chats| == |st.chats|
    ensures FindChat(st.chats, msg.chatId).None? ==> r == st
    ensures FindChat(st.chats, msg.chatId).Some? ==>
      var i := FindChat(st.chats, msg.chatId).value;
      var c := st.chats[i];
      && r.chats[i].lastMessage == msg.body
      && r.chats[i].unreadCount == UnreadCount(MessagesOf(st, msg.chatId), msg.senderId)
      && r.chats[i].lastModified
         == (if r.chats[i].unreadCount == c.unreadCount && msg.body == c.lastMessage then c.lastModified else now)
      && r.chats[i].(unreadCount := c.unreadCount, lastMessage := c.lastMessage, lastModified := c.lastModified) == c
      && forall j :: 0 <= j < |st.chats| && j != i ==> r.chats[j] == st.chats[j]
  {
    match FindChat(st.chats, msg.chatId)
    case None => st
    case Some(i) =>
      var c := st.chats[i];
      var summary := c.(unreadCount := UnreadCount(MessagesOf(st, c.id), msg.senderId),
                        lastMessage := msg.body);
      st.(chats := st.chats[i := SaveChat(c, summary, now)])
  }

  /** After a sent event the chat's unread count lies between 0 and the number
      of its messages. */
  lemma SentSummaryBounds(st: Store, msg: ChatMessageDto, now: int)
    requires FindChat(st.chats, msg.chatId).Some?
    ensures var i := FindChat(st.chats, msg.chatId).value;
      0 <= HandleSent(st, msg, now).chats[i].unreadCount <= |MessagesOf(st, msg.chatId)|
  {
  }

  /** Handling the same sent event twice, at any later time, gives the same
      store as handling it once: the second save finds nothing changed and so
      stamps nothing. */
  lemma SentIdempotent(st: Store, msg: ChatMessageDto, now: int, later: int)
    ensures HandleSent(HandleSent(st, msg, now), msg, later) == HandleSent(st, msg, now)
  {
    var st1 := HandleSent(st, msg, now);
    match FindChat(st.chats, msg.chatId)
    case None =>
    case Some(i) =>
      SameChatIdsSameLookup(st.chats, st1.chats, msg.chatId);
      assert MessagesOf(st1, msg.chatId) == MessagesOf(st, msg.chatId);
      var c := st1.chats[i];
      assert c.(unreadCount := UnreadCount(MessagesOf(st1, c.id), msg.senderId), lastMessage := msg.body) == c;
      assert st1.chats[i := c] == st1.chats;
  }

  /** Two chat tables with the same ids, row by row, resolve an id to the same row. */
  lemma {:induction false} SameChatIdsSameLookup(a: seq<Chat>, b: seq<Chat>, id: int)
    requires |a| == |b|
    requires forall j :: 0 <= j < |a| ==> a[j].id == b[j].id
    ensures FindChat(a, id) == FindChat(b, id)
  {
    if |a| > 0 {
      SameChatIdsSameLookup(a[1..], b[1..], id);
    }
  }

  /** Two message tables with the same ids, row by row, resolve an id to the same row. */
  lemma {:induction false} SameMessageIdsSameLookup(a: seq<ChatMessage>, b: seq<ChatMessage>, id: int)
    requires |a| == |b|
    requires forall j :: 0 <= j < |a| ==> a[j].id == b[j].id
    ensures FindMessage(a, id) == FindMessage(b, id)
  {
    if |a| > 0 {
      SameMessageIdsSameLookup(a[1..], b[1..], id);
    }
  }

  // ---------------------------------------------------------------------------
  // Message received
  // ---------------------------------------------------------------------------

  /** The lifecycle order Sent -> Received -> Read: `b` is `a` or later than `a`.
      Error lies outside the chain and is reachable from nothing but itself. */
  predicate NoEarlier(a: MessageState, b: MessageState) {
    || a == b
    || (a == Sent && (b == Received || b == Read))
    || (a == Received && b == Read)
  }

  /** ChatMessageReceivedEventHandler.Handle: the first message with the event's
      id moves from Sent to Received and is stamped by the save; in any other
      state, or when no message has that id, nothing changes. No other row is
      touched. */
  function HandleReceived(st: Store, messageId: int, now: int): (r: Store)
    ensures r.chats == st.chats && r.nextChatId == st.nextChatId
    ensures |r.messages| == |st.messages|
    ensures FindMessage(st.messages, messageId).None? ==> r == st
    ensures forall j :: 0 <= j < |st.messages| ==>
      r.messages[j] == st.messages[j].(state := r.messages[j].state, lastModified := r.messages[j].lastModified)
    ensures forall j :: 0 <= j < |st.messages| && Some(j) != FindMessage(st.messages, messageId) ==>
      r.messages[j] == st.messages[j]
    ensures FindMessage(st.messages, messageId).Some? ==>
      var m := st.messages[FindMessage(st.messages, messageId).value];
      var i := FindMessage(st.messages, messageId).value;
      && r.messages[i].state == (if m.state == Sent then Received else m.state)
      && r.messages[i].lastModified == (if m.state == Sent then now else m.lastModified)
  {
    match FindMessage(st.messages, messageId)
    case None => st
    case Some(i) =>
      var m := st.messages[i];
      if m.state == Sent then
        st.(messages := st.messages[i := SaveMessage(m, m.(state := Received), now)])
      else st
  }

  /** A received event never moves a message backwards along the lifecycle and
      never moves one out of Read or Error. */
  lemma ReceivedNeverRegresses(st: Store, messageId: int, now: int, j: nat)
    requires j < |st.messages|
    ensures NoEarlier(st.messages[j].state, HandleReceived(st, messageId, now).messages[j].state)
    ensures st.messages[j].state in {Read, Error} ==>
      HandleReceived(st, messageId, now).messages[j] == st.messages[j]
  {
  }

  /** Handling the same received event twice, at any later time, equals
      handling it once. */
  lemma ReceivedIdempotent(st: Store, messageId: int, now: int, later: int)
    ensures HandleReceived(HandleReceived(st, messageId, now), messageId, later) == HandleReceived(st, messageId, now)
  {
    var st1 := HandleReceived(st, messageId, now);
    SameMessageIdsSameLookup(st.messages, st1.messages, messageId);
  }

  // ---------------------------------------------------------------------------
  // Message read
  // ---------------------------------------------------------------------------

  /** ChatMessageReadEventHandler.Handle: the first message with the event's id
      becomes Read whatever its state, and its chat's unread count is recounted
      over the updated messages for the event's user id; the save stamps the
      message when it was not Read already and the chat when its count changed.
      An unknown message id changes nothing; so does a message whose chat row
      is missing, because dereferencing the missing chat throws before
      anything is saved. */
  function HandleRead(st: Store, messageId: int, readerId: UserId, now: int): (r: Store)
    ensures r.nextChatId == st.nextChatId
    ensures |r.messages| == |st.messages| && |r.chats| == |st.chats|
    ensures FindMessage(st.messages, messageId).None? ==> r == st
    ensures forall j :: 0 <= j < |st.messages| ==>
      r.messages[j] == st.messages[j].(state := r.messages[j].state, lastModified := r.messages[j].lastModified)
    ensures forall j :: 0 <= j < |st.messages| && Some(j) != FindMessage(st.messages, messageId) ==>
      r.messages[j] == st.messages[j]
    ensures forall k :: 0 <= k < |st.chats| ==>
      r.chats[k] == st.chats[k].(unreadCount := r.chats[k].unreadCount, lastModified := r.chats[k].lastModified)
    ensures FindMessage(st.messages, messageId).Some? ==>
      var m := st.messages[FindMessage(st.messages, messageId).value];
      FindChat(st.chats, m.chatId).None? ==> r == st
    ensures FindMessage(st.messages, messageId).Some? ==>
      var i := FindMessage(st.messages, messageId).value;
      var m := st.messages[i];
      FindChat(st.chats, m.chatId).Some? ==>
      var k := FindChat(st.chats, m.chatId).value;
      && r.messages[i].state == Read
      && r.messages[i].lastModified == (if m.state == Read then m.lastModified else now)
      && r.chats[k].unreadCount == UnreadCount(MessagesOf(r, m.chatId), readerId)
      && r.chats[k].lastModified
         == (if r.chats[k].unreadCount == st.chats[k].unreadCount then st.chats[k].lastModified else now)
      && forall k' :: 0 <= k' < |st.chats| && k' != k ==> r.chats[k'] == st.chats[k']
  {
    match FindMessage(st.messages, messageId)
    case None => st
    case Some(i) =>
      var m := st.messages[i];
      match FindChat(st.chats, m.chatId)
      case None => st
      case Some(k) =>
        var messages := st.messages[i := SaveMessage(m, m.(state := Read), now)];
        var c := st.chats[k];
        var recount := UnreadCount(Filter(messages, InChat(m.chatId)), readerId);
        Store(st.chats[k := SaveChat(c, c.(unreadCount := recount), now)], messages, st.nextChatId)
  }

  /** In a well-formed store a read event on an existing message always takes
      effect: the message is Read afterwards. */
  lemma ReadTakesEffect(st: Store, messageId: int, readerId: UserId, now: int)
    requires Wellformed(st)
    requires FindMessage(st.messages, messageId).Some?
    ensures HandleRead(st, messageId, readerId, now).messages[FindMessage(st.messages, messageId).value].state == Read
  {
    var i := FindMessage(st.messages, messageId).value;
    assert st.messages[i] in st.messages;
    var cid := st.messages[i].chatId;
    var c :| c in st.chats && c.id == cid;
    var k :| 0 <= k < |st.chats| && st.chats[k] == c;
  }

  /** In a well-formed store the chat of every stored message exists. */
  lemma MessageChatExists(st: Store, messageId: int)
    requires Wellformed(st)
    requires FindMessage(st.messages, messageId).Some?
    ensures FindChat(st.chats, st.messages[FindMessage(st.messages, messageId).value].chatId).Some?
  {
    var i := FindMessage(st.messages, messageId).value;
    assert st.messages[i] in st.messages;
    var c :| c in st.chats && c.id == st.messages[i].chatId;
    var k :| 0 <= k < |st.chats| && st.chats[k] == c;
  }

  /** A read event on a message not yet Read, saved after every stored stamp,
      gives that message the newest stamp of all messages. */
  lemma ReadStampsNewest(st: Store, messageId: int, readerId: UserId, now: int)
    requires FindMessage(st.messages, messageId).Some?
    requires FindChat(st.chats, st.messages[FindMessage(st.messages, messageId).value].chatId).Some?
    requires st.messages[FindMessage(st.messages, messageId).value].state != Read
    requires forall m :: m in st.messages ==> m.lastModified < now
    ensures var i := FindMessage(st.messages, messageId).value;
      var x := HandleRead(st, messageId, readerId, now).messages[i];
      && x in HandleRead(st, messageId, readerId, now).messages
      && x.chatId == st.messages[i].chatId
      && x.lastModified == now
      && forall y :: y in HandleRead(st, messageId, readerId, now).messages && y != x ==> y.lastModified < now
  {
    var i := FindMessage(st.messages, messageId).value;
    var r := HandleRead(st, messageId, readerId, now);
    forall y | y in r.messages && y != r.messages[i]
      ensures y.lastModified < now
    {
      var j :| 0 <= j < |r.messages| && r.messages[j] == y;
      assert st.messages[j] in st.messages;
    }
  }

  /** The recount after a read never counts the message just read, so it is
      strictly below the chat's number of messages. */
  lemma ReadCountExcludesReadMessage(st: Store, messageId: int, readerId: UserId, now: int)
    requires Wellformed(st)
    requires FindMessage(st.messages, messageId).Some?
    ensures var r := HandleRead(st, messageId, readerId, now);
      var i := FindMessage(st.messages, messageId).value;
      var cid := st.messages[i].chatId;
      && r.messages[i] in MessagesOf(r, cid)
      && !Unread(r.messages[i], readerId)
      && r.chats[FindChat(st.chats, cid).value].unreadCount < |MessagesOf(r, cid)|
  {
    ReadTakesEffect(st, messageId, readerId, now);
    var r := HandleRead(st, messageId, readerId, now);
    var i := FindMessage(st.messages, messageId).value;
    var cid := st.messages[i].chatId;
    var ms := MessagesOf(r, cid);
    assert r.messages[i] in r.messages;
    assert r.messages[i] in ms;
    var p :| 0 <= p < |ms| && ms[p] == r.messages[i];
    CountBelowLength(ms, p, UnreadBy(readerId));
  }

  /** The recount after a read equals the count over the same chat before the
      read, less one exactly when the message just read was unread for the reader. */
  lemma ReadRecountFromPrevious(st: Store, messageId: int, readerId: UserId, now: int)
    requires Wellformed(st)
    requires FindMessage(st.messages, messageId).Some?
    ensures var i := FindMessage(st.messages, messageId).value;
      var cid := st.messages[i].chatId;
      var before := UnreadCount(MessagesOf(st, cid), readerId);
      HandleRead(st, messageId, readerId, now).chats[FindChat(st.chats, cid).value].unreadCount
        == before - (if Unread(st.messages[i], readerId) then 1 else 0)
  {
    ReadTakesEffect(st, messageId, readerId, now);
    var r := HandleRead(st, messageId, readerId, now);
    var i := FindMessage(st.messages, messageId).value;
    var m := st.messages[i];
    var cid := m.chatId;
    var saved := SaveMessage(m, m.(state := Read), now);
    assert r.messages == st.messages[i := saved];
    CountFilter(st.messages, InChat(cid), UnreadBy(readerId));
    CountFilter(r.messages, InChat(cid), UnreadBy(readerId));
    CountUpdate(st.messages, i, saved, Both(InChat(cid), UnreadBy(readerId)));
  }

  /** Handling the same read event twice, at any later time, equals handling it
      once: the message is already Read and the recount finds the same number,
      so the second save stamps nothing. */
  lemma ReadIdempotent(st: Store, messageId: int, readerId: UserId, now: int, later: int)
    ensures HandleRead(HandleRead(st, messageId, readerId, now), messageId, readerId, later)
         == HandleRead(st, messageId, readerId, now)
  {
    var st1 := HandleRead(st, messageId, readerId, now);
    SameMessageIdsSameLookup(st.messages, st1.messages, messageId);
    match FindMessage(st.messages, messageId)
    case None =>
    case Some(i) =>
      var cid := st.messages[i].chatId;
      SameChatIdsSameLookup(st.chats, st1.chats, cid);
      match FindChat(st.chats, cid)
      case None =>
      case Some(k) =>
        var m1 := st1.messages[i];
        assert m1.state == Read;
        assert m1.(state := Read) == m1;
        assert st1.messages[i := m1] == st1.messages;
        var c1 := st1.chats[k];
        assert c1.(unreadCount := UnreadCount(Filter(st1.messages, InChat(cid)), readerId)) == c1;
        assert st1.chats[k := c1] == st1.chats;
  }

  /** A store whose rows keep their keys and foreign keys, row by row, stays
      well formed. */
  lemma KeysKeptWellformed(st: Store, r: Store)
    requires Wellformed(st)
    requires r.nextChatId == st.nextChatId
    requires |r.chats| == |st.chats| && |r.messages| == |st.messages|
    requires forall k :: 0 <= k < |st.chats| ==> r.chats[k].id == st.chats[k].id
    requires forall j :: 0 <= j < |st.messages| ==>
      r.messages[j].id == st.messages[j].id && r.messages[j].chatId == st.messages[j].chatId
    ensures Wellformed(r)
  {
    SameChatIds(st, r);
    forall m | m in r.messages ensures m.chatId in ChatIds(r) {
      var j :| 0 <= j < |r.messages| && r.messages[j] == m;
      assert st.messages[j] in st.messages;
    }
    forall c | c in r.chats ensures c.id < r.nextChatId {
      var k :| 0 <= k < |r.chats| && r.chats[k] == c;
      assert st.chats[k] in st.chats;
    }
  }

  /** Chats with the same ids position by position have the same id set. */
  lemma SameChatIds(st: Store, r: Store)
    requires |r.chats| == |st.chats|
    requires forall k :: 0 <= k < |st.chats| ==> r.chats[k].id == st.chats[k].id
    ensures ChatIds(r) == ChatIds(st)
  {
    forall x | x in ChatIds(r) ensures x in ChatIds(st) {
      var k :| 0 <= k < |r.chats| && r.chats[k].id == x;
      assert st.chats[k] in st.chats;
    }
    forall x | x in ChatIds(st) ensures x in ChatIds(r) {
      var k :| 0 <= k < |st.chats| && st.chats[k].id == x;
      assert r.chats[k] in r.chats;
    }
  }

  /** All three handlers keep a well-formed store well formed. */
  lemma HandlersKeepWellformed(st: Store, msg: ChatMessageDto, messageId: int, readerId: UserId, now: int)
    requires Wellformed(st)
    ensures Wellformed(HandleSent(st, msg, now))
    ensures Wellformed(HandleReceived(st, messageId, now))
    ensures Wellformed(HandleRead(st, messageId, readerId, now))
  {
    SentKeepsWellformed(st, msg, now);
    ReceivedKeepsWellformed(st, messageId, now);
    ReadKeepsWellformed(st, messageId, readerId, now);
  }

  lemma SentKeepsWellformed(st: Store, msg: ChatMessageDto, now: int)
    requires Wellformed(st)
    ensures Wellformed(HandleSent(st, msg, now))
  {
    KeysKeptWellformed(st, HandleSent(st, msg, now));
  }

  lemma ReceivedKeepsWellformed(st: Store, messageId: int, now: int)
    requires Wellformed(st)
    ensures Wellformed(HandleReceived(st, messageId, now))
  {
    KeysKeptWellformed(st, HandleReceived(st, messageId, now));
  }

  lemma ReadKeepsWellformed(st: Store, messageId: int, readerId: UserId, now: int)
    requires Wellformed(st)
    ensures Wellformed(HandleRead(st, messageId, readerId, now))
  {
    KeysKeptWellformed(st, HandleRead(st, messageId, readerId, now));
  }

  /** Received and then Read leaves a message Read; Read and then Received also
      leaves it Read: a late received event cannot undo a read. */
  lemma ReadIsFinalForReceived(st: Store, messageId: int, readerId: UserId, now: int, later: int)
    requires Wellformed(st)
    requires FindMessage(st.messages, messageId).Some?
    ensures var i := FindMessage(st.messages, messageId).value;
      && HandleRead(HandleReceived(st, messageId, now), messageId, readerId, later).messages[i].state == Read
      && HandleReceived(HandleRead(st, messageId, readerId, now), messageId, later).messages[i].state == Read
  {
    var i := FindMessage(st.messages, messageId).value;
    var st1 := HandleReceived(st, messageId, now);
    SameMessageIdsSameLookup(st.messages, st1.messages, messageId);
    ReceivedKeepsWellformed(st, messageId, now);
    ReadTakesEffect(st1, messageId, readerId, later);
    ReadTakesEffect(st, messageId, readerId, now);
    var st2 := HandleRead(st, messageId, readerId, now);
    SameMessageIdsSameLookup(st.messages, st2.messages, messageId);
  }
}

=== FILE: dtos.dfy ===
/** Transfer objects exchanged with clients. */
module Dtos {
  import opened Wrappers
  import opened Entities

  /** A message as sent by a client and as returned by the history query.
      `guid` is `None` where the C# property is left `null`. */
  datatype ChatMessageDto = ChatMessageDto(
    id: int,
    guid: Option<string>,
    chatId: int,
    senderId: UserId,
    body: string,
    state: MessageState,
    timeStamp: int)

  /** A conversation summary as returned by the chat list query. */
  datatype ChatDto = ChatDto(id: int, unreadCount: int, lastModified: int, lastMessage: string)
}

=== FILE: entities.dfy ===
/** The persisted domain: chat messages with their delivery state, conversations
    (chats) with their summary fields, user profiles, and the store holding the
    three tables. Timestamps (`Created`, `LastModified`) are integers. Every
    save runs the auditing interceptor, which stamps each added row's
    `Created` and each added or modified row's `LastModified` with the save
    time; callers supply that time as `now`. */
module Entities {
  import opened Wrappers
  import opened Seqs

  type UserId = string

  // ---------------------------------------------------------------------------
  // Message delivery state
  // ---------------------------------------------------------------------------

  /** The delivery state of a message, in declaration order. */
  datatype MessageState = Sent | Received | Read | Error

  /** The enum's underlying integer value (declaration order, starting at 0). */
  function Ordinal(s: MessageState): (n: nat)
    ensures n < 4
  {
    match s
    case Sent => 0
    case Received => 1
    case Read => 2
    case Error => 3
  }

  /** The state whose underlying value is `n`, if `n` names one: the state space
      is exactly the four values 0..3. */
  function FromOrdinal(n: int): (r: Option<MessageState>)
    ensures r.Some? <==> 0 <= n < 4
    ensures r.Some? ==> Ordinal(r.value) == n
  {
    if n == 0 then Some(Sent)
    else if n == 1 then Some(Received)
    else if n == 2 then Some(Read)
    else if n == 3 then Some(Error)
    else None
  }

  /** Every state is named by its own ordinal, so the ordinals enumerate the
      state space without gaps or repetitions. */
  lemma OrdinalRoundTrip(s: MessageState)
    ensures FromOrdinal(Ordinal(s)) == Some(s)
  {
  }

  /** The value a fresh message's state takes: the enum's zero value. */
  function DefaultState(): (s: MessageState)
    ensures Ordinal(s) == 0
  {
    Sent
  }

  // ---------------------------------------------------------------------------
  // Entities
  // ---------------------------------------------------------------------------

  /** A stored chat message. `chatId` is the foreign key to its conversation. */
  datatype ChatMessage = ChatMessage(
    id: int,
    guid: string,
    senderId: UserId,
    body: string,
    chatId: int,
    state: MessageState,
    created: int,
    lastModified: int)

  /** A message as constructed before any property is assigned: the string
      properties default to empty and the state to the enum's zero value. */
  function NewMessage(id: int, chatId: int, now: int): (m: ChatMessage)
    ensures m.guid == "" && m.senderId == "" && m.body == ""
    ensures Ordinal(m.state) == 0
    ensures m.chatId == chatId
  {
    ChatMessage(id, "", "", "", chatId, DefaultState(), now, now)
  }

  /** A stored conversation with its summary (unread count, last message body)
      and its member users. Its messages are the rows of the message table whose
      `chatId` is this chat's id (see `MessagesOf`). */
  datatype Chat = Chat(
    id: int,
    unreadCount: int,
    lastMessage: string,
    users: seq<UserId>,
    created: int,
    lastModified: int)

  /** A user profile as the identity store holds it. */
  datatype User = User(
    id: UserId,
    userName: string,
    email: string,
    displayName: Option<string>,
    tag: Option<string>,
    age: Option<int>,
    gender: Option<string>)

  /** The identity store's users by id (`FindByIdAsync`). */
  type UserTable = map<UserId, User>

  // ---------------------------------------------------------------------------
  // The store
  // ---------------------------------------------------------------------------

  /** The chat and message tables. `nextChatId` is the identity column's next value. */
  datatype Store = Store(chats: seq<Chat>, messages: seq<ChatMessage>, nextChatId: int)

  function ChatIds(st: Store): set<int> {
    set c | c in st.chats :: c.id
  }

  /** Keys are unique, every message references an existing chat, and the
      identity column is ahead of every issued chat id. */
  predicate Wellformed(st: Store) {
    && (forall i, j :: 0 <= i < j < |st.chats| ==> st.chats[i].id != st.chats[j].id)
    && (forall i, j :: 0 <= i < j < |st.messages| ==> st.messages[i].id != st.messages[j].id)
    && (forall m :: m in st.messages ==> m.chatId in ChatIds(st))
    && (forall c :: c in st.chats ==> c.id < st.nextChatId)
  }

  function HasChatId(id: int): Chat -> bool {
    (c: Chat) => c.id == id
  }

  function HasMessageId(id: int): ChatMessage -> bool {
    (m: ChatMessage) => m.id == id
  }

  function InChat(chatId: int): ChatMessage -> bool {
    (m: ChatMessage) => m.chatId == chatId
  }

  /** The first chat row with the given id. */
  function FindChat(chats: seq<Chat>, id: int): (r: Option<nat>)
    ensures r.Some? ==> r.value < |chats| && chats[r.value].id == id
    ensures r.None? ==> forall j :: 0 <= j < |chats| ==> chats[j].id != id
  {
    FirstIndex(chats, HasChatId(id))
  }

  /** The first message row with the given id. */
  function FindMessage(messages: seq<ChatMessage>, id: int): (r: Option<nat>)
    ensures r.Some? ==> r.value < |messages| && messages[r.value].id == id
    ensures r.None? ==> forall j :: 0 <= j < |messages| ==> messages[j].id != id
  {
    FirstIndex(messages, HasMessageId(id))
  }

  /** A chat's `Messages` navigation: the message rows whose foreign key is `chatId`. */
  function MessagesOf(st: Store, chatId: int): (ms: seq<ChatMessage>)
    ensures forall m :: m in ms <==> m in st.messages && m.chatId == chatId
  {
    Filter(st.messages, InChat(chatId))
  }

  /** What a save writes back for a tracked chat row after `edited` was
      assigned over the `loaded` values: a row whose values changed is
      modified and stamped with the save time; an unchanged row is not
      written and keeps its stamp. */
  function SaveChat(loaded: Chat, edited: Chat, now: int): Chat {
    if edited == loaded then loaded else edited.(lastModified := now)
  }

  /** The same for a tracked message row. */
  function SaveMessage(loaded: ChatMessage, edited: ChatMessage, now: int): ChatMessage {
    if edited == loaded then loaded else edited.(lastModified := now)
  }

  /** A chat as constructed and before it is saved: no unread messages, an empty
      last message and no member users. */
  function NewChat(id: int, now: int): (c: Chat)
    ensures c.unreadCount == 0 && c.lastMessage == "" && c.users == []
    ensures c.id == id
  {
    Chat(id, 0, "", [], now, now)
  }

  /** Adds a new chat and saves it: the identity column assigns the id. The new
      chat's id was never used before, no message belongs to it, and the rows
      already stored are untouched. */
  function CreateChat(st: Store, now: int): (r: (Store, int))
    ensures Wellformed(st) ==> Wellformed(r.0)
    ensures Wellformed(st) ==> r.1 !in ChatIds(st) && MessagesOf(r.0, r.1) == []
    ensures r.0.messages == st.messages
    ensures r.0.chats == st.chats + [NewChat(r.1, now)]
  {
    var id := st.nextChatId;
    var st' := Store(st.chats + [NewChat(id, now)], st.messages, id + 1);
    if Wellformed(st) then
      AppendFreshChat(st, NewChat(id, now));
      (st', id)
    else (st', id)
  }

  /** Appending a chat that takes the identity column's next value keeps the
      store well formed, and no stored message refers to it. */
  lemma AppendFreshChat(st: Store, c: Chat)
    requires Wellformed(st)
    requires c.id == st.nextChatId
    ensures Wellformed(Store(st.chats + [c], st.messages, c.id + 1))
    ensures c.id !in ChatIds(st)
    ensures MessagesOf(Store(st.chats + [c], st.messages, c.id + 1), c.id) == []
  {
    var st' := Store(st.chats + [c], st.messages, c.id + 1);
    assert ChatIds(st') == ChatIds(st) + {c.id};
    assert forall m :: m in st.messages ==> m.chatId != c.id;
    NoMessagesOfUnknownChat(st'.messages, c.id);
  }

  /** `Where` over a table none of whose rows matches is empty. */
  lemma {:induction false} NoMessagesOfUnknownChat(ms: seq<ChatMessage>, chatId: int)
    requires forall m :: m in ms ==> m.chatId != chatId
    ensures Filter(ms, InChat(chatId)) == []
  {
    if |ms| > 0 {
      assert ms[0] in ms;
      NoMessagesOfUnknownChat(ms[1..], chatId);
    }
  }
}

=== FILE: matchmaking.dfy ===
/** Snapshot-and-select matchmaking (FindRandomChatWithFilters of the mapped
    hub): build a candidate pool from the presence registry, resolve profiles,
    filter, pick one, resolve the partner's connection, create a chat and join
    both connections to its group. One call is one atomic step; the random
    pick is the caller-supplied `draw`, reduced modulo the number of
    candidates, so every candidate index is reachable. */
module Matchmaking {
  import opened Wrappers
  import opened Seqs
  import opened Entities
  import opened Signals
  import opened Text
  import opened Presence
  import opened SearchFilters

  /** Why a matchmaking call throws, in the order the checks are made. */
  datatype MatchError =
    | Unauthenticated
    | CurrentUserNotFound
    | NoActiveUsers
    | NoMatchingUsers
    | PartnerUnavailable

  /** A successful match: the new chat, the chosen partner and the partner's
      connection, with the store and group table after the call. */
  datatype Matched = Matched(chatId: int, partner: User, partnerConn: ConnId, store: Store, groups: Groups)

  /** Every profile carries the id it is stored under. */
  predicate Consistent(users: UserTable) {
    forall id :: id in users ==> users[id].id == id
  }

  /** The user ids of every registry entry `keep` admits, duplicates kept. */
  function PoolBy(r: Registry, keep: Entry -> bool): (ids: seq<UserId>)
    ensures forall u :: u in ids <==> exists e :: e in r && keep(e) && e.user == u
  {
    var kept := Filter(r, keep);
    var ids := Users(kept);
    assert forall u :: u in ids ==> exists e :: e in kept && e.user == u by {
      forall u | u in ids ensures exists e :: e in kept && e.user == u {
        var i :| 0 <= i < |ids| && ids[i] == u;
        assert kept[i] in kept;
      }
    }
    assert forall e :: e in kept ==> e.user in ids by {
      forall e | e in kept ensures e.user in ids {
        var i :| 0 <= i < |kept| && kept[i] == e;
        assert ids[i] == e.user;
      }
    }
    ids
  }

  /** The pool as the source builds it: every entry except the caller's own
      connection. A user connected twice appears twice, and the caller's user
      appears when it holds another connection. */
  function Pool(r: Registry, caller: ConnId): (ids: seq<UserId>)
    ensures forall u :: u in ids <==> exists e :: e in r && e.conn != caller && e.user == u
  {
    PoolBy(r, NotConn(caller))
  }

  /** The profiles found for `ids`, in order; ids without a profile are dropped. */
  function Profiles(ids: seq<UserId>, users: UserTable): (ps: seq<User>)
    ensures |ps| <= |ids|
    ensures forall p :: p in ps ==> exists id :: id in ids && id in users && users[id] == p
    ensures forall id :: id in ids && id in users ==> users[id] in ps
  {
    if |ids| == 0 then []
    else
      var rest := Profiles(ids[1..], users);
      assert forall id :: id in ids ==> id == ids[0] || id in ids[1..];
      if ids[0] in users then [users[ids[0]]] + rest else rest
  }

  /** The candidates after filtering; `None` filters (a plain FindRandomChat)
      apply no filter at all. */
  function Candidates(pool: seq<UserId>, users: UserTable, requester: User,
                      filters: Option<SearchFiltersDto>): (cs: seq<User>)
    ensures forall u :: u in cs <==>
      u in Profiles(pool, users) && (filters.Some? ==> Eligible(u, requester, filters.value))
  {
    var found := Profiles(pool, users);
    if filters.Some? then ApplySearchFilters(found, requester, filters.value) else found
  }

  /** The body of FindRandomChatWithFilters over a given pool filter. */
  function MatchFrom(keep: Entry -> bool, r: Registry, gs: Groups, st: Store, users: UserTable,
                     caller: ConnId, userId: Option<UserId>, filters: Option<SearchFiltersDto>,
                     draw: nat, now: int): Result<Matched, MatchError>
  {
    if userId.None? then Failure(Unauthenticated)
    else if userId.value !in users then Failure(CurrentUserNotFound)
    else
      var pool := PoolBy(r, keep);
      if |pool| == 0 then Failure(NoActiveUsers)
      else
        var cands := Candidates(pool, users, users[userId.value], filters);
        if |cands| == 0 then Failure(NoMatchingUsers)
        else
          var partner := cands[draw % |cands|];
          var partnerConn := FirstConnOf(r, partner.id);
          if partnerConn.None? || partnerConn.value == "" then Failure(PartnerUnavailable)
          else Success(OpenChat(gs, st, caller, partner, partnerConn.value, now))
  }

  /** Saves a new chat and adds both connections to its group. The chat is new
      and empty, its group gains exactly the two connections, and no other
      group or row changes. */
  function OpenChat(gs: Groups, st: Store, caller: ConnId, partner: User, partnerConn: ConnId, now: int)
    : (m: Matched)
    ensures m.partner == partner && m.partnerConn == partnerConn
    ensures Members(m.groups, IntToString(m.chatId)) == Members(gs, IntToString(m.chatId)) + {caller, partnerConn}
    ensures forall h :: h != IntToString(m.chatId) ==> Members(m.groups, h) == Members(gs, h)
    ensures m.store.messages == st.messages
    ensures m.store.chats == st.chats + [NewChat(m.chatId, now)]
    ensures Wellformed(st) ==> m.chatId !in ChatIds(st) && MessagesOf(m.store, m.chatId) == []
  {
    var (st', chatId) := CreateChat(st, now);
    var g := IntToString(chatId);
    Matched(chatId, partner, partnerConn, st', AddToGroup(AddToGroup(gs, caller, g), partnerConn, g))
  }

  /** FindRandomChatWithFilters. The checks run in the source's order and each
      failure happens before any chat is created. On success the partner is one
      of the filtered candidates, its connection is the first registry entry for
      it, both connections are in the new chat's group, the chat is new and
      empty, and nothing else changes. */
  function FindRandomChatWithFilters(r: Registry, gs: Groups, st: Store, users: UserTable,
                                     caller: ConnId, userId: Option<UserId>,
                                     filters: Option<SearchFiltersDto>, draw: nat, now: int)
    : (res: Result<Matched, MatchError>)
    ensures userId.None? ==> res == Failure(Unauthenticated)
    ensures userId.Some? && userId.value !in users ==> res == Failure(CurrentUserNotFound)
    ensures userId.Some? && userId.value in users && |Pool(r, caller)| == 0 ==>
      res == Failure(NoActiveUsers)
    ensures userId.Some? && userId.value in users && |Pool(r, caller)| > 0
            && |Candidates(Pool(r, caller), users, users[userId.value], filters)| == 0 ==>
      res == Failure(NoMatchingUsers)
    ensures res.Success? ==>
      var m := res.value;
      && userId.Some? && userId.value in users
      && m.partner in Candidates(Pool(r, caller), users, users[userId.value], filters)
      && FirstConnOf(r, m.partner.id) == Some(m.partnerConn)
      && (UniqueKeys(r) ==> Lookup(r, m.partnerConn) == Some(m.partner.id))
      && caller in Members(m.groups, IntToString(m.chatId))
      && m.partnerConn in Members(m.groups, IntToString(m.chatId))
      && Members(m.groups, IntToString(m.chatId))
         == Members(gs, IntToString(m.chatId)) + {caller, m.partnerConn}
      && (forall h :: h != IntToString(m.chatId) ==> Members(m.groups, h) == Members(gs, h))
      && m.store.messages == st.messages
      && m.store.chats == st.chats + [NewChat(m.chatId, now)]
      && (Wellformed(st) ==> m.chatId !in ChatIds(st) && MessagesOf(m.store, m.chatId) == [])
  {
    MatchedPartnerRegistered(NotConn(caller), r, gs, st, users, caller, userId, filters, draw, now);
    MatchFrom(NotConn(caller), r, gs, st, users, caller, userId, filters, draw, now)
  }

  /** The matched partner connection looks up to the partner in a dictionary. */
  lemma MatchedPartnerRegistered(keep: Entry -> bool, r: Registry, gs: Groups, st: Store, users: UserTable,
                                 caller: ConnId, userId: Option<UserId>,
                                 filters: Option<SearchFiltersDto>, draw: nat, now: int)
    ensures var res := MatchFrom(keep, r, gs, st, users, caller, userId, filters, draw, now);
      res.Success? && UniqueKeys(r) ==> Lookup(r, res.value.partnerConn) == Some(res.value.partner.id)
  {
    var res := MatchFrom(keep, r, gs, st, users, caller, userId, filters, draw, now);
    if res.Success? && UniqueKeys(r) {
      var m := res.value;
      var i :| 0 <= i < |r| && r[i] == Entry(m.partnerConn, m.partner.id);
      LookupEntry(r, i);
    }
  }

  /** With consistent profiles and non-empty connection ids, the partner's
      connection is always found: the selected user came from the registry in
      the same step. */
  lemma PartnerAlwaysAvailable(r: Registry, gs: Groups, st: Store, users: UserTable,
                               caller: ConnId, userId: Option<UserId>,
                               filters: Option<SearchFiltersDto>, draw: nat, now: int)
    requires Consistent(users)
    requires forall e :: e in r ==> e.conn != ""
    ensures FindRandomChatWithFilters(r, gs, st, users, caller, userId, filters, draw, now)
            != Failure(PartnerUnavailable)
  {
    PoolPartnerFound(NotConn(caller), r, gs, st, users, caller, userId, filters, draw, now);
  }

  lemma PoolPartnerFound(keep: Entry -> bool, r: Registry, gs: Groups, st: Store, users: UserTable,
                         caller: ConnId, userId: Option<UserId>,
                         filters: Option<SearchFiltersDto>, draw: nat, now: int)
    requires Consistent(users)
    requires forall e :: e in r ==> e.conn != ""
    ensures MatchFrom(keep, r, gs, st, users, caller, userId, filters, draw, now) != Failure(PartnerUnavailable)
  {
    if userId.Some? && userId.value in users {
      var pool := PoolBy(r, keep);
      var cands := Candidates(pool, users, users[userId.value], filters);
      if |pool| > 0 && |cands| > 0 {
        var partner := cands[draw % |cands|];
        assert partner in cands;
        var id :| id in pool && id in users && users[id] == partner;
        var e :| e in r && keep(e) && e.user == id;
        var pc := FirstConnOf(r, partner.id);
        assert pc.Some?;
        assert Entry(pc.value, partner.id) in r;
      }
    }
  }

  /** Null filters and a default-constructed filter object select the same way. */
  lemma NullFiltersAreDefaults(r: Registry, gs: Groups, st: Store, users: UserTable,
                               caller: ConnId, userId: Option<UserId>, draw: nat, now: int)
    ensures FindRandomChatWithFilters(r, gs, st, users, caller, userId, None, draw, now)
         == FindRandomChatWithFilters(r, gs, st, users, caller, userId, Some(Defaults()), draw, now)
  {
    if userId.Some? && userId.value in users {
      var pool, requester := Pool(r, caller), users[userId.value];
      DefaultsKeepEveryone(Profiles(pool, users), requester);
      assert Candidates(pool, users, requester, None) == Candidates(pool, users, requester, Some(Defaults()));
    }
  }

  // ---------------------------------------------------------------------------
  // The pool is per connection, not per user
  // ---------------------------------------------------------------------------

  /** A user with two connections appears twice in another caller's pool, so it
      is twice as likely to be drawn. */
  lemma PoolKeepsDuplicates()
    ensures Pool([Entry("c1", "bob"), Entry("c2", "bob"), Entry("c3", "ann")], "c3") == ["bob", "bob"]
  {
    var r := [Entry("c1", "bob"), Entry("c2", "bob"), Entry("c3", "ann")];
    assert r[1..] == [Entry("c2", "bob"), Entry("c3", "ann")];
    assert r[1..][1..] == [Entry("c3", "ann")];
    assert Filter(r, NotConn("c3")) == [Entry("c1", "bob"), Entry("c2", "bob")];
  }

  /** A user connected on "c1" and "c2" who asks from "c1" is paired with
      itself: its own user id enters the pool through "c2", and the first entry
      for that user is "c1", the caller's own connection, so both ends of the
      new chat are the same connection. */
  lemma SelfMatch(gs: Groups, st: Store, now: int)
    ensures var ann := User("ann", "ann#0001", "", None, None, None, None);
      var r := [Entry("c1", "ann"), Entry("c2", "ann")];
      var res := FindRandomChatWithFilters(r, gs, st, map["ann" := ann], "c1", Some("ann"), None, 0, now);
      && res.Success?
      && res.value.partner.id == "ann"
      && res.value.partnerConn == "c1"
  {
    var r := [Entry("c1", "ann"), Entry("c2", "ann")];
    assert r[1..] == [Entry("c2", "ann")];
    assert Filter(r, NotConn("c1")) == [Entry("c2", "ann")];
    assert Pool(r, "c1") == ["ann"];
  }

  // ---------------------------------------------------------------------------
  // Corrected pool: other users only
  // ---------------------------------------------------------------------------

  function NotUser(u: UserId): Entry -> bool {
    (e: Entry) => e.user != u
  }

  /** Matchmaking with the pool restricted to entries of other users, as the
      source's own comment describes it ("all active users except current
      user"). The partner is then never the caller's user, and the partner
      connection is never the caller's, provided the caller's connection is
      either unregistered or registered to the caller's user. */
  function FindRandomChatOtherUsers(r: Registry, gs: Groups, st: Store, users: UserTable,
                                    caller: ConnId, userId: Option<UserId>,
                                    filters: Option<SearchFiltersDto>, draw: nat, now: int)
    : (res: Result<Matched, MatchError>)
    requires Consistent(users)
    ensures userId.None? ==> res == Failure(Unauthenticated)
    ensures res.Success? ==>
      && userId.Some?
      && res.value.partner.id != userId.value
      && Entry(res.value.partnerConn, res.value.partner.id) in r
      && (UniqueKeys(r) && Lookup(r, caller) in {None, userId} ==> res.value.partnerConn != caller)
  {
    var keep := if userId.Some? then NotUser(userId.value) else NotConn(caller);
    OtherUsersPartner(keep, r, gs, st, users, caller, userId, filters, draw, now);
    MatchFrom(keep, r, gs, st, users, caller, userId, filters, draw, now)
  }

  lemma OtherUsersPartner(keep: Entry -> bool, r: Registry, gs: Groups, st: Store, users: UserTable,
                          caller: ConnId, userId: Option<UserId>,
                          filters: Option<SearchFiltersDto>, draw: nat, now: int)
    requires Consistent(users)
    requires userId.Some? ==> keep == NotUser(userId.value)
    ensures var res := MatchFrom(keep, r, gs, st, users, caller, userId, filters, draw, now);
      res.Success? ==>
      && userId.Some?
      && res.value.partner.id != userId.value
      && Entry(res.value.partnerConn, res.value.partner.id) in r
      && (UniqueKeys(r) && Lookup(r, caller) in {None, userId} ==> res.value.partnerConn != caller)
  {
    var res := MatchFrom(keep, r, gs, st, users, caller, userId, filters, draw, now);
    if res.Success? {
      var m := res.value;
      var pool := PoolBy(r, keep);
      var cands := Candidates(pool, users, users[userId.value], filters);
      assert m.partner in cands;
      var id :| id in pool && id in users && users[id] == m.partner;
      if UniqueKeys(r) {
        EntryLooksUp(r, m.partnerConn, m.partner.id);
      }
    }
  }

  /** A pool of one eligible user yields exactly that user's profile. */
  lemma SingleCandidate(users: UserTable, id: UserId, requester: User, f: SearchFiltersDto)
    requires id in users && Eligible(users[id], requester, f)
    ensures Candidates([id], users, requester, Some(f)) == [users[id]]
  {
    assert [id][1..] == [];
    assert Profiles([id], users) == [users[id]];
    ApplySearchFiltersIsOneFilter([users[id]], requester, f);
  }

  // ---------------------------------------------------------------------------
  // A worked scenario
  // ---------------------------------------------------------------------------

  /** A (25, male) and B (27, female) are connected; A asks for a woman aged
      20 to 30 and is paired with B in a new chat that both connections join. */
  lemma ScenarioAgeAndGender(gs: Groups, st: Store, now: int)
    ensures var a := User("a", "A#0001", "", Some("A"), Some("0001"), Some(25), Some("male"));
      var b := User("b", "B#0002", "", Some("B"), Some("0002"), Some(27), Some("female"));
      var r := [Entry("ca", "a"), Entry("cb", "b")];
      var f := SearchFiltersDto(true, 20, 30, ["female"], false);
      var res := FindRandomChatWithFilters(r, gs, st, map["a" := a, "b" := b], "ca", Some("a"), Some(f), 0, now);
      && res.Success?
      && res.value.partner == b && res.value.partnerConn == "cb"
      && {"ca", "cb"} <= Members(res.value.groups, IntToString(res.value.chatId))
  {
    var a := User("a", "A#0001", "", Some("A"), Some("0001"), Some(25), Some("male"));
    var b := User("b", "B#0002", "", Some("B"), Some("0002"), Some(27), Some("female"));
    var r := [Entry("ca", "a"), Entry("cb", "b")];
    var f := SearchFiltersDto(true, 20, 30, ["female"], false);
    var users := map["a" := a, "b" := b];
    assert r[1..] == [Entry("cb", "b")];
    assert Filter(r, NotConn("ca")) == [Entry("cb", "b")];
    assert Pool(r, "ca") == ["b"];
    assert Eligible(b, a, f);
    SingleCandidate(users, "b", a, f);
    assert FirstConnOf(r, "b") == Some("cb");
    var m := OpenChat(gs, st, "ca", b, "cb", now);
    assert MatchFrom(NotConn("ca"), r, gs, st, users, "ca", Some("a"), Some(f), 0, now) == Success(m);
  }
}

=== FILE: pagination.dfy ===
/** The two paginated history queries: a chat's messages, oldest change
    first, and the chat list, newest change first. Both order the whole table,
    count it, cut the page out with `Skip((PageNumber - 1) * PageSize)` and
    `Take(PageSize)`, and map the rows to transfer objects. The store is SQL
    Server, which runs the cut as `OFFSET … ROWS FETCH NEXT … ROWS ONLY` and
    rejects a negative offset or a fetch count below 1. */
module Pagination {
  import opened Wrappers
  import opened Seqs
  import opened Entities
  import opened Dtos
  import opened Delivery

  /** A page of items with the request's page number and size and the count
      the query reports. The list's derived page totals are not modelled. */
  datatype PaginatedList<T> = PaginatedList(items: seq<T>, totalCount: int, pageNumber: int, pageSize: int)

  datatype MessagesQuery = MessagesQuery(chatId: int, pageNumber: int, pageSize: int)

  datatype ChatsQuery = ChatsQuery(pageNumber: int, pageSize: int)

  /** The database error a query surfaces as an exception. */
  datatype QueryError = PagingRejected

  /** The message query's defaults: chat 1, page 1, ten per page. */
  function DefaultMessagesQuery(): (q: MessagesQuery)
    ensures q.chatId == 1 && q.pageNumber == 1 && q.pageSize == 10
  {
    MessagesQuery(1, 1, 10)
  }

  /** The chat query's defaults: page 1, ten per page. */
  function DefaultChatsQuery(): (q: ChatsQuery)
    ensures q.pageNumber == 1 && q.pageSize == 10
  {
    ChatsQuery(1, 10)
  }

  // ---------------------------------------------------------------------------
  // Pages
  // ---------------------------------------------------------------------------

  function Offset(pageNumber: int, pageSize: int): int {
    (pageNumber - 1) * pageSize
  }

  /** `x` clamped into [0, n]. */
  function Clamp(x: int, n: nat): (c: nat)
    ensures c <= n
    ensures 0 <= x <= n ==> c == x
  {
    if x < 0 then 0 else if x > n then n else x
  }

  /** Where a page starts in a sequence of length `n`. */
  function Start(n: nat, pageNumber: int, pageSize: int): nat {
    Clamp(Offset(pageNumber, pageSize), n)
  }

  /** `Skip((pageNumber - 1) * pageSize).Take(pageSize)` over a list: the
      contiguous run of at most `pageSize` elements from the page's offset. */
  function Page<T>(s: seq<T>, pageNumber: int, pageSize: int): (r: seq<T>)
    ensures pageSize <= 0 ==> r == []
    ensures pageSize > 0 ==>
      var a := Start(|s|, pageNumber, pageSize);
      r == s[a..Clamp(a + pageSize, |s|)]
  {
    Take(Skip(s, Offset(pageNumber, pageSize)), pageSize)
  }

  /** Whether SQL Server runs the page's `OFFSET … FETCH`: the offset may not
      be negative and the fetch count must be positive. */
  predicate PagingAccepted(pageNumber: int, pageSize: int) {
    Offset(pageNumber, pageSize) >= 0 && pageSize > 0
  }

  /** The database runs exactly the requests whose page number and size are
      both at least 1. */
  lemma PagingAcceptedExactly(pageNumber: int, pageSize: int)
    ensures PagingAccepted(pageNumber, pageSize) <==> pageNumber >= 1 && pageSize >= 1
  {
    if pageSize > 0 && pageNumber < 1 {
      assert (pageNumber - 1) * pageSize <= -pageSize;
    }
  }

  /** The page and position an index falls on. */
  lemma IndexSplit(i: nat, pageSize: int)
    requires pageSize > 0
    ensures Offset(i / pageSize + 1, pageSize) == i - i % pageSize
    ensures 0 <= i % pageSize < pageSize
    ensures i / pageSize + 1 >= 1
  {
  }

  /** Every element lies on the page its index determines, at the position the
      index determines. */
  lemma PageOfIndex<T>(s: seq<T>, pageSize: int, i: int)
    requires pageSize > 0 && 0 <= i < |s|
    ensures var p := Page(s, i / pageSize + 1, pageSize);
      i % pageSize < |p| && p[i % pageSize] == s[i]
  {
    var q := i / pageSize + 1;
    var r := i % pageSize;
    IndexSplit(i, pageSize);
    var a := Start(|s|, q, pageSize);
    assert a == i - r;
    var b := Clamp(a + pageSize, |s|);
    assert a <= i < b;
    assert Page(s, q, pageSize) == s[a..b];
    assert s[a..b][r] == s[i];
  }

  /** A page number the database accepts, and a position on that page, holding
      element `i`. */
  lemma PageHolding<T>(s: seq<T>, pageSize: int, i: int) returns (p: int, k: nat)
    requires pageSize > 0 && 0 <= i < |s|
    ensures p >= 1 && k < |Page(s, p, pageSize)| && Page(s, p, pageSize)[k] == s[i]
  {
    PageOfIndex(s, pageSize, i);
    IndexSplit(i, pageSize);
    p, k := i / pageSize + 1, i % pageSize;
  }

  /** Pages 1 to `k` laid end to end. */
  function Pages<T>(s: seq<T>, pageSize: int, k: nat): seq<T> {
    if k == 0 then [] else Pages(s, pageSize, k - 1) + Page(s, k, pageSize)
  }

  /** The first `k` pages, laid end to end, are exactly the first `k * pageSize`
      elements: pages neither overlap nor leave gaps. */
  lemma {:induction false} PagesAreAPrefix<T>(s: seq<T>, pageSize: int, k: nat)
    requires pageSize > 0
    ensures Pages(s, pageSize, k) == Take(s, k * pageSize)
  {
    if k > 0 {
      var j: nat := k - 1;
      PagesAreAPrefix(s, pageSize, j);
      PrefixStep(s, pageSize, j);
    }
  }

  /** The prefix before page `j + 1` followed by that page is the prefix after it. */
  lemma PrefixStep<T>(s: seq<T>, pageSize: int, j: nat)
    requires pageSize > 0
    ensures Take(s, j * pageSize) + Page(s, j + 1, pageSize) == Take(s, (j + 1) * pageSize)
  {
    var lo := j * pageSize;
    PageBoundary(j, pageSize);
    var a, b := Clamp(lo, |s|), Clamp(lo + pageSize, |s|);
    TakeIsSlice(s, lo);
    TakeIsSlice(s, lo + pageSize);
    assert s[..a] + s[a..b] == s[..b];
  }

  /** `Take` is the prefix up to the count clamped into the sequence. */
  lemma TakeIsSlice<T>(s: seq<T>, n: int)
    requires n >= 0
    ensures Take(s, n) == s[..Clamp(n, |s|)]
  {
  }

  /** Page `j + 1` starts where the first `j` pages end. */
  lemma PageBoundary(j: nat, pageSize: int)
    requires pageSize > 0
    ensures Offset(j + 1, pageSize) == j * pageSize >= 0
    ensures (j + 1) * pageSize == j * pageSize + pageSize
  {
  }

  // ---------------------------------------------------------------------------
  // Chat messages
  // ---------------------------------------------------------------------------

  function ByLastModified(): ChatMessage -> int {
    (m: ChatMessage) => m.lastModified
  }

  /** A chat's messages in ascending order of last change: the whole table
      ordered, then restricted to the chat. They are the chat's messages, each
      as often as stored, and sorted. */
  function History(st: Store, chatId: int): (ms: seq<ChatMessage>)
    ensures SortedBy(ms, ByLastModified())
    ensures multiset(ms) == multiset(MessagesOf(st, chatId))
    ensures |ms| == |MessagesOf(st, chatId)|
    ensures forall i :: 0 <= i < |ms| ==> ms[i].chatId == chatId
  {
    var sorted := SortBy(st.messages, ByLastModified());
    FilterSorted(sorted, InChat(chatId), ByLastModified());
    FilterRespectsMultiset(sorted, st.messages, InChat(chatId));
    assert |multiset(Filter(sorted, InChat(chatId)))| == |multiset(MessagesOf(st, chatId))|;
    Filter(sorted, InChat(chatId))
  }

  /** A message whose stamp is newer than every other stored message's is
      the last entry of its chat's history. */
  lemma NewestListedLast(st: Store, x: ChatMessage, now: int)
    requires x in st.messages && x.lastModified == now
    requires forall y :: y in st.messages && y != x ==> y.lastModified < now
    ensures var h := History(st, x.chatId); |h| > 0 && h[|h| - 1] == x
  {
    var ms := MessagesOf(st, x.chatId);
    assert x in ms;
    SortedEndsWithMax(History(st, x.chatId), ms, ByLastModified(), x);
  }

  /** A read event on a message not yet Read, saved after every stored stamp,
      moves that message to the end of its chat's history. */
  lemma ReadMessageListedLast(st: Store, messageId: int, readerId: UserId, now: int)
    requires Wellformed(st)
    requires FindMessage(st.messages, messageId).Some?
    requires st.messages[FindMessage(st.messages, messageId).value].state != Read
    requires forall m :: m in st.messages ==> m.lastModified < now
    ensures var i := FindMessage(st.messages, messageId).value;
      var r := HandleRead(st, messageId, readerId, now);
      var h := History(r, st.messages[i].chatId);
      |h| > 0 && h[|h| - 1] == r.messages[i]
  {
    var i := FindMessage(st.messages, messageId).value;
    var r := HandleRead(st, messageId, readerId, now);
    MessageChatExists(st, messageId);
    ReadStampsNewest(st, messageId, readerId, now);
    NewestListedLast(r, r.messages[i], now);
  }

  /** The message transfer object: id, chat, sender, body and state copied,
      the time stamp taken from the creation time, the guid left null. */
  function MessageToDto(): ChatMessage -> ChatMessageDto {
    (m: ChatMessage) => ChatMessageDto(m.id, None, m.chatId, m.senderId, m.body, m.state, m.created)
  }

  /** GetChatMessagesWithPaginationQuery. The database rejects a page number
      or size below 1; otherwise the reported total counts every message of
      every chat. */
  function GetChatMessages(st: Store, q: MessagesQuery): (r: Result<PaginatedList<ChatMessageDto>, QueryError>)
    ensures r.Failure? <==> q.pageNumber < 1 || q.pageSize < 1
    ensures r.Success? ==>
      && r.value.totalCount == |st.messages|
      && r.value.pageNumber == q.pageNumber && r.value.pageSize == q.pageSize
      && r.value.items == Map(Page(History(st, q.chatId), q.pageNumber, q.pageSize), MessageToDto())
      && |r.value.items| <= |MessagesOf(st, q.chatId)|
      && forall i :: 0 <= i < |r.value.items| ==> r.value.items[i].chatId == q.chatId && r.value.items[i].guid.None?
  {
    PagingAcceptedExactly(q.pageNumber, q.pageSize);
    if !PagingAccepted(q.pageNumber, q.pageSize) then
      Failure(PagingRejected)
    else
      var h := History(st, q.chatId);
      ChatPageItems(h, q.chatId, q.pageNumber, q.pageSize);
      Success(PaginatedList(Map(Page(h, q.pageNumber, q.pageSize), MessageToDto()),
                            |st.messages|, q.pageNumber, q.pageSize))
  }

  /** A page of one chat's messages, as transfer objects, is no longer than the
      messages and holds only that chat's messages, without guids. */
  lemma ChatPageItems(h: seq<ChatMessage>, chatId: int, pageNumber: int, pageSize: int)
    requires forall i :: 0 <= i < |h| ==> h[i].chatId == chatId
    ensures var items := Map(Page(h, pageNumber, pageSize), MessageToDto());
      && |items| <= |h|
      && forall i :: 0 <= i < |items| ==> items[i].chatId == chatId && items[i].guid.None?
  {
    var page := Page(h, pageNumber, pageSize);
    if pageSize > 0 {
      var a := Start(|h|, pageNumber, pageSize);
      assert forall i :: 0 <= i < |page| ==> page[i] == h[a + i];
    }
  }

  /** The items of pages 1 to `k` of a chat's history, end to end. */
  function MessagePages(st: Store, chatId: int, pageSize: int, k: nat): seq<ChatMessageDto> {
    Requested(PageRequest(st, chatId, pageSize), k)
  }

  /** The items of page `k` of a chat from GetChatMessagesWithPaginationQuery,
      none when the request is rejected. */
  function PageRequest(st: Store, chatId: int, pageSize: int): nat -> seq<ChatMessageDto> {
    (k: nat) => var r := GetChatMessages(st, MessagesQuery(chatId, k, pageSize));
      if r.Success? then r.value.items else []
  }

  /** The answers to requests 1 to `k`, end to end. */
  function Requested<U>(request: nat -> seq<U>, k: nat): seq<U> {
    if k == 0 then [] else Requested(request, k - 1) + request(k)
  }

  /** Paging through a chat's history returns each of its messages exactly
      once, in order of last change, once the pages cover the chat. */
  lemma {:induction false} HistoryPagesCoverChat(st: Store, chatId: int, pageSize: int, k: nat)
    requires pageSize > 0 && k * pageSize >= |MessagesOf(st, chatId)|
    ensures MessagePages(st, chatId, pageSize, k) == Map(History(st, chatId), MessageToDto())
  {
    var h := History(st, chatId);
    MessagePagesArePages(st, chatId, pageSize, k);
    PagesAreAPrefix(h, pageSize, k);
  }

  /** Requesting pages 1 to `k` one by one gives the first `k` pages of the
      history, mapped. */
  lemma MessagePagesArePages(st: Store, chatId: int, pageSize: int, k: nat)
    ensures MessagePages(st, chatId, pageSize, k) == Map(Pages(History(st, chatId), pageSize, k), MessageToDto())
  {
    var h := History(st, chatId);
    var request := PageRequest(st, chatId, pageSize);
    forall i: nat | 1 <= i <= k
      ensures request(i) == Map(Page(h, i, pageSize), MessageToDto())
    {
    }
    RequestedPagesArePages(h, MessageToDto(), pageSize, request, k);
  }

  /** Answering each request `i` with page `i`, mapped, gives the first `k`
      pages, mapped. */
  lemma {:induction false} RequestedPagesArePages<T, U>(h: seq<T>, f: T -> U, pageSize: int,
                                                        request: nat -> seq<U>, k: nat)
    requires forall i: nat :: 1 <= i <= k ==> request(i) == Map(Page(h, i, pageSize), f)
    ensures Requested(request, k) == Map(Pages(h, pageSize, k), f)
  {
    if k > 0 {
      var j: nat := k - 1;
      RequestedPagesArePages(h, f, pageSize, request, j);
      RequestedStep(h, f, pageSize, request, k);
    }
  }

  /** One more answered request extends the mapped pages before it by one. */
  lemma RequestedStep<T, U>(h: seq<T>, f: T -> U, pageSize: int, request: nat -> seq<U>, k: nat)
    requires k > 0
    requires Requested(request, k - 1) == Map(Pages(h, pageSize, k - 1), f)
    requires request(k) == Map(Page(h, k, pageSize), f)
    ensures Requested(request, k) == Map(Pages(h, pageSize, k), f)
  {
    MapAppend(Pages(h, pageSize, k - 1), Page(h, k, pageSize), f);
  }

  /** The reported total is not the chat's message count: with one message in
      each of two chats, the first chat's query reports two. */
  lemma TotalCountSpansChats()
    ensures var st := Store([NewChat(1, 0), NewChat(2, 0)],
                            [ChatMessage(10, "a", "u", "hi", 1, Sent, 0, 0),
                             ChatMessage(11, "b", "v", "yo", 2, Sent, 0, 0)], 3);
      var r := GetChatMessages(st, DefaultMessagesQuery());
      r.Success? && r.value.totalCount == 2 && |MessagesOf(st, 1)| == 1 && |r.value.items| == 1
  {
    var st := Store([NewChat(1, 0), NewChat(2, 0)],
                    [ChatMessage(10, "a", "u", "hi", 1, Sent, 0, 0),
                     ChatMessage(11, "b", "v", "yo", 2, Sent, 0, 0)], 3);
    assert st.messages[1..][1..] == [];
    assert MessagesOf(st, 1) == [st.messages[0]];
  }

  /** The message query with the total taken over the requested chat only,
      which is what the page totals derived from it need. */
  function GetChatMessagesCountingChat(st: Store, q: MessagesQuery): (r: Result<PaginatedList<ChatMessageDto>, QueryError>)
    ensures r.Failure? <==> q.pageNumber < 1 || q.pageSize < 1
    ensures r.Success? ==>
      && r.value.totalCount == |MessagesOf(st, q.chatId)|
      && r.value.items == GetChatMessages(st, q).value.items
      && r.value.pageNumber == q.pageNumber && r.value.pageSize == q.pageSize
  {
    var r := GetChatMessages(st, q);
    if r.Success? then Success(r.value.(totalCount := |MessagesOf(st, q.chatId)|)) else r
  }

  /** With that total, paging until the pages cover the total returns exactly
      `totalCount` items, and one page fewer would not cover them. */
  lemma ChatCountMatchesPages(st: Store, chatId: int, pageSize: int, k: nat)
    requires pageSize > 0
    ensures var n := GetChatMessagesCountingChat(st, MessagesQuery(chatId, 1, pageSize)).value.totalCount;
      k * pageSize >= n ==> |MessagePages(st, chatId, pageSize, k)| == n
  {
    if k * pageSize >= |MessagesOf(st, chatId)| {
      HistoryPagesCoverChat(st, chatId, pageSize, k);
    }
  }

  /** With the total as written, the same reasoning fails: the reported total
      exceeds what paging through the chat can ever return. */
  lemma TableCountExceedsPages(pageSize: int, k: nat)
    requires pageSize > 0
    ensures var st := Store([NewChat(1, 0), NewChat(2, 0)],
                            [ChatMessage(10, "a", "u", "hi", 1, Sent, 0, 0),
                             ChatMessage(11, "b", "v", "yo", 2, Sent, 0, 0)], 3);
      |MessagePages(st, 1, pageSize, k)| < GetChatMessages(st, MessagesQuery(1, 1, pageSize)).value.totalCount
  {
    var st := Store([NewChat(1, 0), NewChat(2, 0)],
                    [ChatMessage(10, "a", "u", "hi", 1, Sent, 0, 0),
                     ChatMessage(11, "b", "v", "yo", 2, Sent, 0, 0)], 3);
    assert st.messages[1..][1..] == [];
    assert MessagesOf(st, 1) == [st.messages[0]];
    MessagePagesArePages(st, 1, pageSize, k);
    PagesLength(History(st, 1), pageSize, k);
  }

  /** Pages never hold more than the sequence they cut. */
  lemma {:induction false} PagesLength<T>(s: seq<T>, pageSize: int, k: nat)
    requires pageSize > 0
    ensures |Pages(s, pageSize, k)| <= |s|
  {
    PagesAreAPrefix(s, pageSize, k);
  }

  // ---------------------------------------------------------------------------
  // Chats
  // ---------------------------------------------------------------------------

  /** Descending last change, as an ascending key. */
  function NewestFirst(): Chat -> int {
    (c: Chat) => -c.lastModified
  }

  /** The chat list in descending order of last change: every chat, each
      once, with no restriction to the caller's chats. */
  function ChatList(st: Store): (cs: seq<Chat>)
    ensures multiset(cs) == multiset(st.chats)
    ensures forall i, j :: 0 <= i < j < |cs| ==> cs[i].lastModified >= cs[j].lastModified
  {
    var cs := SortBy(st.chats, NewestFirst());
    assert forall i, j :: 0 <= i < j < |cs| ==> NewestFirst()(cs[i]) <= NewestFirst()(cs[j]);
    cs
  }

  /** A sent event that changes its chat's summary, saved after every stored
      stamp, brings that chat to the head of the chat list. */
  lemma SentChatListedFirst(st: Store, msg: ChatMessageDto, now: int)
    requires FindChat(st.chats, msg.chatId).Some?
    requires forall c :: c in st.chats ==> c.lastModified < now
    ensures var i := FindChat(st.chats, msg.chatId).value;
      var r := HandleSent(st, msg, now);
      r.chats[i] != st.chats[i] ==> ChatList(r)[0] == r.chats[i]
  {
    var i := FindChat(st.chats, msg.chatId).value;
    var r := HandleSent(st, msg, now);
    if r.chats[i] != st.chats[i] {
      var cs := ChatList(r);
      var x := r.chats[i];
      assert x in r.chats;
      assert x in multiset(cs);
      forall y | y in cs && y != x
        ensures NewestFirst()(x) < NewestFirst()(y)
      {
        assert y in multiset(r.chats);
        var j :| 0 <= j < |r.chats| && r.chats[j] == y;
        assert st.chats[j] in st.chats;
      }
      UniqueMinIsFirst(cs, NewestFirst(), x);
    }
  }

  /** The chat summary object: id, unread count, last change and last message
      copied unchanged. */
  function ChatToDto(): Chat -> ChatDto {
    (c: Chat) => ChatDto(c.id, c.unreadCount, c.lastModified, c.lastMessage)
  }

  /** GetChatsWithPaginationQuery. The database rejects a page number or size
      below 1. */
  function GetChats(st: Store, q: ChatsQuery): (r: Result<PaginatedList<ChatDto>, QueryError>)
    ensures r.Failure? <==> q.pageNumber < 1 || q.pageSize < 1
    ensures r.Success? ==>
      && r.value.totalCount == |st.chats|
      && r.value.pageNumber == q.pageNumber && r.value.pageSize == q.pageSize
      && r.value.items == Map(Page(ChatList(st), q.pageNumber, q.pageSize), ChatToDto())
      && (forall i, j :: 0 <= i < j < |r.value.items| ==> r.value.items[i].lastModified >= r.value.items[j].lastModified)
      && forall d :: d in r.value.items ==> exists c :: c in st.chats && d == ChatToDto()(c)
  {
    PagingAcceptedExactly(q.pageNumber, q.pageSize);
    if !PagingAccepted(q.pageNumber, q.pageSize) then
      Failure(PagingRejected)
    else
      var cs := ChatList(st);
      var page := Page(cs, q.pageNumber, q.pageSize);
      var items := Map(page, ChatToDto());
      ChatPageFacts(st, cs, page, q.pageNumber, q.pageSize);
      ChatItemFacts(st, page, items);
      Success(PaginatedList(items, |st.chats|, q.pageNumber, q.pageSize))
  }

  /** Transfer objects of chats in list order are in that order, and each
      copies a stored chat. */
  lemma ChatItemFacts(st: Store, page: seq<Chat>, items: seq<ChatDto>)
    requires items == Map(page, ChatToDto())
    requires forall i, j :: 0 <= i < j < |page| ==> page[i].lastModified >= page[j].lastModified
    requires forall c :: c in page ==> c in st.chats
    ensures forall i, j :: 0 <= i < j < |items| ==> items[i].lastModified >= items[j].lastModified
    ensures forall d :: d in items ==> exists c :: c in st.chats && d == ChatToDto()(c)
  {
    forall d | d in items
      ensures exists c :: c in st.chats && d == ChatToDto()(c)
    {
      var i :| 0 <= i < |items| && items[i] == d;
      assert page[i] in page;
    }
  }

  /** A page of the chat list is in list order and holds stored chats only. */
  lemma ChatPageFacts(st: Store, cs: seq<Chat>, page: seq<Chat>, pageNumber: int, pageSize: int)
    requires cs == ChatList(st) && page == Page(cs, pageNumber, pageSize)
    ensures forall i, j :: 0 <= i < j < |page| ==> page[i].lastModified >= page[j].lastModified
    ensures forall c :: c in page ==> c in st.chats
  {
    if pageSize > 0 {
      var a := Start(|cs|, pageNumber, pageSize);
      var b := Clamp(a + pageSize, |cs|);
      assert page == cs[a..b];
      SliceKeepsOrder(cs, a, b);
      forall c | c in page
        ensures c in st.chats
      {
        assert c in cs;
        assert c in multiset(cs);
      }
    }
  }

  /** A slice of a list in descending order of last change is in that order too. */
  lemma SliceKeepsOrder(cs: seq<Chat>, a: nat, b: nat)
    requires a <= b <= |cs|
    requires forall i, j :: 0 <= i < j < |cs| ==> cs[i].lastModified >= cs[j].lastModified
    ensures forall i, j :: 0 <= i < j < b - a ==> cs[a..b][i].lastModified >= cs[a..b][j].lastModified
  {
    forall i, j | 0 <= i < j < b - a
      ensures cs[a..b][i].lastModified >= cs[a..b][j].lastModified
    {
      assert cs[a..b][i] == cs[a + i] && cs[a..b][j] == cs[a + j];
    }
  }

  /** Every chat is listed on some page. */
  lemma EveryChatListed(st: Store, c: Chat, pageSize: int)
    requires c in st.chats && pageSize > 0
    ensures exists p :: GetChats(st, ChatsQuery(p, pageSize)).Success?
                     && ChatToDto()(c) in GetChats(st, ChatsQuery(p, pageSize)).value.items
  {
    var cs := ChatList(st);
    assert c in multiset(cs);
    var i :| 0 <= i < |cs| && cs[i] == c;
    var p, k := PageHolding(cs, pageSize, i);
    var r := GetChats(st, ChatsQuery(p, pageSize));
    assert r.value.items[k] == ChatToDto()(c);
  }

  /** Every stored message of a chat is returned on some page of its history. */
  lemma EveryMessageListed(st: Store, m: ChatMessage, pageSize: int)
    requires m in st.messages && pageSize > 0
    ensures exists p :: GetChatMessages(st, MessagesQuery(m.chatId, p, pageSize)).Success?
                     && MessageToDto()(m) in GetChatMessages(st, MessagesQuery(m.chatId, p, pageSize)).value.items
  {
    var h := History(st, m.chatId);
    assert m in MessagesOf(st, m.chatId);
    assert m in multiset(h);
    var i :| 0 <= i < |h| && h[i] == m;
    var p, k := PageHolding(h, pageSize, i);
    var r := GetChatMessages(st, MessagesQuery(m.chatId, p, pageSize));
    assert r.value.items[k] == MessageToDto()(m);
  }
}

=== FILE: presence.dfy ===
/** The presence registry shared by both chat hubs: a dictionary from live
    connection id to user id, with the connect and disconnect handlers that
    maintain it. The dictionary's enumeration order is unspecified; the model
    keeps its entries in a sequence so that "the first entry for a user" has a
    meaning, and every property below holds for every order. */
module Presence {
  import opened Wrappers
  import opened Seqs
  import opened Entities
  import opened Signals

  datatype Entry = Entry(conn: ConnId, user: UserId)

  type Registry = seq<Entry>

  /** A dictionary holds each key at most once. */
  predicate UniqueKeys(r: Registry) {
    forall i, j :: 0 <= i < j < |r| ==> r[i].conn != r[j].conn
  }

  function HasConn(c: ConnId): Entry -> bool {
    (e: Entry) => e.conn == c
  }

  function HasUser(u: UserId): Entry -> bool {
    (e: Entry) => e.user == u
  }

  /** The user registered for connection `c`, if any. */
  function Lookup(r: Registry, c: ConnId): (u: Option<UserId>)
    ensures u.Some? ==> Entry(c, u.value) in r
    ensures u.None? ==> forall e :: e in r ==> e.conn != c
  {
    match FirstIndex(r, HasConn(c))
    case Some(i) => Some(r[i].user)
    case None => None
  }

  /** In a dictionary every entry is what its key looks up. */
  lemma LookupEntry(r: Registry, i: nat)
    requires UniqueKeys(r) && i < |r|
    ensures Lookup(r, r[i].conn) == Some(r[i].user)
  {
    var k := FirstIndex(r, HasConn(r[i].conn));
  }

  /** An entry present in a dictionary is what its key looks up. */
  lemma EntryLooksUp(r: Registry, c: ConnId, u: UserId)
    requires UniqueKeys(r) && Entry(c, u) in r
    ensures Lookup(r, c) == Some(u)
  {
    var i :| 0 <= i < |r| && r[i] == Entry(c, u);
    LookupEntry(r, i);
  }

  /** `dict[c] = u`: overwrites the entry for `c` in place, or appends one. */
  function Upsert(r: Registry, c: ConnId, u: UserId): (r': Registry)
    ensures Lookup(r', c) == Some(u)
    ensures forall c' :: c' != c ==> Lookup(r', c') == Lookup(r, c')
    ensures UniqueKeys(r) ==> UniqueKeys(r')
  {
    match FirstIndex(r, HasConn(c))
    case Some(i) =>
      var r' := r[i := Entry(c, u)];
      UpsertInPlace(r, c, u, i);
      r'
    case None =>
      UpsertAppend(r, c, u);
      r + [Entry(c, u)]
  }

  lemma UpsertInPlace(r: Registry, c: ConnId, u: UserId, i: nat)
    requires FirstIndex(r, HasConn(c)) == Some(i)
    ensures Lookup(r[i := Entry(c, u)], c) == Some(u)
    ensures forall c' :: c' != c ==> Lookup(r[i := Entry(c, u)], c') == Lookup(r, c')
    ensures UniqueKeys(r) ==> UniqueKeys(r[i := Entry(c, u)])
  {
    var r' := r[i := Entry(c, u)];
    forall c' | c' != c ensures Lookup(r', c') == Lookup(r, c') {
      SameLookupOffKey(r, r', c', i);
    }
    FirstIndexSame(r, c, u, i);
  }

  lemma UpsertAppend(r: Registry, c: ConnId, u: UserId)
    requires FirstIndex(r, HasConn(c)).None?
    ensures Lookup(r + [Entry(c, u)], c) == Some(u)
    ensures forall c' :: c' != c ==> Lookup(r + [Entry(c, u)], c') == Lookup(r, c')
    ensures UniqueKeys(r) ==> UniqueKeys(r + [Entry(c, u)])
  {
    var r' := r + [Entry(c, u)];
    forall c' | c' != c ensures Lookup(r', c') == Lookup(r, c') {
      SameLookupOffKey(r + [Entry(c, u)], r', c', |r|);
      FirstIndexAppend(r, Entry(c, u), HasConn(c'));
    }
    FirstIndexAppend(r, Entry(c, u), HasConn(c));
  }

  /** Changing the row at `i` does not affect the lookup of a key that row neither had nor has. */
  lemma SameLookupOffKey(r: Registry, r': Registry, c: ConnId, i: nat)
    requires |r| == |r'| && i < |r|
    requires forall j :: 0 <= j < |r| && j != i ==> r'[j] == r[j]
    requires r[i].conn != c && r'[i].conn != c
    ensures Lookup(r', c) == Lookup(r, c)
  {
    FirstIndexAgree(r, r', HasConn(c));
  }

  /** Two sequences on which `p` agrees position by position, and that agree
      wherever `p` holds, have the same first `p`-index and the same row there. */
  lemma {:induction false} FirstIndexAgree(a: Registry, b: Registry, p: Entry -> bool)
    requires |a| == |b|
    requires forall j :: 0 <= j < |a| ==> p(a[j]) == p(b[j])
    requires forall j :: 0 <= j < |a| && p(a[j]) ==> a[j] == b[j]
    ensures FirstIndex(a, p) == FirstIndex(b, p)
    ensures FirstIndex(a, p).Some? ==> a[FirstIndex(a, p).value] == b[FirstIndex(a, p).value]
  {
    if |a| > 0 {
      FirstIndexAgree(a[1..], b[1..], p);
    }
  }

  lemma FirstIndexSame(r: Registry, c: ConnId, u: UserId, i: nat)
    requires FirstIndex(r, HasConn(c)) == Some(i)
    ensures FirstIndex(r[i := Entry(c, u)], HasConn(c)) == Some(i)
  {
    FirstIndexPrefixSame(r, r[i := Entry(c, u)], HasConn(c), i);
  }

  lemma {:induction false} FirstIndexPrefixSame(a: Registry, b: Registry, p: Entry -> bool, i: nat)
    requires |a| == |b| && i < |a|
    requires FirstIndex(a, p) == Some(i)
    requires forall j :: 0 <= j < i ==> a[j] == b[j]
    requires p(b[i])
    ensures FirstIndex(b, p) == Some(i)
  {
    if i > 0 {
      FirstIndexPrefixSame(a[1..], b[1..], p, i - 1);
    }
  }

  lemma {:induction false} FirstIndexAppend(r: Registry, e: Entry, p: Entry -> bool)
    ensures FirstIndex(r + [e], p) ==
      (if FirstIndex(r, p).Some? then FirstIndex(r, p) else if p(e) then Some(|r|) else None)
  {
    if |r| > 0 {
      assert (r + [e])[1..] == r[1..] + [e];
      FirstIndexAppend(r[1..], e, p);
    }
  }

  function NotConn(c: ConnId): Entry -> bool {
    (e: Entry) => e.conn != c
  }

  /** `dict.Remove(c, out u)`: drops the entry for `c` and reports its user. */
  function Remove(r: Registry, c: ConnId): (res: (Registry, Option<UserId>))
    ensures res.1 == Lookup(r, c)
    ensures Lookup(res.0, c) == None
    ensures forall c' :: c' != c ==> Lookup(res.0, c') == Lookup(r, c')
    ensures UniqueKeys(r) ==> UniqueKeys(res.0)
    ensures res.1.None? ==> res.0 == r
  {
    RemoveFacts(r, c);
    (Filter(r, NotConn(c)), Lookup(r, c))
  }

  lemma RemoveFacts(r: Registry, c: ConnId)
    ensures Lookup(Filter(r, NotConn(c)), c) == None
    ensures forall c' :: c' != c ==> Lookup(Filter(r, NotConn(c)), c') == Lookup(r, c')
    ensures UniqueKeys(r) ==> UniqueKeys(Filter(r, NotConn(c)))
    ensures Lookup(r, c).None? ==> Filter(r, NotConn(c)) == r
  {
    var r' := Filter(r, NotConn(c));
    forall c' | c' != c ensures Lookup(r', c') == Lookup(r, c') {
      RemoveKeepsOthers(r, c, c');
    }
    if Lookup(r, c).None? {
      FilterAll(r, NotConn(c));
    }
    if UniqueKeys(r) {
      RemoveKeepsWellformed(r, c);
    }
  }

  /** Looking up in a registry with one more entry in front. */
  lemma LookupCons(e: Entry, r: Registry, c: ConnId)
    ensures Lookup([e] + r, c) == if e.conn == c then Some(e.user) else Lookup(r, c)
  {
    assert ([e] + r)[0] == e;
    assert ([e] + r)[1..] == r;
  }

  lemma {:induction false} RemoveKeepsOthers(r: Registry, c: ConnId, c': ConnId)
    requires c' != c
    ensures Lookup(Filter(r, NotConn(c)), c') == Lookup(r, c')
  {
    if |r| > 0 {
      RemoveKeepsOthers(r[1..], c, c');
      assert r == [r[0]] + r[1..];
      LookupCons(r[0], r[1..], c');
      if r[0].conn != c {
        LookupCons(r[0], Filter(r[1..], NotConn(c)), c');
      }
    }
  }

  lemma {:induction false} RemoveKeepsWellformed(r: Registry, c: ConnId)
    requires UniqueKeys(r)
    ensures UniqueKeys(Filter(r, NotConn(c)))
  {
    if |r| > 0 {
      assert UniqueKeys(r[1..]);
      RemoveKeepsWellformed(r[1..], c);
      var rest := Filter(r[1..], NotConn(c));
      if r[0].conn != c {
        forall k | 0 <= k < |rest| ensures rest[k].conn != r[0].conn {
          assert rest[k] in rest;
          assert rest[k] in r[1..];
        }
      }
    }
  }

  /** The user ids of all entries, with repetitions (`dict.Values`). */
  function Users(r: Registry): (us: seq<UserId>)
    ensures |us| == |r|
    ensures forall i :: 0 <= i < |r| ==> us[i] == r[i].user
  {
    Map(r, (e: Entry) => e.user)
  }

  /** `dict.Values.Distinct()`: each active user id once. */
  function ActiveUsers(r: Registry): (us: seq<UserId>)
    ensures NoDuplicates(us)
    ensures forall u :: u in us <==> exists i :: 0 <= i < |r| && r[i].user == u
  {
    var vs := Users(r);
    var d := Distinct(vs);
    assert forall u :: u in vs <==> exists i :: 0 <= i < |r| && r[i].user == u by {
      forall u ensures u in vs <==> exists i :: 0 <= i < |r| && r[i].user == u {
        if u in vs {
          var i :| 0 <= i < |vs| && vs[i] == u;
        }
      }
    }
    d
  }

  /** A user is in the snapshot exactly when some connection looks up to it. */
  lemma ActiveUsersAreConnected(r: Registry, u: UserId)
    requires UniqueKeys(r)
    ensures u in ActiveUsers(r) <==> exists c :: Lookup(r, c) == Some(u)
  {
    if u in ActiveUsers(r) {
      var i :| 0 <= i < |r| && r[i].user == u;
      LookupEntry(r, i);
    }
    if exists c :: Lookup(r, c) == Some(u) {
      var c :| Lookup(r, c) == Some(u);
      var i :| 0 <= i < |r| && r[i] == Entry(c, u);
    }
  }

  /** The key of the first entry whose value is `u`
      (`dict.FirstOrDefault(e => e.Value == u).Key`). */
  function FirstConnOf(r: Registry, u: UserId): (c: Option<ConnId>)
    ensures c.Some? ==> Entry(c.value, u) in r
    ensures c.None? ==> forall e :: e in r ==> e.user != u
  {
    match FirstIndex(r, HasUser(u))
    case Some(i) => Some(r[i].conn)
    case None => None
  }

  // ---------------------------------------------------------------------------
  // Connect and disconnect
  // ---------------------------------------------------------------------------

  /** Presence notifications. A null user id or name is `None`. */
  datatype PresenceEvent =
    | UserConnected(user: Option<UserId>, name: Option<string>)
    | UserDisconnected(user: Option<UserId>)
    | ActiveUsersSnapshot(users: seq<UserId>)

  /** A connection is registered only when it is authenticated and the identity
      service resolves a non-empty user name for it. */
  predicate Registers(userId: Option<UserId>, username: Option<string>) {
    userId.Some? && username.Some? && username.value != ""
  }

  /** OnConnectedAsync: `username` is what the identity service returned for the
      caller's user id. A registering connection is (re)mapped to its user, the
      other connections are told, and the caller receives the distinct active
      user ids; otherwise nothing happens. */
  function Connect(r: Registry, conn: ConnId, userId: Option<UserId>, username: Option<string>)
    : (res: (Registry, seq<Dispatch<PresenceEvent>>))
    ensures !Registers(userId, username) ==> res == (r, [])
    ensures Registers(userId, username) ==>
      && Lookup(res.0, conn) == userId
      && (forall c :: c != conn ==> Lookup(res.0, c) == Lookup(r, c))
      && res.1 == [Dispatch(Others, UserConnected(userId, username)),
                   Dispatch(Caller, ActiveUsersSnapshot(ActiveUsers(res.0)))]
    ensures UniqueKeys(r) ==> UniqueKeys(res.0)
  {
    if Registers(userId, username) then
      var r' := Upsert(r, conn, userId.value);
      (r', [Dispatch(Others, UserConnected(userId, username)),
            Dispatch(Caller, ActiveUsersSnapshot(ActiveUsers(r')))])
    else (r, [])
  }

  /** The snapshot a registering caller receives names every active user once,
      its own user among them, and nobody else. */
  lemma ConnectSnapshot(r: Registry, conn: ConnId, userId: Option<UserId>, username: Option<string>)
    requires UniqueKeys(r)
    requires Registers(userId, username)
    ensures var (r', out) := Connect(r, conn, userId, username);
      && out[1].event.ActiveUsersSnapshot?
      && NoDuplicates(out[1].event.users)
      && userId.value in out[1].event.users
      && forall u :: u in out[1].event.users <==> exists c :: Lookup(r', c) == Some(u)
  {
    var (r', out) := Connect(r, conn, userId, username);
    forall u ensures u in out[1].event.users <==> exists c :: Lookup(r', c) == Some(u) {
      ActiveUsersAreConnected(r', u);
    }
  }

  /** OnDisconnectedAsync, registry part: drops the caller's entry and tells the
      other connections exactly when there was one. */
  function Disconnect(r: Registry, conn: ConnId): (res: (Registry, seq<Dispatch<PresenceEvent>>))
    ensures Lookup(res.0, conn) == None
    ensures forall c :: c != conn ==> Lookup(res.0, c) == Lookup(r, c)
    ensures Lookup(r, conn).Some? ==> res.1 == [Dispatch(Others, UserDisconnected(Lookup(r, conn)))]
    ensures Lookup(r, conn).None? ==> res == (r, [])
    ensures UniqueKeys(r) ==> UniqueKeys(res.0)
  {
    var (r', removed) := Remove(r, conn);
    if removed.Some? then (r', [Dispatch(Others, UserDisconnected(removed))]) else (r', [])
  }

  /** OnDisconnectedAsync, waiting-slot part: the slot is emptied only when the
      disconnecting connection is the one waiting in it. */
  function ReleaseWaiting(waiting: Option<ConnId>, conn: ConnId): (w: Option<ConnId>)
    ensures w.None? <==> waiting.None? || waiting.value == conn
    ensures w.Some? ==> w == waiting
  {
    if waiting.Some? && waiting.value == conn then None else waiting
  }

  // ---------------------------------------------------------------------------
  // Presence over a history of connects and disconnects
  // ---------------------------------------------------------------------------

  datatype Step =
    | Join(conn: ConnId, userId: Option<UserId>, username: Option<string>)
    | Leave(conn: ConnId)

  /** The registry after a history of connects and disconnects, from empty. */
  function Replay(steps: seq<Step>): Registry {
    if |steps| == 0 then []
    else
      var r := Replay(steps[..|steps| - 1]);
      match steps[|steps| - 1]
      case Join(c, u, n) => Connect(r, c, u, n).0
      case Leave(c) => Disconnect(r, c).0
  }

  /** Steps that change the registry: every disconnect, and connects that register. */
  predicate Effective(s: Step) {
    s.Leave? || Registers(s.userId, s.username)
  }

  /** The last effective step of connection `c`, if any. */
  function LastEffective(steps: seq<Step>, c: ConnId): (s: Option<Step>)
    ensures s.Some? ==> s.value in steps && s.value.conn == c && Effective(s.value)
  {
    if |steps| == 0 then None
    else
      var s := steps[|steps| - 1];
      if s.conn == c && Effective(s) then Some(s)
      else LastEffective(steps[..|steps| - 1], c)
  }

  /** A connection is present, with user `u`, exactly when its last effective
      step is a registering connect as `u`. */
  lemma {:induction false} ReplayLookup(steps: seq<Step>, c: ConnId)
    ensures UniqueKeys(Replay(steps))
    ensures Lookup(Replay(steps), c) ==
      (match LastEffective(steps, c)
       case Some(Join(_, u, _)) => u
       case _ => None)
  {
    if |steps| > 0 {
      var init, last := steps[..|steps| - 1], steps[|steps| - 1];
      ReplayLookup(init, c);
      var r := Replay(init);
      assert LastEffective(steps, c)
          == if last.conn == c && Effective(last) then Some(last) else LastEffective(init, c);
      match last {
        case Join(c', u, n) =>
          assert Replay(steps) == Connect(r, c', u, n).0;
        case Leave(c') =>
          assert Replay(steps) == Disconnect(r, c').0;
      }
    }
  }

  /** Connection `c`'s last effective step is a registering connect as `u`. */
  predicate HeldBy(steps: seq<Step>, c: ConnId, u: UserId) {
    match LastEffective(steps, c)
    case Some(Join(_, uid, _)) => uid == Some(u)
    case _ => false
  }

  /** The active users after any history are exactly the users that hold at
      least one open connection. */
  lemma PresenceIsOpenConnections(steps: seq<Step>, u: UserId)
    ensures u in ActiveUsers(Replay(steps)) <==> exists c :: HeldBy(steps, c, u)
  {
    var r := Replay(steps);
    ReplayLookup(steps, "");
    ActiveUsersAreConnected(r, u);
    forall c ensures Lookup(r, c) == Some(u) <==> HeldBy(steps, c, u) {
      ReplayLookup(steps, c);
    }
  }
}

=== FILE: search_filters.dfy ===
/** The matchmaking search filters and the pure candidate filter built on them. */
module SearchFilters {
  import opened Wrappers
  import opened Seqs
  import opened Entities

  /** The filters a client may attach to a random-chat request. */
  datatype SearchFiltersDto = SearchFiltersDto(
    ageRangeEnabled: bool,
    minAge: int,
    maxAge: int,
    genderPreferences: seq<string>,
    sameAgeGroupOnly: bool)

  /** A default-constructed filter object: age range off with bounds 18..100,
      no gender preference, same-age-group off. */
  function Defaults(): (f: SearchFiltersDto)
    ensures !f.ageRangeEnabled && !f.sameAgeGroupOnly
    ensures f.minAge == 18 && f.maxAge == 100
    ensures f.genderPreferences == []
  {
    SearchFiltersDto(false, 18, 100, [], false)
  }

  /** The maximal age difference of the same-age-group filter. */
  const AgeGroupSpan := 5

  predicate InAgeRange(u: User, f: SearchFiltersDto) {
    u.age.Some? && f.minAge <= u.age.value <= f.maxAge
  }

  predicate GenderPreferred(u: User, f: SearchFiltersDto) {
    u.gender.Some? && u.gender.value != "" && u.gender.value in f.genderPreferences
  }

  predicate SameAgeGroup(u: User, requester: User)
    requires requester.age.Some?
  {
    u.age.Some? && -AgeGroupSpan <= u.age.value - requester.age.value <= AgeGroupSpan
  }

  function InAgeRangeOf(f: SearchFiltersDto): User -> bool {
    (u: User) => InAgeRange(u, f)
  }

  function GenderPreferredOf(f: SearchFiltersDto): User -> bool {
    (u: User) => GenderPreferred(u, f)
  }

  function SameAgeGroupAs(requester: User): User -> bool
    requires requester.age.Some?
  {
    (u: User) => SameAgeGroup(u, requester)
  }

  /** ApplySearchFilters, stage by stage as the source chains its `Where`s:
      the age range (only when enabled and the requester's age is known), the
      gender list (only when non-empty), then the same age group (only when
      enabled and the requester's age is known). */
  function ApplySearchFilters(candidates: seq<User>, requester: User, f: SearchFiltersDto): (r: seq<User>)
    ensures SubsequenceOf(r, candidates)
    ensures forall u :: u in r ==> u in candidates && Eligible(u, requester, f)
    ensures forall u :: u in candidates && Eligible(u, requester, f) ==> u in r
  {
    var byAge := if f.ageRangeEnabled && requester.age.Some?
                 then Filter(candidates, InAgeRangeOf(f)) else candidates;
    var byGender := if |f.genderPreferences| > 0
                    then Filter(byAge, GenderPreferredOf(f)) else byAge;
    var byGroup := if f.sameAgeGroupOnly && requester.age.Some?
                   then Filter(byGender, SameAgeGroupAs(requester)) else byGender;
    ApplySearchFiltersIsOneFilter(candidates, requester, f);
    FilterIsSubsequence(candidates, EligibleFor(requester, f));
    byGroup
  }

  /** The three criteria in one predicate: every enabled criterion holds, and
      both age criteria are waived when the requester's age is unknown. */
  predicate Eligible(u: User, requester: User, f: SearchFiltersDto) {
    && (f.ageRangeEnabled && requester.age.Some? ==> InAgeRange(u, f))
    && (|f.genderPreferences| > 0 ==> GenderPreferred(u, f))
    && (f.sameAgeGroupOnly && requester.age.Some? ==> SameAgeGroup(u, requester))
  }

  function EligibleFor(requester: User, f: SearchFiltersDto): User -> bool {
    (u: User) => Eligible(u, requester, f)
  }

  function AgeStage(requester: User, f: SearchFiltersDto): User -> bool {
    (u: User) => f.ageRangeEnabled && requester.age.Some? ==> InAgeRange(u, f)
  }

  function GenderStage(f: SearchFiltersDto): User -> bool {
    (u: User) => |f.genderPreferences| > 0 ==> GenderPreferred(u, f)
  }

  function GroupStage(requester: User, f: SearchFiltersDto): User -> bool {
    (u: User) => f.sameAgeGroupOnly && requester.age.Some? ==> SameAgeGroup(u, requester)
  }

  lemma AgeStageFilter(s: seq<User>, requester: User, f: SearchFiltersDto)
    ensures (if f.ageRangeEnabled && requester.age.Some? then Filter(s, InAgeRangeOf(f)) else s)
         == Filter(s, AgeStage(requester, f))
  {
    if f.ageRangeEnabled && requester.age.Some? {
      FilterExt(s, InAgeRangeOf(f), AgeStage(requester, f));
    } else {
      FilterAll(s, AgeStage(requester, f));
    }
  }

  lemma GenderStageFilter(s: seq<User>, f: SearchFiltersDto)
    ensures (if |f.genderPreferences| > 0 then Filter(s, GenderPreferredOf(f)) else s)
         == Filter(s, GenderStage(f))
  {
    if |f.genderPreferences| > 0 {
      FilterExt(s, GenderPreferredOf(f), GenderStage(f));
    } else {
      FilterAll(s, GenderStage(f));
    }
  }

  lemma GroupStageFilter(s: seq<User>, requester: User, f: SearchFiltersDto)
    ensures (if f.sameAgeGroupOnly && requester.age.Some? then Filter(s, SameAgeGroupAs(requester)) else s)
         == Filter(s, GroupStage(requester, f))
  {
    if f.sameAgeGroupOnly && requester.age.Some? {
      FilterExt(s, SameAgeGroupAs(requester), GroupStage(requester, f));
    } else {
      FilterAll(s, GroupStage(requester, f));
    }
  }

  /** The staged filter is one `Where` by `Eligible`: it keeps exactly the
      eligible candidates, in their original order. */
  lemma ApplySearchFiltersIsOneFilter(candidates: seq<User>, requester: User, f: SearchFiltersDto)
    ensures var byAge := if f.ageRangeEnabled && requester.age.Some?
                         then Filter(candidates, InAgeRangeOf(f)) else candidates;
            var byGender := if |f.genderPreferences| > 0
                            then Filter(byAge, GenderPreferredOf(f)) else byAge;
            var byGroup := if f.sameAgeGroupOnly && requester.age.Some?
                           then Filter(byGender, SameAgeGroupAs(requester)) else byGender;
            byGroup == Filter(candidates, EligibleFor(requester, f))
  {
    var p1, p2, p3 := AgeStage(requester, f), GenderStage(f), GroupStage(requester, f);
    AgeStageFilter(candidates, requester, f);
    var byAge := Filter(candidates, p1);
    GenderStageFilter(byAge, f);
    var byGender := Filter(byAge, p2);
    GroupStageFilter(byGender, requester, f);
    FilterFilter(candidates, p1, p2);
    FilterFilter(candidates, Both(p1, p2), p3);
    StagesAreEligible(candidates, requester, f);
    FilterExt(candidates, Both(Both(p1, p2), p3), EligibleFor(requester, f));
  }

  /** Passing the three stages one after another is being eligible. */
  lemma StagesAreEligible(s: seq<User>, requester: User, f: SearchFiltersDto)
    ensures var all := Both(Both(AgeStage(requester, f), GenderStage(f)), GroupStage(requester, f));
      forall i :: 0 <= i < |s| ==> all(s[i]) == EligibleFor(requester, f)(s[i])
  {
  }

  /** A default-constructed filter keeps every candidate. */
  lemma DefaultsKeepEveryone(candidates: seq<User>, requester: User)
    ensures ApplySearchFilters(candidates, requester, Defaults()) == candidates
  {
    ApplySearchFiltersIsOneFilter(candidates, requester, Defaults());
    FilterAll(candidates, EligibleFor(requester, Defaults()));
  }

  /** With the same-age-group filter, a requester aged 22 is offered a
      candidate aged 20 and not one aged 40. */
  lemma SameAgeGroupExample(a20: User, a40: User, requester: User)
    requires a20.age == Some(20) && a40.age == Some(40) && requester.age == Some(22)
    ensures ApplySearchFilters([a20, a40], requester, Defaults().(sameAgeGroupOnly := true)) == [a20]
  {
    var f := Defaults().(sameAgeGroupOnly := true);
    ApplySearchFiltersIsOneFilter([a20, a40], requester, f);
    assert [a20, a40][1..] == [a40];
  }
}

=== FILE: seqs.dfy ===
/** Sequence combinators with the LINQ meaning the source relies on:
    `Where` (Filter), `Count(pred)`, `Distinct`, `OrderBy` (SortBy), `Skip` and `Take`. */
module Seqs {
  import opened Wrappers

  // ---------------------------------------------------------------------------
  // FirstOrDefault
  // ---------------------------------------------------------------------------

  /** The index of the first element satisfying `p`, if any (LINQ `FirstOrDefault(pred)`). */
  function FirstIndex<T>(s: seq<T>, p: T -> bool): (r: Option<nat>)
    ensures r.Some? ==> r.value < |s| && p(s[r.value])
    ensures r.Some? ==> forall j :: 0 <= j < r.value ==> !p(s[j])
    ensures r.None? ==> forall j :: 0 <= j < |s| ==> !p(s[j])
  {
    if |s| == 0 then None
    else if p(s[0]) then Some(0)
    else match FirstIndex(s[1..], p)
      case Some(k) => Some(k + 1)
      case None => None
  }

  /** The conjunction of two element predicates. */
  function Both<T>(p: T -> bool, q: T -> bool): T -> bool {
    x => p(x) && q(x)
  }

  // ---------------------------------------------------------------------------
  // Where
  // ---------------------------------------------------------------------------

  /** The elements of `s` satisfying `p`, in their original order (LINQ `Where`). */
  function Filter<T>(s: seq<T>, p: T -> bool): (r: seq<T>)
    ensures |r| <= |s|
    ensures forall x :: x in r ==> x in s && p(x)
    ensures forall x :: x in s && p(x) ==> x in r
  {
    if |s| == 0 then []
    else if p(s[0]) then [s[0]] + Filter(s[1..], p)
    else Filter(s[1..], p)
  }

  /** `r` can be obtained from `s` by deleting elements (order is kept). */
  predicate SubsequenceOf<T(==)>(r: seq<T>, s: seq<T>)
    decreases |s|
  {
    if |r| == 0 then true
    else if |s| == 0 then false
    else if r[0] == s[0] then SubsequenceOf(r[1..], s[1..])
    else SubsequenceOf(r, s[1..])
  }

  /** Filtering never reorders: the result is a subsequence of the input. */
  lemma {:induction false} FilterIsSubsequence<T>(s: seq<T>, p: T -> bool)
    ensures SubsequenceOf(Filter(s, p), s)
  {
    if |s| > 0 {
      FilterIsSubsequence(s[1..], p);
      if !p(s[0]) {
        SkipHeadKeepsSubsequence(Filter(s[1..], p), s[0], s[1..]);
      }
    }
  }

  /** Prepending an element to the larger sequence keeps a subsequence a subsequence. */
  lemma {:induction false} SkipHeadKeepsSubsequence<T>(r: seq<T>, x: T, s: seq<T>)
    requires SubsequenceOf(r, s)
    ensures SubsequenceOf(r, [x] + s)
    decreases |s|, 1
  {
    assert ([x] + s)[1..] == s;
    if |r| > 0 && r[0] == x {
      // the greedy match consumes `x`; the rest must embed in `s`
      SubsequenceTail(r, s);
    }
  }

  /** Dropping the head of a subsequence keeps it a subsequence. */
  lemma {:induction false} SubsequenceTail<T>(r: seq<T>, s: seq<T>)
    requires |r| > 0
    requires SubsequenceOf(r, s)
    ensures SubsequenceOf(r[1..], s)
    decreases |s|, 0
  {
    if r[0] == s[0] {
      SkipHeadKeepsSubsequence(r[1..], s[0], s[1..]);
      assert [s[0]] + s[1..] == s;
    } else {
      SubsequenceTail(r, s[1..]);
      SkipHeadKeepsSubsequence(r[1..], s[0], s[1..]);
      assert [s[0]] + s[1..] == s;
    }
  }

  /** Filtering twice is filtering once by the conjunction. */
  lemma {:induction false} FilterFilter<T>(s: seq<T>, p: T -> bool, q: T -> bool)
    ensures Filter(Filter(s, p), q) == Filter(s, Both(p, q))
  {
    if |s| > 0 {
      FilterFilter(s[1..], p, q);
      if p(s[0]) {
        assert Filter(s, p) == [s[0]] + Filter(s[1..], p);
        assert ([s[0]] + Filter(s[1..], p))[1..] == Filter(s[1..], p);
      }
    }
  }

  /** Filtering depends only on the predicate's values. */
  lemma {:induction false} FilterExt<T>(s: seq<T>, p: T -> bool, q: T -> bool)
    requires forall i :: 0 <= i < |s| ==> p(s[i]) == q(s[i])
    ensures Filter(s, p) == Filter(s, q)
  {
    if |s| > 0 {
      FilterExt(s[1..], p, q);
    }
  }

  /** Filtering by a predicate that holds everywhere on `s` is the identity. */
  lemma {:induction false} FilterAll<T>(s: seq<T>, p: T -> bool)
    requires forall i :: 0 <= i < |s| ==> p(s[i])
    ensures Filter(s, p) == s
  {
    if |s| > 0 {
      FilterAll(s[1..], p);
      assert [s[0]] + s[1..] == s;
    }
  }

  /** Filtering distributes over concatenation. */
  lemma {:induction false} FilterAppend<T>(a: seq<T>, b: seq<T>, p: T -> bool)
    ensures Filter(a + b, p) == Filter(a, p) + Filter(b, p)
  {
    if |a| == 0 {
      assert a + b == b;
    } else {
      var ab := a + b;
      assert ab[0] == a[0];
      assert ab[1..] == a[1..] + b;
      FilterAppend(a[1..], b, p);
      assert Filter(ab, p) == (if p(a[0]) then [a[0]] else []) + Filter(a[1..] + b, p);
      assert Filter(a, p) == (if p(a[0]) then [a[0]] else []) + Filter(a[1..], p);
    }
  }

  // ---------------------------------------------------------------------------
  // Count(pred)
  // ---------------------------------------------------------------------------

  /** The number of elements of `s` satisfying `p` (LINQ `Count(pred)`). */
  function Count<T>(s: seq<T>, p: T -> bool): (n: nat)
    ensures n <= |s|
  {
    if |s| == 0 then 0
    else (if p(s[0]) then 1 else 0) + Count(s[1..], p)
  }

  /** `Count(pred)` is the length of `Where(pred)`. */
  lemma {:induction false} CountIsFilterLength<T>(s: seq<T>, p: T -> bool)
    ensures Count(s, p) == |Filter(s, p)|
  {
    if |s| > 0 {
      CountIsFilterLength(s[1..], p);
    }
  }

  /** Counting distributes over concatenation. */
  lemma {:induction false} CountAppend<T>(a: seq<T>, b: seq<T>, p: T -> bool)
    ensures Count(a + b, p) == Count(a, p) + Count(b, p)
  {
    if |a| == 0 {
      assert a + b == b;
    } else {
      assert (a + b)[0] == a[0];
      assert (a + b)[1..] == a[1..] + b;
      CountAppend(a[1..], b, p);
    }
  }

  /** Counting over a `Where` is counting by the conjunction. */
  lemma {:induction false} CountFilter<T>(s: seq<T>, p: T -> bool, q: T -> bool)
    ensures Count(Filter(s, p), q) == Count(s, Both(p, q))
  {
    if |s| > 0 {
      CountFilter(s[1..], p, q);
      if p(s[0]) {
        assert Filter(s, p) == [s[0]] + Filter(s[1..], p);
        assert ([s[0]] + Filter(s[1..], p))[1..] == Filter(s[1..], p);
      }
    }
  }

  /** Replacing one element changes the count by that element's contribution only. */
  lemma CountUpdate<T>(s: seq<T>, i: nat, x: T, p: T -> bool)
    requires i < |s|
    ensures Count(s[i := x], p) + (if p(s[i]) then 1 else 0)
         == Count(s, p) + (if p(x) then 1 else 0)
  {
    assert s == s[..i] + [s[i]] + s[i+1..];
    assert s[i := x] == s[..i] + [x] + s[i+1..];
    CountAppend(s[..i] + [s[i]], s[i+1..], p);
    CountAppend(s[..i], [s[i]], p);
    CountAppend(s[..i] + [x], s[i+1..], p);
    CountAppend(s[..i], [x], p);
  }

  /** An element that satisfies `p` is one of at most |s| counted, so with one
      element known not to satisfy `p` the count is strictly below |s|. */
  lemma CountBelowLength<T>(s: seq<T>, i: nat, p: T -> bool)
    requires i < |s| && !p(s[i])
    ensures Count(s, p) < |s|
  {
    assert s == s[..i] + [s[i]] + s[i+1..];
    CountAppend(s[..i] + [s[i]], s[i+1..], p);
    CountAppend(s[..i], [s[i]], p);
  }

  // ---------------------------------------------------------------------------
  // Select and Distinct
  // ---------------------------------------------------------------------------

  /** The image of `s` under `f`, element by element (LINQ `Select`). */
  function Map<T, U>(s: seq<T>, f: T -> U): (r: seq<U>)
    ensures |r| == |s|
    ensures forall i :: 0 <= i < |s| ==> r[i] == f(s[i])
  {
    if |s| == 0 then [] else [f(s[0])] + Map(s[1..], f)
  }

  /** `Select` distributes over concatenation. */
  lemma MapAppend<T, U>(a: seq<T>, b: seq<T>, f: T -> U)
    ensures Map(a + b, f) == Map(a, f) + Map(b, f)
  {
    assert forall i :: 0 <= i < |a + b| ==> Map(a + b, f)[i] == (Map(a, f) + Map(b, f))[i];
  }

  predicate NoDuplicates<T(==)>(s: seq<T>) {
    forall i, j :: 0 <= i < j < |s| ==> s[i] != s[j]
  }

  /** The elements of `s` with repetitions removed (LINQ `Distinct`). The
      contract says which elements remain, not in which order: the one use is
      over a dictionary's values, whose enumeration order is unspecified. */
  function Distinct<T(==)>(s: seq<T>): (r: seq<T>)
    ensures NoDuplicates(r)
    ensures forall x :: x in r ==> x in s
    ensures forall x :: x in s ==> x in r
    ensures |r| <= |s|
  {
    if |s| == 0 then []
    else
      var d := Distinct(s[..|s| - 1]);
      assert s == s[..|s| - 1] + [s[|s| - 1]];
      if s[|s| - 1] in d then d else d + [s[|s| - 1]]
  }

  /** Each element of `Distinct(s)` occurs in it exactly once. */
  lemma DistinctOccursOnce<T>(s: seq<T>, x: T)
    requires x in s
    ensures |set i | 0 <= i < |Distinct(s)| && Distinct(s)[i] == x| == 1
  {
    var d := Distinct(s);
    var k :| 0 <= k < |d| && d[k] == x;
    var idx := set i | 0 <= i < |d| && d[i] == x;
    assert idx == {k};
  }

  // ---------------------------------------------------------------------------
  // OrderBy
  // ---------------------------------------------------------------------------

  predicate SortedBy<T>(s: seq<T>, key: T -> int) {
    forall i, j :: 0 <= i < j < |s| ==> key(s[i]) <= key(s[j])
  }

  /** In a sequence sorted by `key`, an element whose key is above every other
      element's comes last. */
  lemma UniqueMaxIsLast<T>(s: seq<T>, key: T -> int, x: T)
    requires SortedBy(s, key) && x in s
    requires forall y :: y in s && y != x ==> key(y) < key(x)
    ensures |s| > 0 && s[|s| - 1] == x
  {
    var p :| 0 <= p < |s| && s[p] == x;
    assert key(s[|s| - 1]) >= key(x);
    assert s[|s| - 1] in s;
  }

  /** A sorted rearrangement of `pool` ends with the element of `pool` whose key
      is above every other's. */
  lemma SortedEndsWithMax<T>(s: seq<T>, pool: seq<T>, key: T -> int, x: T)
    requires SortedBy(s, key) && multiset(s) == multiset(pool) && x in pool
    requires forall y :: y in pool && y != x ==> key(y) < key(x)
    ensures |s| > 0 && s[|s| - 1] == x
  {
    assert x in multiset(pool);
    forall y | y in s && y != x
      ensures key(y) < key(x)
    {
      assert y in multiset(s);
    }
    UniqueMaxIsLast(s, key, x);
  }

  /** In a sequence sorted by `key`, an element whose key is below every other
      element's comes first. */
  lemma UniqueMinIsFirst<T>(s: seq<T>, key: T -> int, x: T)
    requires SortedBy(s, key) && x in s
    requires forall y :: y in s && y != x ==> key(x) < key(y)
    ensures |s| > 0 && s[0] == x
  {
    var p :| 0 <= p < |s| && s[p] == x;
    assert key(s[0]) <= key(x);
    assert s[0] in s;
  }

  /** Insert `x` before the first element whose key is not below its own. */
  function Insert<T>(x: T, s: seq<T>, key: T -> int): (r: seq<T>)
    requires SortedBy(s, key)
    ensures SortedBy(r, key)
    ensures multiset(r) == multiset(s) + multiset{x}
    ensures forall y :: y in r ==> y == x || y in s
  {
    if |s| == 0 then [x]
    else if key(x) <= key(s[0]) then
      ConsSorted(x, s, key);
      [x] + s
    else
      var t := Insert(x, s[1..], key);
      assert s == [s[0]] + s[1..];
      HeadBelowRest(s, key);
      ConsSorted(s[0], t, key);
      [s[0]] + t
  }

  /** In a sorted sequence the head's key bounds every key. */
  lemma HeadBelowRest<T>(s: seq<T>, key: T -> int)
    requires SortedBy(s, key) && |s| > 0
    ensures forall y :: y in s ==> key(s[0]) <= key(y)
  {
    forall y | y in s
      ensures key(s[0]) <= key(y)
    {
      var j :| 0 <= j < |s| && s[j] == y;
    }
  }

  /** Putting an element in front of a sorted sequence whose keys it bounds
      keeps it sorted. */
  lemma ConsSorted<T>(h: T, t: seq<T>, key: T -> int)
    requires SortedBy(t, key)
    requires forall y :: y in t ==> key(h) <= key(y)
    ensures SortedBy([h] + t, key)
  {
    var r := [h] + t;
    forall i, j | 0 <= i < j < |r|
      ensures key(r[i]) <= key(r[j])
    {
      if i == 0 {
        assert r[j] == t[j - 1];
        assert t[j - 1] in t;
      } else {
        assert r[i] == t[i - 1] && r[j] == t[j - 1];
      }
    }
  }

  /** `s` sorted by ascending key (LINQ `OrderBy`). Elements with equal keys
      are in no promised order. */
  function SortBy<T>(s: seq<T>, key: T -> int): (r: seq<T>)
    ensures SortedBy(r, key)
    ensures multiset(r) == multiset(s)
    ensures |r| == |s|
  {
    if |s| == 0 then []
    else
      assert s == [s[0]] + s[1..];
      Insert(s[0], SortBy(s[1..], key), key)
  }

  /** Filtering a sorted sequence leaves it sorted. */
  lemma {:induction false} FilterSorted<T>(s: seq<T>, p: T -> bool, key: T -> int)
    requires SortedBy(s, key)
    ensures SortedBy(Filter(s, p), key)
  {
    if |s| > 0 {
      FilterSorted(s[1..], p, key);
      var r := Filter(s[1..], p);
      if p(s[0]) {
        forall j | 0 <= j < |r|
          ensures key(s[0]) <= key(r[j])
        {
          assert r[j] in s[1..];
        }
      }
    }
  }

  /** Filtering two permutations of each other gives permutations of each other. */
  lemma {:induction false} FilterRespectsMultiset<T>(a: seq<T>, b: seq<T>, p: T -> bool)
    requires multiset(a) == multiset(b)
    ensures multiset(Filter(a, p)) == multiset(Filter(b, p))
    decreases |a|
  {
    if |a| == 0 {
      assert |b| == |multiset(b)| == 0;
    } else {
      var x := a[0];
      assert x in multiset(b);
      var j :| 0 <= j < |b| && b[j] == x;
      var b' := b[..j] + b[j + 1..];
      RemoveAt(b, j);
      assert a == [x] + a[1..];
      assert multiset(a[1..]) == multiset(a) - multiset{x};
      FilterRespectsMultiset(a[1..], b', p);
      FilterAround(b, j, p);
      FilterAppend([x], a[1..], p);
    }
  }

  /** Deleting one position removes one occurrence of its element. */
  lemma RemoveAt<T>(b: seq<T>, j: nat)
    requires j < |b|
    ensures multiset(b[..j] + b[j + 1..]) == multiset(b) - multiset{b[j]}
  {
    assert b == b[..j] + [b[j]] + b[j + 1..];
  }

  /** Filtering a sequence splits around any one of its positions. */
  lemma FilterAround<T>(b: seq<T>, j: nat, p: T -> bool)
    requires j < |b|
    ensures multiset(Filter(b, p)) == multiset(Filter(b[..j] + b[j + 1..], p)) + multiset(Filter([b[j]], p))
  {
    var l, x, r := b[..j], [b[j]], b[j + 1..];
    SplitAt(b, j);
    FilterAppendMultiset(l, x + r, p);
    FilterAppendMultiset(x, r, p);
    FilterAppendMultiset(l, r, p);
    UnionRearrange(multiset(Filter(l, p)), multiset(Filter(x, p)), multiset(Filter(r, p)));
  }

  /** A sequence is its prefix, the element at `j` and its suffix. */
  lemma SplitAt<T>(b: seq<T>, j: nat)
    requires j < |b|
    ensures b == b[..j] + ([b[j]] + b[j + 1..])
  {
  }

  /** The multiset form of `FilterAppend`. */
  lemma FilterAppendMultiset<T>(a: seq<T>, b: seq<T>, p: T -> bool)
    ensures multiset(Filter(a + b, p)) == multiset(Filter(a, p)) + multiset(Filter(b, p))
  {
    FilterAppend(a, b, p);
  }

  lemma UnionRearrange<T>(a: multiset<T>, x: multiset<T>, r: multiset<T>)
    ensures a + (x + r) == (a + r) + x
  {
  }

  // ---------------------------------------------------------------------------
  // Skip and Take
  // ---------------------------------------------------------------------------

  /** LINQ `Skip(n)`: a non-positive count skips nothing, a count past the end skips all. */
  function Skip<T>(s: seq<T>, n: int): (r: seq<T>)
    ensures n <= 0 ==> r == s
    ensures 0 <= n <= |s| ==> r == s[n..]
    ensures |s| <= n ==> r == []
  {
    if n <= 0 then s else if n >= |s| then [] else s[n..]
  }

  /** LINQ `Take(n)`: a non-positive count takes nothing, a count past the end takes all. */
  function Take<T>(s: seq<T>, n: int): (r: seq<T>)
    ensures n <= 0 ==> r == []
    ensures 0 <= n <= |s| ==> r == s[..n]
    ensures |s| <= n ==> r == s
  {
    if n <= 0 then [] else if n >= |s| then s else s[..n]
  }
}

=== FILE: signals.dfy ===
/** The real-time transport as the hubs see it: connection ids, the audiences a
    hub can address, and the many-to-many group membership of connections. */
module Signals {
  import opened Entities

  /** A transport-level connection identifier. */
  type ConnId = string

  /** Whom one outbound call addresses. `Others` is every live connection but
      the caller; `GroupExcept(g, x)` is every member of group `g` but `x`. */
  datatype Audience =
    | Caller
    | Others
    | All
    | Group(name: string)
    | GroupExcept(name: string, excluded: ConnId)
    | ToUser(user: UserId)

  /** One outbound call: an event sent to an audience. */
  datatype Dispatch<+E> = Dispatch(to: Audience, event: E)

  /** The same calls, to the same audiences, with each event wrapped by
      `wrap`: how a hub relays the presence calls in its own event type. */
  function Lift<E, F>(ds: seq<Dispatch<E>>, wrap: E -> F): (r: seq<Dispatch<F>>)
    ensures |r| == |ds|
    ensures forall i :: 0 <= i < |ds| ==> r[i] == Dispatch(ds[i].to, wrap(ds[i].event))
  {
    if |ds| == 0 then [] else [Dispatch(ds[0].to, wrap(ds[0].event))] + Lift(ds[1..], wrap)
  }

  /** Group membership: group name to member connections. */
  type Groups = map<string, set<ConnId>>

  function Members(gs: Groups, g: string): set<ConnId> {
    if g in gs then gs[g] else {}
  }

  /** Adds a connection to a group; adding twice is the same as adding once. */
  function AddToGroup(gs: Groups, c: ConnId, g: string): (r: Groups)
    ensures Members(r, g) == Members(gs, g) + {c}
    ensures forall h :: h != g ==> Members(r, h) == Members(gs, h)
  {
    gs[g := Members(gs, g) + {c}]
  }

  /** Removes a connection from a group; other groups are untouched. */
  function RemoveFromGroup(gs: Groups, c: ConnId, g: string): (r: Groups)
    ensures Members(r, g) == Members(gs, g) - {c}
    ensures forall h :: h != g ==> Members(r, h) == Members(gs, h)
  {
    gs[g := Members(gs, g) - {c}]
  }

  /** The connections an outbound call reaches, given the caller, the live
      connections and the group table. A call to a connection that is no longer
      live reaches nobody and does not fail. `userConns` are the live
      connections of the addressed user. */
  function Recipients(a: Audience, caller: ConnId, live: set<ConnId>, gs: Groups,
                      userConns: UserId -> set<ConnId>): (r: set<ConnId>)
    ensures r <= live + {caller}
    ensures a.GroupExcept? ==> a.excluded !in r
    ensures a.Others? ==> caller !in r
  {
    match a
    case Caller => {caller}
    case Others => live - {caller}
    case All => live
    case Group(g) => Members(gs, g) * live
    case GroupExcept(g, x) => Members(gs, g) * live - {x}
    case ToUser(u) => userConns(u) * live
  }
}

=== FILE: text.dfy ===
/** The .NET string tests the source relies on: `string.IsNullOrEmpty`,
    `string.IsNullOrWhiteSpace` (with `char.IsWhiteSpace`'s character set) and
    `ToLower`. A nullable string is an `Option<string>`. */
module Text {
  import opened Wrappers

  /** `string.IsNullOrEmpty`. */
  predicate IsNullOrEmpty(s: Option<string>) {
    s.None? || s.value == ""
  }

  /** `char.IsWhiteSpace`: the Unicode space, line and paragraph separators
      (categories Zs, Zl, Zp) and the controls U+0009..U+000D and U+0085. */
  predicate IsWhiteSpace(c: char) {
    || ('\U{0009}' <= c <= '\U{000D}')
    || c == '\U{0020}' || c == '\U{0085}' || c == '\U{00A0}' || c == '\U{1680}'
    || ('\U{2000}' <= c <= '\U{200A}')
    || c == '\U{2028}' || c == '\U{2029}' || c == '\U{202F}' || c == '\U{205F}' || c == '\U{3000}'
  }

  /** `string.IsNullOrWhiteSpace`: null, or every character is white space
      (which includes the empty string). */
  predicate IsNullOrWhiteSpace(s: Option<string>) {
    s.None? || forall i :: 0 <= i < |s.value| ==> IsWhiteSpace(s.value[i])
  }

  /** A string that is null or empty is also null or white space; the converse
      fails on " ". */
  lemma EmptyIsWhiteSpace(s: Option<string>)
    ensures IsNullOrEmpty(s) ==> IsNullOrWhiteSpace(s)
    ensures !IsNullOrEmpty(Some(" ")) && IsNullOrWhiteSpace(Some(" "))
  {
    assert IsWhiteSpace(" "[0]);
  }

  predicate IsAsciiUpper(c: char) {
    'A' <= c <= 'Z'
  }

  function LowerChar(c: char): (d: char)
    ensures IsAsciiUpper(c) ==> d as int == c as int + 32
    ensures !IsAsciiUpper(c) ==> d == c
    ensures !IsAsciiUpper(d)
  {
    if IsAsciiUpper(c) then (c as int + 32) as char else c
  }

  /** `ToLower`, restricted to the ASCII letters (see README). */
  function ToLower(s: string): (r: string)
    ensures |r| == |s|
    ensures forall i :: 0 <= i < |s| ==> r[i] == LowerChar(s[i])
  {
    if |s| == 0 then [] else [LowerChar(s[0])] + ToLower(s[1..])
  }

  /** Lower-casing is idempotent and leaves lower-case text alone. */
  lemma ToLowerIdempotent(s: string)
    ensures ToLower(ToLower(s)) == ToLower(s)
    ensures (forall i :: 0 <= i < |s| ==> !IsAsciiUpper(s[i])) ==> ToLower(s) == s
  {
  }

  // ---------------------------------------------------------------------------
  // Decimal text
  // ---------------------------------------------------------------------------

  predicate IsDigit(c: char) {
    '0' <= c <= '9'
  }

  predicate AllDigits(s: string) {
    forall i :: 0 <= i < |s| ==> IsDigit(s[i])
  }

  function DigitChar(d: int): (c: char)
    requires 0 <= d < 10
    ensures IsDigit(c) && c as int - '0' as int == d
  {
    ('0' as int + d) as char
  }

  /** The value of a string of decimal digits (the empty string reads as 0). */
  function NatValue(s: string): nat
    requires AllDigits(s)
  {
    if |s| == 0 then 0 else NatValue(s[..|s| - 1]) * 10 + (s[|s| - 1] as int - '0' as int)
  }

  lemma NatValueSnoc(s: string, c: char)
    requires AllDigits(s) && IsDigit(c)
    ensures AllDigits(s + [c])
    ensures NatValue(s + [c]) == NatValue(s) * 10 + (c as int - '0' as int)
  {
    assert (s + [c])[..|s|] == s;
  }

  /** The decimal text of an integer (C# `int.ToString()`): digits without
      leading zeros, after a minus sign when negative. Its digits read back as
      the magnitude. */
  function IntToString(n: int): (s: string)
    ensures |s| > 0
    ensures n >= 0 ==> AllDigits(s) && NatValue(s) == n
    ensures n < 0 ==> s[0] == '-' && AllDigits(s[1..]) && NatValue(s[1..]) == -n
    decreases if n < 0 then 1 - n else n
  {
    if n < 0 then
      var t := IntToString(-n);
      assert ("-" + t)[1..] == t;
      "-" + t
    else if n < 10 then
      NatValueSnoc([], DigitChar(n));
      [DigitChar(n)]
    else
      var t := IntToString(n / 10);
      NatValueSnoc(t, DigitChar(n % 10));
      t + [DigitChar(n % 10)]
  }

  /** Distinct integers have distinct decimal texts. */
  lemma IntToStringInjective(a: int, b: int)
    requires IntToString(a) == IntToString(b)
    ensures a == b
  {
  }

  /** `n.ToString("D4")` for `0 <= n < 10000`: exactly four digits, zero-padded,
      reading back as `n`. */
  function FormatD4(n: int): (s: string)
    requires 0 <= n < 10000
    ensures |s| == 4 && AllDigits(s) && NatValue(s) == n
  {
    var a, b, c, d := DigitChar(n / 1000), DigitChar(n / 100 % 10), DigitChar(n / 10 % 10), DigitChar(n % 10);
    NatValueSnoc([], a);
    NatValueSnoc([a], b);
    NatValueSnoc([a, b], c);
    NatValueSnoc([a, b, c], d);
    assert [a] == [] + [a] && [a, b] == [a] + [b] && [a, b, c] == [a, b] + [c] && [a, b, c, d] == [a, b, c] + [d];
    Compose4(n);
    [a, b, c, d]
  }

  /** A number below 10000 is the place-value sum of its four decimal digits. */
  lemma Compose4(n: int)
    requires 0 <= n < 10000
    ensures ((n / 1000 * 10 + n / 100 % 10) * 10 + n / 10 % 10) * 10 + n % 10 == n
  {
    var a := n / 10;
    var b := a / 10;
    var c := b / 10;
    DivUnique(n, 100, b, a % 10 * 10 + n % 10);
    DivUnique(n, 1000, c, (b % 10 * 10 + a % 10) * 10 + n % 10);
  }

  /** Every four-digit string is the "D4" text of its own value, so the "D4"
      texts are exactly the four-digit strings and `FormatD4` is injective. */
  lemma FormatD4Onto(s: string)
    requires |s| == 4 && AllDigits(s)
    ensures NatValue(s) < 10000
    ensures FormatD4(NatValue(s)) == s
  {
    var d0, d1, d2, d3 := s[0] as int - '0' as int, s[1] as int - '0' as int, s[2] as int - '0' as int, s[3] as int - '0' as int;
    assert s[..3][..2] == s[..2] && s[..2][..1] == s[..1] && s[..1][..0] == [];
    assert NatValue(s[..1]) == d0;
    assert NatValue(s[..2]) == d0 * 10 + d1;
    assert NatValue(s[..3]) == (d0 * 10 + d1) * 10 + d2;
    var n := NatValue(s);
    FourDigits(d0, d1, d2, d3);
    var t := FormatD4(n);
    assert t[0] == s[0] && t[1] == s[1] && t[2] == s[2] && t[3] == s[3];
  }

  /** The positional digits of a four-digit number. */
  lemma FourDigits(d0: int, d1: int, d2: int, d3: int)
    requires 0 <= d0 < 10 && 0 <= d1 < 10 && 0 <= d2 < 10 && 0 <= d3 < 10
    ensures var n := ((d0 * 10 + d1) * 10 + d2) * 10 + d3;
      && 0 <= n < 10000
      && n / 1000 == d0 && n / 100 % 10 == d1 && n / 10 % 10 == d2 && n % 10 == d3
  {
    var n := ((d0 * 10 + d1) * 10 + d2) * 10 + d3;
    DivUnique(n, 10, (d0 * 10 + d1) * 10 + d2, d3);
    DivUnique(n, 100, d0 * 10 + d1, d2 * 10 + d3);
    DivUnique(n, 1000, d0, (d1 * 10 + d2) * 10 + d3);
    DivUnique(n / 100, 10, d0, d1);
    DivUnique(n / 10, 10, d0 * 10 + d1, d2);
  }

  /** Euclidean division is determined by quotient and remainder. */
  lemma DivUnique(n: int, k: int, q: int, r: int)
    requires k > 0 && n == q * k + r && 0 <= r < k
    ensures n / k == q && n % k == r
  {
    var q', r' := n / k, n % k;
    assert (q - q') * k == r' - r;
    if q - q' >= 1 {
      MulAtLeast(q - q', k);
    } else if q' - q >= 1 {
      MulAtLeast(q' - q, k);
    }
  }

  lemma MulAtLeast(a: int, k: int)
    requires a >= 1 && k > 0
    ensures a * k >= k
  {
    assert a * k == (a - 1) * k + k;
  }
}

=== FILE: waiting_slot.dfy ===
/** The older, unmapped hub: the same presence registry, a broadcast and a
    private message, group join and leave by a client-chosen name, and
    matchmaking through a single waiting slot. A caller that finds the slot
    empty takes it and waits; the next caller empties it, puts both
    connections in a fresh group and completes the waiter with the group's name.
    The waiter's suspended call is modelled as a separate step, `ResumeWaiter`. */
module WaitingSlot {
  import opened Wrappers
  import opened Entities
  import opened Signals
  import opened Presence
  import opened Text

  /** The hub's shared state: the registry, the waiting slot and the groups. */
  datatype Hub = Hub(registry: Registry, waiting: Option<ConnId>, groups: Groups)

  /** The broadcast payload: who sent it, under which name, and the text. */
  datatype Note = Note(senderId: UserId, senderName: string, content: string)

  datatype Event =
    | PresenceChanged(presence: PresenceEvent)
    | ReceiveMessage(note: Note)
    | ReceivePrivateMessage(note: Note)

  /** How a call to FindRandomChat ends for its caller: it took the slot and is
      waiting, or it paired with the previous waiter under a new chat name. */
  datatype Found = Waiting | Paired(chatId: string, partner: ConnId)

  /** A presence event as this hub's event. */
  function AsPresence(): PresenceEvent -> Event {
    (e: PresenceEvent) => PresenceChanged(e)
  }

  /** OnConnectedAsync: as in the mapped hub, over this hub's own registry. */
  function OnConnected(h: Hub, conn: ConnId, userId: Option<UserId>, username: Option<string>)
    : (r: (Hub, seq<Dispatch<Event>>))
    ensures !Registers(userId, username) ==> r == (h, [])
    ensures Registers(userId, username) ==>
      && Lookup(r.0.registry, conn) == userId
      && (forall c :: c != conn ==> Lookup(r.0.registry, c) == Lookup(h.registry, c))
      && r.1 == [Dispatch(Others, PresenceChanged(UserConnected(userId, username))),
                 Dispatch(Caller, PresenceChanged(ActiveUsersSnapshot(ActiveUsers(r.0.registry))))]
    ensures UniqueKeys(h.registry) ==> UniqueKeys(r.0.registry)
    ensures r.0.waiting == h.waiting && r.0.groups == h.groups
  {
    var (reg, out) := Connect(h.registry, conn, userId, username);
    (h.(registry := reg), Lift(out, AsPresence()))
  }

  /** OnDisconnectedAsync: the registry entry goes, announced when there was
      one, and the slot is emptied when the caller held it. */
  function OnDisconnected(h: Hub, conn: ConnId): (r: (Hub, seq<Dispatch<Event>>))
    ensures Lookup(r.0.registry, conn) == None
    ensures forall c :: c != conn ==> Lookup(r.0.registry, c) == Lookup(h.registry, c)
    ensures r.0.waiting.None? <==> h.waiting.None? || h.waiting.value == conn
    ensures r.0.waiting.Some? ==> r.0.waiting == h.waiting
    ensures r.0.groups == h.groups
    ensures Lookup(h.registry, conn).Some? <==> r.1 != []
  {
    var (reg, out) := Disconnect(h.registry, conn);
    (h.(registry := reg, waiting := ReleaseWaiting(h.waiting, conn)), Lift(out, AsPresence()))
  }

  /** SendMessage: ignored for an unauthenticated caller or an empty message;
      otherwise every client, the sender included, receives it under the
      sender's name or "Anonymous". */
  function SendMessage(userId: Option<UserId>, username: Option<string>, message: Option<string>)
    : (out: seq<Dispatch<Event>>)
    ensures userId.None? || IsNullOrEmpty(message) <==> out == []
    ensures out != [] ==>
      && |out| == 1 && out[0].to == All
      && out[0].event.ReceiveMessage?
      && out[0].event.note == Note(userId.value, username.GetOr("Anonymous"), message.value)
  {
    if userId.None? || IsNullOrEmpty(message) then []
    else [Dispatch(All, ReceiveMessage(Note(userId.value, username.GetOr("Anonymous"), message.value)))]
  }

  /** SendPrivateMessage: same guards; the recipient user's connections get it
      and the caller gets an echo of the same note. */
  function SendPrivateMessage(userId: Option<UserId>, username: Option<string>,
                              recipientId: UserId, message: Option<string>)
    : (out: seq<Dispatch<Event>>)
    ensures userId.None? || IsNullOrEmpty(message) <==> out == []
    ensures out != [] ==>
      && |out| == 2
      && out[0].to == ToUser(recipientId) && out[1].to == Caller
      && out[0].event == out[1].event
      && out[0].event == ReceivePrivateMessage(Note(userId.value, username.GetOr("Anonymous"), message.value))
  {
    if userId.None? || IsNullOrEmpty(message) then []
    else
      var note := Note(userId.value, username.GetOr("Anonymous"), message.value);
      [Dispatch(ToUser(recipientId), ReceivePrivateMessage(note)),
       Dispatch(Caller, ReceivePrivateMessage(note))]
  }

  /** JoinChat: an empty name is ignored; otherwise the caller joins the group
      and the group, the caller included, is told. An unauthenticated caller is
      announced as "Anonymous"; an authenticated one under the looked-up name,
      which may be absent. */
  function JoinChat(h: Hub, conn: ConnId, userId: Option<UserId>, username: Option<string>, chatId: Option<string>)
    : (r: (Hub, seq<Dispatch<Event>>))
    ensures IsNullOrEmpty(chatId) ==> r == (h, [])
    ensures !IsNullOrEmpty(chatId) ==>
      && Members(r.0.groups, chatId.value) == Members(h.groups, chatId.value) + {conn}
      && (forall g :: g != chatId.value ==> Members(r.0.groups, g) == Members(h.groups, g))
      && r.1 == [Dispatch(Group(chatId.value),
                          PresenceChanged(UserConnected(userId, if userId.Some? then username else Some("Anonymous"))))]
    ensures r.0.registry == h.registry && r.0.waiting == h.waiting
  {
    if IsNullOrEmpty(chatId) then (h, [])
    else
      var name := if userId.Some? then username else Some("Anonymous");
      (h.(groups := AddToGroup(h.groups, conn, chatId.value)),
       [Dispatch(Group(chatId.value), PresenceChanged(UserConnected(userId, name)))])
  }

  /** LeaveChat: an empty name is ignored; otherwise the caller leaves the
      group and the remaining members are told. */
  function LeaveChat(h: Hub, conn: ConnId, userId: Option<UserId>, chatId: Option<string>)
    : (r: (Hub, seq<Dispatch<Event>>))
    ensures IsNullOrEmpty(chatId) ==> r == (h, [])
    ensures !IsNullOrEmpty(chatId) ==>
      && Members(r.0.groups, chatId.value) == Members(h.groups, chatId.value) - {conn}
      && (forall g :: g != chatId.value ==> Members(r.0.groups, g) == Members(h.groups, g))
      && r.1 == [Dispatch(Group(chatId.value), PresenceChanged(UserDisconnected(userId)))]
    ensures r.0.registry == h.registry && r.0.waiting == h.waiting
  {
    if IsNullOrEmpty(chatId) then (h, [])
    else
      (h.(groups := RemoveFromGroup(h.groups, conn, chatId.value)),
       [Dispatch(Group(chatId.value), PresenceChanged(UserDisconnected(userId)))])
  }

  // ---------------------------------------------------------------------------
  // Matchmaking through the waiting slot
  // ---------------------------------------------------------------------------

  /** The locked part of FindRandomChat together with the pairing branch. With
      the slot empty the caller takes it; otherwise the slot is emptied and both
      connections join the group named `freshId` (a new GUID in the source,
      supplied here). The waiter's occupancy is not compared with the caller. */
  function FindRandomChat(h: Hub, caller: ConnId, freshId: string): (r: (Hub, Found))
    ensures h.waiting.None? ==> r == (h.(waiting := Some(caller)), Waiting)
    ensures h.waiting.Some? ==>
      && r.1 == Paired(freshId, h.waiting.value)
      && r.0.waiting.None?
      && Members(r.0.groups, freshId) == Members(h.groups, freshId) + {caller, h.waiting.value}
      && (forall g :: g != freshId ==> Members(r.0.groups, g) == Members(h.groups, g))
    ensures r.0.registry == h.registry
  {
    match h.waiting
    case None => (h.(waiting := Some(caller)), Waiting)
    case Some(partner) =>
      var gs := AddToGroup(AddToGroup(h.groups, caller, freshId), partner, freshId);
      (h.(waiting := None, groups := gs), Paired(freshId, partner))
  }

  /** The waiter's call, resumed with the chat name it was completed with: it
      adds itself to that group (again) and returns the name. */
  function ResumeWaiter(h: Hub, waiter: ConnId, chatId: string): (r: (Hub, string))
    ensures r.1 == chatId
    ensures Members(r.0.groups, chatId) == Members(h.groups, chatId) + {waiter}
    ensures forall g :: g != chatId ==> Members(r.0.groups, g) == Members(h.groups, g)
    ensures r.0.registry == h.registry && r.0.waiting == h.waiting
  {
    (h.(groups := AddToGroup(h.groups, waiter, chatId)), chatId)
  }

  /** The waiter's own join after it resumes changes nothing: the pairing
      caller already put it in the group. Both ends of a pair return the same
      chat name and share that group. */
  lemma PairingIsSymmetric(h: Hub, waiter: ConnId, caller: ConnId, freshId: string)
    requires h.waiting == Some(waiter)
    ensures var (h1, found) := FindRandomChat(h, caller, freshId);
      && found == Paired(freshId, waiter)
      && ResumeWaiter(h1, waiter, freshId).0 == h1
      && ResumeWaiter(h1, waiter, freshId).1 == freshId
      && {waiter, caller} <= Members(h1.groups, freshId)
  {
    var (h1, _) := FindRandomChat(h, caller, freshId);
    var gs := AddToGroup(h1.groups, waiter, freshId);
    assert waiter in Members(h1.groups, freshId);
    assert gs == h1.groups;
  }

  /** A connection whose call is still waiting, calling again, is paired with
      itself: nothing compares the slot's occupant with the caller. */
  lemma WaiterPairsWithItself(h: Hub, conn: ConnId, freshId: string)
    requires h.waiting.None?
    ensures var h1 := FindRandomChat(h, conn, freshId).0;
      FindRandomChat(h1, conn, freshId).1 == Paired(freshId, conn)
  {
  }

  /** A waiter that disconnects empties the slot, so the next caller waits
      instead of pairing with a gone connection. */
  lemma DisconnectedWaiterIsNotPaired(h: Hub, waiter: ConnId, caller: ConnId, freshId: string)
    requires h.waiting == Some(waiter)
    ensures var h1 := OnDisconnected(h, waiter).0;
      FindRandomChat(h1, caller, freshId).1 == Waiting
  {
  }

  /** A run of FindRandomChat calls, one per (connection, fresh id) pair, in
      order: the final hub and how each call ended. */
  function Run(h: Hub, calls: seq<(ConnId, string)>): (r: (Hub, seq<Found>))
    ensures |r.1| == |calls|
    decreases |calls|
  {
    if |calls| == 0 then (h, [])
    else
      var (h1, fs) := Run(h, calls[..|calls| - 1]);
      var (h2, f) := FindRandomChat(h1, calls[|calls| - 1].0, calls[|calls| - 1].1);
      (h2, fs + [f])
  }

  /** Callers pair off in arrival order: from an empty slot, every even-indexed
      call waits and every odd-indexed call pairs with the call just before it
      under its own fresh id; after the run the slot is held exactly when the
      number of calls is odd, and then by the last caller. */
  lemma {:induction false} RunPairsInArrivalOrder(h: Hub, calls: seq<(ConnId, string)>)
    requires h.waiting.None?
    ensures var (h', fs) := Run(h, calls);
      && (forall i :: 0 <= i < |calls| && i % 2 == 0 ==> fs[i] == Waiting)
      && (forall i :: 0 <= i < |calls| && i % 2 == 1 ==> fs[i] == Paired(calls[i].1, calls[i - 1].0))
      && (h'.waiting.Some? <==> |calls| % 2 == 1)
      && (h'.waiting.Some? ==> h'.waiting.value == calls[|calls| - 1].0)
      && h'.registry == h.registry
    decreases |calls|
  {
    if |calls| > 0 {
      var n := |calls| - 1;
      var prefix := calls[..n];
      RunPairsInArrivalOrder(h, prefix);
      var (h1, fs1) := Run(h, prefix);
      var (h2, f) := FindRandomChat(h1, calls[n].0, calls[n].1);
      assert Run(h, calls) == (h2, fs1 + [f]);
      forall i | 0 <= i < n
        ensures calls[i] == prefix[i]
      {
      }
      if n % 2 == 1 {
        assert prefix[n - 1] == calls[n - 1];
      }
    }
  }
}

=== FILE: wrappers.dfy ===
/** Failure-compatible wrappers: the model's stand-ins for C# `null` and for thrown exceptions. */
module Wrappers {

  /** A nullable value: `None` plays the role of C# `null`. */
  datatype Option<+T> = None | Some(value: T) {

    /** The value, or `default` when there is none (C# `??`). */
    function GetOr(default: T): T {
      match this
      case Some(v) => v
      case None => default
    }
  }

  /** The outcome of an operation that may throw: `Failure` carries the exception kind. */
  datatype Result<+R, +E> = Success(value: R) | Failure(error: E) {

    predicate IsFailure() {
      Failure?
    }

    function PropagateFailure<U>(): Result<U, E>
      requires Failure?
    {
      Failure(error)
    }

    function Extract(): R
      requires Success?
    {
      value
    }
  }
}
